=== FILE: README.md ===
# EdofWithBSpline: a verified model of the DOE camera simulator

EdofWithBSpline is an end-to-end extended-depth-of-field camera. A
diffractive optical element (DOE) sits on the aperture, and its height
profile is a B-spline surface whose control points are trained. This
project models the numerical core of that camera simulator in Dafny, and
the helpers around it:

- `tensor.dfy` (module `Tensor`): real matrices as `seq<seq<real>>`,
  together with sums, scaling, `linspace`, matrix product and transpose.
  Every other module uses these.
- `utils.dfy` (module `Utils`): `crop_boundary`, `pad_or_crop`,
  `to_bayer`, the inverse-perspective depth maps `ips_to_metric` and
  `metric_to_ips`, `complex_matmul` and `complex_transpose`.
- `fft.dfy` (module `Fft`): `torch.roll`, `fftshift`, `ifftshift` and
  `exp2xy`.
- `optics.dfy` (module `Optics`): the camera base class's pure parts.
  - `_depthmap2layers` (with an in-place mask over `array3`).
  - Argument checks: `normalize_image_size`, `__register_wavlength` and the
    minimum-depth check.
  - Optics: `apply_stop`, `normalize_psf`, `heightmap2phase`,
    `refractive_index` (Cauchy's dispersion formula), and the derived
    quantities `f_number`, `sensor_distance`, `slope_range` and
    `aperture_pitch`.
- `camera.dfy` (module `CameraPsf`): the `Camera` object itself.
  - Its constructor.
  - `psf_at_camera`: the PSF cache, the depth jitter, the diffraction
    scaler, the mix of diffracted and undiffracted PSFs, the random
    red/blue pixel shift, and the final pad or crop.
- `classic.dfy` (module `Classic`): the Fourier-optics camera
  `ClassicCamera`.
  - Its oversampling scale factor and sampling interval.
  - The `(u, v)` aperture grid.
  - The phase and amplitude planes of `psf` (the amplitude
    `d / (λ·(r² + d²))`, the aperture stop and the division by the
    maximum), then decimation, energy scaling and `fftshift`.
  - The cached `heightmap`.
  - `prepare_lattice_focal_init`.
- `bsac.dfy` (module `Bsac`): the B-spline aperture camera.
  - Clamped knot vectors and the choice between knots and degrees.
  - Control-point initialisation and the stacked design matrices.
  - The heightmap `U · C · Vᵀ`.
  - `extract_parameters`.
- `evaluation.dfy` (module `Evaluation`): the evaluation script.
  - `md_annotate`, which bolds the best value of every metric column of a
    results table, over an `array2` table.
  - The image-id spec parser (`12`, `3-7`, `[1,4,9]`).
  - The check of metric names.
  - The selection of `.ckpt` checkpoints.
- `results.dfy` (module `Results`): `Option` and `Result`.

Exceptions in the source (`ValueError`, `IndexError`, division by zero)
become `Err`/`None` values. Random draws, the FFT, `sqrt`, `cos`/`sin`, the
scipy B-spline basis and the number formatter become parameters of the
operations that use them.

## Model

| member | source | states |
|---|---|---|
| Tensor.LinspaceEnds | optics/__init__.py:56-58 | `linspace(a, b, n)` starts at `a` and, for `n ≥ 2`, ends at `b` |
| Tensor.LinspaceMonotone | optics/__init__.py:56-58 | `linspace` samples are nondecreasing and stay inside `[a, b]` |
| Tensor.LinspaceSymmetric | optics/classic.py:112 | `linspace(-c, c, n)` is antisymmetric: entry `k` is minus entry `n-1-k` |
| Tensor.SumScale | optics/__init__.py:139-140 | scaling a matrix by `c` scales its total by `c` |
| Tensor.SumCombine | optics/__init__.py:142-144 | the total of `e·A + f·B` is `e·ΣA + f·ΣB` |
| Tensor.TransposeTwice | optics/bsac.py:170 | transposing twice gives back the matrix |
| Utils.CropBoundaryShape | utils/__init__.py:18-22 | `w = 0` returns the input; otherwise the result is `(h-2w) × (wd-2w)` and entry `(i, j)` is input entry `(i+w, j+w)` |
| Utils.CropBoundaryEmpty | utils/__init__.py:22 | when `2w ≥ h` the slice `w:-w` leaves no rows, and every row it leaves is empty when `2w ≥ wd` |
| Utils.PadOrCropEntries | utils/__init__.py:25-30 | with a target, the result has the padded extent on each axis, and entry `(i, j)` is input entry `(i-pad_h, j-pad_w)` when that exists and zero otherwise; a negative pad crops |
| Utils.PaddedExtentValue | utils/__init__.py:28-30 | padding by `(t-n)//2` on both sides yields `t` for an even difference and `t-1` for an odd one |
| Utils.PadOrCropIdentity | utils/__init__.py:26-27 | no target, or a target equal to the current shape, leaves the matrix unchanged |
| Utils.PadOrCropTwice | utils/__init__.py:25-30 | `pad_or_crop` is idempotent for a fixed target |
| Utils.PadThenCrop | utils/__init__.py:25-30 | padding to a target of the same parity and then back to the old shape restores the matrix |
| Utils.PadOrCropIsCropBoundary | utils/__init__.py:18-30 | `pad_or_crop` to `(h-2w, wd-2w)` is `crop_boundary(x, w)` |
| Utils.PadOrCropSumPad | utils/__init__.py:25-30 | zero padding (a target at least as large) keeps the total energy |
| Utils.BayerBlock | utils/__init__.py:48-56 | the mask repeats the 2×2 block R G / G B |
| Utils.FillStrided | utils/__init__.py:51-56 | one masking statement sets exactly the entries of channel `c` on the `i0::2, j0::2` lattice to one |
| Utils.MaskedSumSelects | utils/__init__.py:57-58 | the channel sum of `x·mask` at a pixel picks that pixel's Bayer channel |
| Utils.ToBayer | utils/__init__.py:48-59 | the mosaic has the image's height and width, and each pixel holds the value of its Bayer channel |
| Utils.IpsToMetricEnds | utils/__init__.py:62-74 | inverse-perspective 0 maps to `min_depth` and 1 to `max_depth` |
| Utils.IpsDenominatorSign | utils/__init__.py:74 | the denominator is positive exactly below `max/(max-min)` |
| Utils.IpsToMetricIncreasing | utils/__init__.py:62-74 | the map is strictly increasing on its positive branch |
| Utils.IpsToMetricBounds | utils/__init__.py:62-74 | samples in `[0, 1]` map into `[min_depth, max_depth]` |
| Utils.MetricToIpsOfIpsToMetric | utils/__init__.py:62-88 | `metric_to_ips` inverts `ips_to_metric` |
| Utils.IpsToMetricOfMetricToIps | utils/__init__.py:62-88 | `ips_to_metric` inverts `metric_to_ips` on nonzero depths |
| Utils.CDotRe | utils/__init__.py:94 | the real part of a complex dot product is `ar·br - ai·bi` |
| Utils.CDotIm | utils/__init__.py:95 | the imaginary part is `ai·br + ar·bi` |
| Utils.ComplexMatmulEntry | utils/__init__.py:91-96 | each entry of the product is the complex dot product of a row and a column |
| Utils.ComplexTransposeTwice | utils/__init__.py:99-100 | the transpose swaps indices and is an involution |
| Fft.RollAt | utils/fft.py:13 | `roll(s, k)[j] == s[(j-k) mod n]` |
| Fft.RollRotates | utils/fft.py:13 | rolling is the rotation `s[n-k..] + s[..n-k]` |
| Fft.RollRoll | utils/fft.py:13 | rolling by `a` and then by `b` is rolling by `a+b` |
| Fft.RollWhole | utils/fft.py:13 | rolling by a multiple of the length is the identity |
| Fft.RollPermutes | utils/fft.py:13 | rolling permutes the elements |
| Fft.RollSum | utils/fft.py:13 | rolling keeps the sum |
| Fft.Roll2At | optics/__init__.py:151-153 | the two-axis roll moves entry `(i, j)` by `(kh, kw)` modulo the shape |
| Fft.Roll2Roll2 | optics/__init__.py:151-153 | two-axis rolls compose additively |
| Fft.Roll2Sum | optics/__init__.py:151-153 | the two-axis roll keeps the total energy |
| Fft.FftShiftMoves | utils/fft.py:11-14 | `fftshift` moves entry `(i, j)` by half the extent on each axis |
| Fft.FftShiftIsRoll | utils/fft.py:11-14 | `fftshift` is the roll by `(n//2)` on each axis |
| Fft.IfftShiftOfFftShift | utils/fft.py:11-20 | `ifftshift` undoes `fftshift` |
| Fft.FftShiftOfIfftShift | utils/fft.py:11-20 | `fftshift` undoes `ifftshift` |
| Fft.ShiftsAgreeWhenEven | utils/fft.py:11-20 | on even extents the two shifts coincide |
| Fft.ShiftsKeepSum | utils/fft.py:11-20 | both shifts keep the total energy |
| Fft.Exp2XyIntensity | utils/fft.py:49-52 | given `cos² + sin² = 1`, the squared modulus of `(a·cos φ, a·sin φ)` is `a²` |
| Optics.ClampDepth | optics/__init__.py:20 | the depth is clamped into `[1e-8, 1]` and unchanged inside it |
| Optics.BinaryOneHot | optics/__init__.py:27-28 | binary layering puts weight one on exactly one layer, the one holding `ceil(depth·n)` |
| Optics.BinaryWeightsSumToOne | optics/__init__.py:27-28 | binary layer weights sum to one at every pixel |
| Optics.SoftWeightBounds | optics/__init__.py:29-32 | each soft weight lies in `[0, 1]`, with the three-branch value the masks assign |
| Optics.SoftWeightsExceedOne | optics/__init__.py:29-32 | a concrete depth whose soft weights sum to 1.7, not to one |
| Optics.SetWhere | optics/__init__.py:28-32 | one masked assignment changes exactly the entries whose difference is in range |
| Optics.Diffs | optics/__init__.py:21-25 | `diff[k][i][j] = (k+1) - clamp(depth[i][j])·n` |
| Optics.DepthmapToLayers | optics/__init__.py:17-34 | the fresh mask has shape `n × h × w`, and each entry is that layer's binary or soft weight |
| Optics.NormalizeImageSizeAccepts | optics/__init__.py:285-294 | an int `n` gives `[n, n]`; a list passes iff its first two sizes are even; any other type is an error |
| Optics.IntSizeSkipsParity | optics/__init__.py:287-291 | an odd int size is accepted, although the same size as a list is refused |
| Optics.RegisterWavelengthsAccepts | optics/__init__.py:257-266 | a tuple whose length is a multiple of 3 is accepted; a single float yields one wavelength and fails the count; other types fail |
| Optics.CheckConfigOrder | optics/__init__.py:53-73 | the constructor refuses `min_depth < 1e-6` first, then a bad image size, then bad wavelengths |
| Optics.ApplyStopAt | optics/__init__.py:159-160 | inside the circle `r² < D²/4` the value is kept; on or outside it, it is zeroed |
| Optics.ApplyStopIdempotent | optics/__init__.py:159-160 | applying the stop twice equals applying it once |
| Optics.NormalizeSliceSum | optics/__init__.py:281-283 | a slice with nonzero sum is rescaled to sum one, and scaling back recovers every entry |
| Optics.NormalizeSliceIdempotent | optics/__init__.py:281-283 | normalising a normalised slice changes nothing |
| Optics.NormalizePsfUnit | optics/__init__.py:281-283 | after `normalize_psf` every depth slice with nonzero sum has unit energy |
| Optics.RefractiveIndexInU | optics/__init__.py:300-306 | with NOA61's default coefficients, the Cauchy formula is `a + b·u + c·u²` with `u = 1/(λ·1e6)²` |
| Optics.RefractiveIndexDecreasing | optics/__init__.py:300-306 | across the visible range (0.3 µm upward) the index decreases with wavelength and stays above `a` (normal dispersion) |
| Optics.HeightmapToPhaseRoundTrip | optics/__init__.py:296-298 | the height is recovered from the phase when `λ ≠ 0` and `n ≠ 1` |
| Optics.HeightmapToPhaseLinear | optics/__init__.py:296-298 | the phase is linear in the height |
| Optics.Divide | optics/__init__.py:214 | division returns a value exactly when the divisor is nonzero, and the value times the divisor is the dividend |
| Optics.FNumberMeaning | optics/__init__.py:212-214 | `f_number · D = f`, defined iff `D ≠ 0` |
| Optics.AperturePitchMeaning | optics/__init__.py:232-234 | `pitch · aperture_size = D`, defined iff `aperture_size ≠ 0` |
| Optics.SensorDistanceThinLens | optics/__init__.py:216-218 | the sensor distance satisfies the thin-lens law `1/s + 1/d = 1/f`, and exceeds `f` when `0 < f < d` |
| Optics.SlopeRangeBounds | optics/__init__.py:228-230 | for positive depths with min ≤ max the slope range lies in `[0, 2)` |
| CameraPsf.ResizePsfTwice | optics/__init__.py:122 | `pad_or_crop` of a cached PSF to the same size is stable |
| CameraPsf.CombineSliceUnit | optics/__init__.py:136-144 | mixing a normalised diffracted and a normalised undiffracted slice gives unit energy |
| CameraPsf.RollChannelKeeps | optics/__init__.py:151-153 | shifting a channel keeps each slice's shape and energy |
| CameraPsf.ShiftChannels | optics/__init__.py:151-154 | the shifted PSF has three channels and the green one is unchanged |
| CameraPsf.SceneDistancesRange | optics/__init__.py:56-58 | the constructor's scene distances lie in `[min, max]` and run from `min` to `max` |
| CameraPsf.JitteredIps | optics/__init__.py:125-127 | the jittered inverse-perspective samples, clamped, lie in `[0, 1]` |
| CameraPsf.RequestDepths | optics/__init__.py:124-130 | the corrected request, with clamped samples: a sampling error occurs iff training with no depths; otherwise there are `n` depths |
| CameraPsf.RequestDepthsRange | optics/__init__.py:124-130 | in the corrected request every depth is at least `min`; all but the jittered last one are at most `max`; outside training they are the constructor's scene distances |
| CameraPsf.RequestDepthsAsWritten | optics/__init__.py:124-130 | the request as written, unclamped: `DepthIndex` iff training with no depths, `DepthAtPole` iff a sample lies on the pole, otherwise `n` depths |
| CameraPsf.RequestDepthsAsWrittenOutsideTraining | optics/__init__.py:124-128 | outside training no sample hits the pole, and the request is the constructor's scene distances |
| CameraPsf.RequestDepthsAgree | optics/__init__.py:125-128 | when every jittered sample already lies in `[0, 1]`, the request as written and the corrected one coincide |
| CameraPsf.RequestDepthsAsWrittenPassesPole | optics/__init__.py:125-130 | the unclamped jitter yields a negative last depth for `min 1, max 100, n 5` |
| CameraPsf.PsfMissOutcome | optics/__init__.py:124-157 | the error cases (no depth, a sample on the pole, fewer than three channels in training), which of them leave scaler and cache alone, the scaler saved at the distances as written, the refreshed cache and the channel count of a recomputed PSF |
| CameraPsf.PsfMissGreenUnmoved | optics/__init__.py:124-156 | in training, unless a sample hits the pole, the green channel is the mixed PSF at the distances as written, resized and unshifted |
| CameraPsf.PsfMissUnitSlices | optics/__init__.py:136-156 | with nonzero raw sums and a target at least as large, every returned slice has unit energy |
| CameraPsf.Camera.constructor | optics/__init__.py:38-76 | the fields hold the checked arguments, the scene distances and empty scaler and cache |
| CameraPsf.Camera.PsfAtCamera | optics/__init__.py:115-157 | a cache hit returns the resized cache and changes nothing; otherwise the result, scaler and cache are those of a recomputation |
| Classic.ScaleFactorIsCeiling | optics/classic.py:27-30 | the scale factor is the ceiling of the oversampling ratio, and at least one |
| Classic.MinOf | optics/classic.py:29 | the minimum wavelength is an element and bounds all others |
| Classic.UvGridSpacing | optics/classic.py:105-113 | neighbouring aperture samples are `Δ·n/(n-1)` apart and the axis spans `n·Δ`, so the grid does not step by exactly one interval |
| Classic.FloorDiv | optics/classic.py:111 | Python's floor division, for either sign of the divisor |
| Classic.UvGridSymmetric | optics/classic.py:110-113 | the aperture axis is symmetric about zero, from `-n/2·Δ` to `n/2·Δ` |
| Classic.RSquaredPointSymmetric | optics/classic.py:33 | `u² + v²` is point-symmetric on the grid |
| Classic.PhaseModulation | optics/classic.py:62-67 | without modulation the phase ignores the heightmap; with it, the phase gains exactly `heightmap2phase(h)` |
| Classic.MaxOf | optics/classic.py:71 | the maximum is an element and bounds all others |
| Classic.StopAndNormalizeOutside | optics/classic.py:69-71 | amplitude outside the aperture is zero after stop and normalisation |
| Classic.NormalizeByMaxPeak | optics/classic.py:71 | after division by a positive maximum, every sample is at most one and the maximum is one |
| Classic.NormalizeByMaxSign | optics/classic.py:71 | division by a positive maximum keeps nonnegative samples nonnegative and positive samples positive, and no others |
| Classic.AmplitudeMeaning | optics/classic.py:62-69 | the amplitude times `λ·(r² + d²)` gives back the scene distance `d`, and it is positive for a point in front of the lens |
| Classic.AmplitudeFallsOff | optics/classic.py:62-69 | for a positive distance and wavelength, the amplitude falls off with the squared radius, strictly when the radius grows |
| Classic.StoppedAmplitudeSign | optics/classic.py:62-70 | lit from in front of the lens, the stopped amplitude is nonnegative, and positive exactly inside the aperture circle |
| Classic.PsfAmplitudeUnitPeak | optics/classic.py:62-71 | with some sample inside the aperture, the amplitude plane of `psf` lies in `[0, 1]`, is positive exactly inside the aperture and peaks at one |
| Classic.StridedAt | optics/classic.py:76 | the slice `start::step` holds `s[start + k·step]` while that exists |
| Classic.StridedLength | optics/classic.py:76 | its length is `ceil((n - start)/step)` |
| Classic.DecimateAt | optics/classic.py:75-76 | decimation picks entry `(sf//2 + i·sf, sf//2 + j·sf)` |
| Classic.ScaledShiftEnergy | optics/classic.py:77-81 | scaling and `fftshift` multiply the energy by the scale |
| Classic.FinishSlice | optics/classic.py:77-82 | when the image size covers the decimated slice, scaling, `fftshift` and the final pad multiply its energy by the scale |
| Classic.RoundHalfEven | optics/classic.py:49 | Python's `round` is within one half of its argument |
| Classic.LatticeFocalCountAtLeastThree | optics/classic.py:45-53 | `n = max(3, round(x))` never trips the `n < 2` error; the result fails only without wavelengths, and otherwise picks the middle wavelength |
| Classic.ClassicCamera.constructor | optics/classic.py:14-35 | the scale factor, both axes per wavelength, `r²` and an empty heightmap history |
| Classic.ClassicCamera.Heightmap | optics/classic.py:84-87 | the cache is refilled unless it is used and present; the result is the cache |
| Classic.ClassicCamera.PsfPhase | optics/classic.py:55-67 | every phase sample is the defocus phase, plus the DOE phase when modulating; only modulation refreshes the heightmap history |
| Bsac.ClampedKnotVector | optics/bsac.py:14-17 | the knot vector exists iff `-1 ≤ p` and `p+1 ≤ n`, and then has `n + p + 1` knots |
| Bsac.KnotVectorClamped | optics/bsac.py:14-17 | the first `p+1` knots are 0 and the last `p+1` are 1 |
| Bsac.KnotVectorSorted | optics/bsac.py:14-17 | the knots are nondecreasing within `[0, 1]` |
| Bsac.Configure | optics/bsac.py:54-61 | given knots, the degrees are `len(kv) - n - 1`; otherwise the clamped knots of the given degrees |
| Bsac.DegreesRecovered | optics/bsac.py:54-61 | the knots chosen for given degrees give those degrees back |
| Bsac.InitialControlPoints | optics/bsac.py:65-69 | `lattice_focal` uses its initial value; any other type gives a zero grid |
| Bsac.SplineSurfaceEntry | optics/bsac.py:169-170 | each heightmap entry is the bilinear form `u_i · C · v_j` |
| Bsac.SplineSurfaceLinear | optics/bsac.py:169-170 | the surface is linear in the control points |
| Bsac.DesignMatrix | optics/bsac.py:160-167 | dimension 1 stacks the basis rows of the scaled `u` grid; dimension 0 does so for `v` |
| Bsac.DesignMatrixColumns | optics/bsac.py:72-80 | the stacked matrices compose with the control points iff the grid is square |
| Bsac.DesignMatrices | optics/bsac.py:173-182 | the loop fills one `len × c_n` block per leading index, equal to the stacked basis matrices |
| Bsac.SplineCamera.constructor | optics/bsac.py:25-73 | the spline configuration, the initial control points and both design matrices |
| Bsac.SplineCamera.Heightmap | optics/bsac.py:75-80 | defined iff the matrices compose; then it is the folded surface per wavelength |
| Bsac.ExtractParameters | optics/bsac.py:134-145 | unsupported types fail with the source's message; otherwise `degrees` and `grid_size` become pairs and all other keys are kept |
| Bsac.ExtractedGridComposes | optics/bsac.py:134-145 | a square grid from `extract_parameters` always composes |
| Evaluation.Find | test_on_dataset.py:42 | `str.find`: -1 iff there is no occurrence, otherwise the first one |
| Evaluation.ColumnDirections | test_on_dataset.py:40-43 | fails iff a `psnr` or `ssim` name lies past the last value column, naming the first such position; otherwise column `c` is maximised iff its metric name contains `psnr` or `ssim` |
| Evaluation.ArgBest | test_on_dataset.py:44 | `argmax`/`argmin`: an extremal row, the first with that value |
| Evaluation.ArgBestUnique | test_on_dataset.py:44 | the extremal first row is the only answer |
| Evaluation.ValueMatrix | test_on_dataset.py:36-39 | the data matrix is the table without its name column |
| Evaluation.MarkRow | test_on_dataset.py:46-48 | every value cell of one row is formatted, and bolded iff that row wins its column |
| Evaluation.MdAnnotate | test_on_dataset.py:35-49 | fails with that position, writing nothing, iff a `psnr` or `ssim` name lies past the value columns; otherwise every cell becomes its annotated value computed from the old table |
| Evaluation.OneBoldPerColumn | test_on_dataset.py:35-49 | each metric column has exactly one bold cell, at its best value |
| Evaluation.DecimalRoundTrip | test_on_dataset.py:110 | `int()` of the decimal rendering of `n` is `n` |
| Evaluation.ParseInt | test_on_dataset.py:110 | `int()` of a digit string fails exactly on the empty string |
| Evaluation.IdRange | test_on_dataset.py:112 | `range(a, b+1)`: consecutive, holding exactly `a..b`, empty iff `b < a` |
| Evaluation.JoinSplit | test_on_dataset.py:114 | joining the comma groups restores the string |
| Evaluation.SplitJoin | test_on_dataset.py:114 | splitting comma-free groups joined by commas restores the groups |
| Evaluation.ParseGroups | test_on_dataset.py:114-115 | `map(int, …)` succeeds iff no group is empty, giving each value |
| Evaluation.ParseRange | test_on_dataset.py:111-112 | a range spec `a-b` parses to `range(a, b+1)` |
| Evaluation.ParseList | test_on_dataset.py:113-115 | a bracket list parses to its values in order |
| Evaluation.ParseIdSpecShapes | test_on_dataset.py:109-117 | every accepted spec is a single number, a range or a list |
| Evaluation.SingleRoundTrip | test_on_dataset.py:109-110 | the rendering of one id parses back to it |
| Evaluation.RangeRoundTrip | test_on_dataset.py:111-112 | the rendering `a-b` parses back to `a..b` |
| Evaluation.ListRoundTrip | test_on_dataset.py:113-115 | the rendering `[a,b,…]` parses back to the ids |
| Evaluation.IdTensor | test_on_dataset.py:118 | `torch.tensor` accepts a list of ints as it is and refuses a `map` object |
| Evaluation.ImageIdsAsWrittenRefusesLists | test_on_dataset.py:113-118 | as written, every bracketed list, `[]` and `[,]` included, fails at `torch.tensor` before any group is converted |
| Evaluation.ImageIdsAsWrittenElsewhere | test_on_dataset.py:109-118 | numbers, ranges and malformed specs fare the same as written and in the corrected parser |
| Evaluation.ListRefusedAsWritten | test_on_dataset.py:113-118 | every id list written as `[a,b,…]` is read back by the corrected parser and refused as written |
| Evaluation.CheckMetrics | test_on_dataset.py:143-146 | succeeds iff every requested metric is known; otherwise it names the first unknown one |
| Evaluation.CheckpointFiles | test_on_dataset.py:152 | the kept names are exactly the listed names ending in `.ckpt` |
| Evaluation.CheckpointFilesAppend | test_on_dataset.py:152 | the filter distributes over concatenation, so listing order is kept |
| Evaluation.CheckpointNames | test_on_dataset.py:149-152 | a given checkpoint file is used alone; otherwise the filtered listing |

## Left out

- The FFT itself (`old_fft_exp`), `sqrt`, `cos`/`sin` and `torch.rand` /
  `np.random.randint` are parameters. The model takes the FFT's output,
  the square root and the random draws as inputs, and never computes them.
- `forward`, `get_capt_img`, `otf`, `mtf`, `psf_out_energy`, `aberration`,
  `heightmap_log`, `specific_log`, `extra_repr`, `__make_grid` and the
  logging are not modelled. They need image formation, complex FFT
  magnitude or plotting code that is not part of this model.
- `algorithm.image`, `algorithm.slopemap`, `slope2height`,
  `utils.fold_profile`, `scale_coordinate`, `kernel.get_slope_range` and
  `kernel.get_delta` are not part of this model. They enter as parameters
  or precomputed values.
- The scipy `BSpline.design_matrix` is a parameter (`Basis`); the model
  states shapes and stacking, not the basis values.
- Floating point is modelled as exact reals. `float32` rounding and the
  double-precision switch are not modelled.
- Batch dimensions are dropped. Tensors are matrices, or stacks of
  matrices per channel and depth. `to_bayer` works on one image, and the
  leading axes of the design-matrix input are flattened.
- Optics.NormalizeSlice: a slice whose sum is zero is left unchanged,
  where torch divides by zero and returns NaN.
- Classic.NormalizeByMax: a zero maximum leaves the samples unchanged,
  where torch produces NaN.
- Division by zero in `f_number`, `aperture_pitch` and `sensor_distance`
  becomes `None`, where Python raises `ZeroDivisionError` or torch returns
  infinity.
- Utils.IpsToMetricBounds, Utils.MetricToIpsOfIpsToMetric and the other
  `ips_to_metric` lemmas require `0 < min_depth < max_depth`. The source
  does not check this; outside it the map can divide by zero.
- Optics.RefractiveIndex fixes the coefficients `a`, `b` and `c` to the
  NOA61 defaults of `refractive_index`. The source takes them as optional
  arguments, and every caller in the modelled code uses the defaults.
- Optics.RefractiveIndexDecreasing requires wavelengths of at least
  0.3 µm, which holds for the visible wavelengths used. The formula is not
  monotone for arbitrary inputs.
- Optics.HeightmapToPhaseRoundTrip requires `λ ≠ 0` and `n ≠ 1`. `π` is
  the double-precision constant `math.pi`, taken as an exact real.
- CameraPsf.PsfMissUnitSlices requires nonzero raw PSF sums and a target
  size at least as large as the PSF. A crop that cuts off energy breaks
  unit energy in the source too.
- CameraPsf.RequestDepths clamps the jittered inverse-perspective samples
  into `[0, 1]` and does not let the last depth pass the pole. It is the
  corrected request; the PSF pipeline uses the unclamped request as written
  (see Findings).
- CameraPsf.PsfMissOutcome and CameraPsf.Camera.PsfAtCamera: a jittered
  sample exactly on the pole gives an infinite distance in the source, and
  the PSF computed from it. The model stops the request with `DepthAtPole`
  and leaves the scaler and the cache unchanged.
- CameraPsf.Camera.constructor requires `0 < max_depth`. The source checks
  only `min_depth`; with a nonpositive `max_depth` its scene distances can
  divide by zero.
- Classic.Amplitude requires a nonzero wavelength and a nonzero
  `r² + d²`. There the source's division gives `inf` or NaN.
- Classic.AmplitudeAll flattens the broadcast over wavelengths, depths
  and the aperture grid. Each sample carries its own squared radius,
  distance and wavelength; the 4-d shape is not modelled.
- Classic.StopAndNormalize takes the amplitude plane as a parameter.
  Classic.PsfAmplitude feeds it the amplitude of `psf`.
- Classic.ClassicCamera.constructor requires a positive oversampling
  ratio, at least one wavelength, a nonzero smallest wavelength, nonzero
  sensor distance and camera pitch, and `psf_factor ≥ 1`. The source
  accepts more and fails in other places:
  - A zero aperture diameter, a zero camera pitch, and any ratio in
    `(-2, 0]` give `int(ceil(x) + 1e-5) == 0`. The source then builds
    empty axes and succeeds.
  - A ratio of `-2` or less makes `torch.linspace` raise on a negative
    count.
  - An empty wavelength tuple makes `torch.min` raise.
  - A zero smallest wavelength raises the `OverflowError` of `int(inf)`.
  - A zero sensor distance divides by zero in `camera_pitch / sensor_distance`.
  - `psf_factor == 0` raises `ZeroDivisionError` at `// psf_factor`.
    A negative `psf_factor` is excluded as well.
  None of these cases is modelled.
- Bsac.SplineCamera.Heightmap requires matching stack lengths. Only square
  grids compose: with `grid_size (N, M)` and `N ≠ M`, `U·C·Vᵀ` is
  ill-shaped in the source as well.
- Bsac.DesignMatrices requires every basis block to have the stated
  shape. scipy fixes its rows (one per sample) and its columns
  (`len(kv) − p − 1`). Those columns equal the control-point extent only
  because the one caller, optics/bsac.py:103-104, passes `c.shape[-2]` and
  `c.shape[-1]`, and Bsac.Configure makes those the basis counts.
- Utils.ToBayer requires at least three channels. `to_bayer` indexes
  channel 2 of the mask, so on fewer channels the source raises
  `IndexError`; that error path is not modelled.
- Evaluation.MdAnnotate requires a nonempty, well-formed table with a name
  column and numeric cells. The source raises `IndexError` on an empty
  table. The formatter `'{:.3g}'` is a parameter.
- Evaluation.MdAnnotate's contract is stated with `old`. Its properties
  are carried by Evaluation.OneBoldPerColumn.
- Evaluation.ParseIdSpecShapes: only ASCII digits are modelled. Python's
  `\d` also matches other Unicode digits, and `$` also matches before a
  trailing newline; neither is modelled.
- Evaluation: the `.reshape(-1, batch_sz)` of the id tensor,
  `os.path.join`, `os.listdir`, `get_item`, `model_eval`'s metric
  averaging and the split of `img_path` into dataset and id are not
  modelled. They are I/O or tensor batching; the listing is a parameter.
- `train.py` and `reconstruction/` are not part of this model.

## Findings

| source | as written | input that shows it | evidently intended | confidence | as-written member | corrected member |
|---|---|---|---|---|---|---|
| optics/__init__.py:125-130 | training jitter adds `(rand - 0.5)/n` to the inverse-perspective samples without clamping, so the last sample can exceed `max/(max-min)` and `ips_to_metric` passes its pole | `min_depth 1`, `max_depth 100`, `n_depths 5`, jitter draws `0.5, 0.5, 0.5, 0.5, 0.9`: the last sample is `1.08` and its depth is negative | every requested depth stays positive, that is, every sample stays below the pole (line 130 pushes the far depth past `max_depth` on purpose, and nothing asks the near depth to stay at `min_depth` or above) | not executed | CameraPsf.RequestDepthsAsWrittenPassesPole | CameraPsf.RequestDepthsRange |
| test_on_dataset.py:113-118 | the bracket-list branch keeps `map(int, …)`, a lazy object, and hands it to `torch.tensor`, which takes sequences of numbers and not a `map` | `--img_path sceneflow/[1,2]` | the list is materialised before the tensor is built, so `[1,2]` gives the ids 1 and 2 and `[]` raises the `ValueError` of `int` | not executed | Evaluation.ListRefusedAsWritten | Evaluation.ListRoundTrip |

Where the code and its documented intent part ways without a defect:

- Optics.SoftWeightsExceedOne: soft layering gives weights that can sum
  to more than one at a pixel (1.7 in the example), although layer masks
  are meant as a partition.
- Optics.IntSizeSkipsParity: an integer image size skips the evenness
  check that a list size gets.
- An empty wavelength tuple passes the multiple-of-3 check
  (Optics.RegisterWavelengthsAccepts).

=== FILE: bsac.dfy ===
/**
 * The B-spline aperture camera of `optics/bsac.py`: a DOE whose height is
 * the tensor-product B-spline surface `U * C * V^T` over a grid of control
 * points `C`.  The clamped knot vectors, the derivation of the degrees from
 * supplied knot vectors, the choice of the initial control points, the
 * design-matrix stacks and `extract_parameters` are modelled.  scipy's
 * `BSpline.design_matrix` is the function parameter `basis`, and
 * `scale_coordinate`, `fold_profile` and the lattice-focal initial surface
 * are parameters as well.
 */
module Bsac {
  import opened Results
  import opened Tensor

  // ---------------------------------------------------------------------
  // Clamped knot vectors

  /**
   * `clamped_knot_vector(n, p)`: `p + 1` zeros, `linspace(0, 1, n - p - 1)`
   * and `p + 1` ones.  torch refuses a negative count in either `zeros` or
   * `linspace`, which is `None` here.
   */
  function ClampedKnotVector(n: int, p: int): (r: Option<seq<real>>)
    ensures r.Some? <==> -1 <= p && p + 1 <= n
    ensures r.Some? ==> |r.value| == n + p + 1
  {
    if p < -1 || n < p + 1 then None
    else Some(seq(p + 1, _ => 0.0) + Linspace(0.0, 1.0, n - p - 1) + seq(p + 1, _ => 1.0))
  }

  /**
   * The vector is clamped: it opens with `p + 1` zeros and closes with
   * `p + 1` ones.  Because the inner samples include both end points, the
   * first inner knot is a further zero as soon as there is one, and the
   * last inner knot a further one as soon as there are two.
   */
  lemma {:induction false} KnotVectorClamped(n: int, p: int)
    requires ClampedKnotVector(n, p).Some?
    ensures var kv := ClampedKnotVector(n, p).value;
      && (forall i :: 0 <= i <= p ==> kv[i] == 0.0)
      && (forall i :: n <= i < n + p + 1 ==> kv[i] == 1.0)
      && (n - p - 1 >= 1 ==> kv[p + 1] == 0.0)
      && (n - p - 1 >= 2 ==> kv[n - 1] == 1.0)
  {
    var m := n - p - 1;
    var kv := ClampedKnotVector(n, p).value;
    var l := Linspace(0.0, 1.0, m);
    assert kv == seq(p + 1, _ => 0.0) + l + seq(p + 1, _ => 1.0);
    if m >= 1 {
      LinspaceEnds(0.0, 1.0, m);
      assert kv[p + 1] == l[0];
      if m >= 2 {
        assert kv[n - 1] == l[m - 1];
      }
    }
  }

  /** The knots never decrease and all lie in `[0, 1]`. */
  lemma {:induction false} KnotVectorSorted(n: int, p: int)
    requires ClampedKnotVector(n, p).Some?
    ensures var kv := ClampedKnotVector(n, p).value;
      forall i, j :: 0 <= i <= j < |kv| ==> 0.0 <= kv[i] <= kv[j] <= 1.0
  {
    var m := n - p - 1;
    var kv := ClampedKnotVector(n, p).value;
    var l := Linspace(0.0, 1.0, m);
    assert kv == seq(p + 1, _ => 0.0) + l + seq(p + 1, _ => 1.0);
    forall i, j | 0 <= i <= j < |kv| ensures 0.0 <= kv[i] <= kv[j] <= 1.0 {
      if p + 1 <= i < n {
        assert kv[i] == l[i - p - 1];
        if j < n {
          assert kv[j] == l[j - p - 1];
          LinspaceMonotone(0.0, 1.0, m, i - p - 1, j - p - 1);
        } else {
          LinspaceMonotone(0.0, 1.0, m, i - p - 1, i - p - 1);
        }
      } else if i <= p && p + 1 <= j < n {
        assert kv[j] == l[j - p - 1];
        LinspaceMonotone(0.0, 1.0, m, j - p - 1, j - p - 1);
      }
    }
  }

  // ---------------------------------------------------------------------
  // Degrees and knot vectors of a camera

  /** The grid size, degrees and knot vectors the constructor settles on. */
  datatype Spline = Spline(gridSize: (nat, nat), degrees: (int, int), knotVectors: (seq<real>, seq<real>))

  /**
   * Lines 54-61 of the constructor: without knot vectors the given degrees
   * are kept and clamped vectors are built; with knot vectors each degree is
   * `len(kv) - grid_size - 1`.  In both cases the number of basis functions
   * per axis, `len(kv) - degree - 1`, is the grid size on that axis.
   */
  function Configure(gridSize: (nat, nat), knotVectors: Option<(seq<real>, seq<real>)>, degrees: (int, int)): (r: Option<Spline>)
    ensures knotVectors.Some? ==> r.Some?
    ensures knotVectors.None? ==> (r.Some? <==> -1 <= degrees.0 && degrees.0 + 1 <= gridSize.0 && -1 <= degrees.1 && degrees.1 + 1 <= gridSize.1)
    ensures r.Some? ==> r.value.gridSize == gridSize
    ensures r.Some? ==> |r.value.knotVectors.0| - r.value.degrees.0 - 1 == gridSize.0
    ensures r.Some? ==> |r.value.knotVectors.1| - r.value.degrees.1 - 1 == gridSize.1
  {
    match knotVectors
    case Some(kv) => Some(Spline(gridSize, (|kv.0| - gridSize.0 - 1, |kv.1| - gridSize.1 - 1), kv))
    case None =>
      var k0 := ClampedKnotVector(gridSize.0, degrees.0);
      var k1 := ClampedKnotVector(gridSize.1, degrees.1);
      if k0.None? || k1.None? then None else Some(Spline(gridSize, degrees, (k0.value, k1.value)))
  }

  /**
   * Deriving the degrees from knot vectors inverts the default case: feeding
   * the clamped vectors back in yields the same degrees, whatever degrees
   * accompany them.
   */
  lemma {:induction false} DegreesRecovered(gridSize: (nat, nat), degrees: (int, int), other: (int, int))
    requires Configure(gridSize, None, degrees).Some?
    ensures var s := Configure(gridSize, None, degrees).value;
      s.degrees == degrees && Configure(gridSize, Some(s.knotVectors), other) == Some(s)
  {
    var s := Configure(gridSize, None, degrees).value;
    assert |s.knotVectors.0| == gridSize.0 + degrees.0 + 1;
    assert |s.knotVectors.1| == gridSize.1 + degrees.1 + 1;
  }

  /**
   * Lines 65-68: `'lattice_focal'` takes the analytic initial surface; every
   * other string, recognised or not, silently gives a zero grid of the
   * grid's shape.
   */
  function InitialControlPoints(initType: string, gridSize: (nat, nat), latticeFocal: Matrix): (c: Matrix)
    ensures initType == "lattice_focal" ==> c == latticeFocal
    ensures initType != "lattice_focal" ==> IsRect(c, gridSize.0, gridSize.1)
    ensures initType != "lattice_focal" ==> forall i, j :: 0 <= i < gridSize.0 && 0 <= j < gridSize.1 ==> c[i][j] == 0.0
  {
    if initType == "lattice_focal" then latticeFocal else Zeros(gridSize.0, gridSize.1)
  }

  // ---------------------------------------------------------------------
  // The spline surface

  /** The shapes for which `matmul(matmul(u, c), transpose(v))` is defined. */
  ghost predicate Composable(u: Matrix, c: Matrix, v: Matrix)
  {
    && Rect(c) && Rect(v)
    && (forall i :: 0 <= i < |u| ==> |u[i]| == |c|)
    && Width(v) == Width(c)
  }

  /** The entries `u[k] * c[k][l] * v[l]` whose total is one sample of the surface. */
  function Weights(x: seq<real>, c: Matrix, y: seq<real>): (t: Matrix)
    requires |x| == |c| && forall k :: 0 <= k < |c| ==> |c[k]| == |y|
    ensures IsRect(t, |x|, |y|)
  {
    seq(|x|, k requires 0 <= k < |x| => seq(|y|, l requires 0 <= l < |y| => x[k] * c[k][l] * y[l]))
  }

  /** `x^T * c * y` summed row by row: `sum_k x[k] * (c[k] . y)`. */
  function Bilinear(x: seq<real>, c: Matrix, y: seq<real>): real
    requires |x| == |c| && forall k :: 0 <= k < |c| ==> |c[k]| == |y|
  {
    if |x| == 0 then 0.0
    else Bilinear(x[..|x| - 1], c[..|c| - 1], y) + x[|x| - 1] * Dot(c[|c| - 1], y)
  }

  /** `__heightmap` before `fold_profile`: the surface `u * c * v^T`. */
  function SplineSurface(u: Matrix, c: Matrix, v: Matrix): (h: Matrix)
    requires Composable(u, c, v)
    ensures IsRect(h, |u|, |v|)
  {
    MatMul(MatMul(u, c, |c|, Width(c)), Transpose(v), Width(c), |v|)
  }

  lemma {:induction false} DotZero(n: nat, y: seq<real>)
    requires |y| == n
    ensures Dot(seq(n, _ => 0.0), y) == 0.0
  {
    if n > 0 {
      assert seq(n, _ => 0.0)[..n - 1] == seq(n - 1, _ => 0.0);
      DotZero(n - 1, y[..n - 1]);
    }
  }

  /** `z` is the entrywise combination `a * x + b * y`. */
  ghost predicate Combines(z: seq<real>, a: real, x: seq<real>, b: real, y: seq<real>)
  {
    |z| == |x| == |y| && forall k :: 0 <= k < |z| ==> z[k] == a * x[k] + b * y[k]
  }

  /** The matrix `c` is the entrywise combination `a * c1 + b * c2`. */
  ghost predicate MatrixCombines(c: Matrix, a: real, c1: Matrix, b: real, c2: Matrix)
  {
    |c| == |c1| == |c2| && forall k :: 0 <= k < |c| ==> Combines(c[k], a, c1[k], b, c2[k])
  }

  /** The inner product is linear in its first argument. */
  lemma {:induction false} DotLinear(z: seq<real>, a: real, x: seq<real>, b: real, y: seq<real>, w: seq<real>)
    requires Combines(z, a, x, b, y) && |w| == |z|
    ensures Dot(z, w) == a * Dot(x, w) + b * Dot(y, w)
  {
    var n := |z|;
    if n > 0 {
      DotLinear(z[..n - 1], a, x[..n - 1], b, y[..n - 1], w[..n - 1]);
      var e, p1, p2 := w[n - 1], Dot(x[..n - 1], w[..n - 1]), Dot(y[..n - 1], w[..n - 1]);
      assert (a * p1 + b * p2) + e * (a * x[n - 1] + b * y[n - 1]) == a * (p1 + e * x[n - 1]) + b * (p2 + e * y[n - 1]);
    }
  }

  lemma {:induction false} DotSymmetric(x: seq<real>, y: seq<real>)
    requires |x| == |y|
    ensures Dot(x, y) == Dot(y, x)
  {
    if |x| > 0 {
      DotSymmetric(x[..|x| - 1], y[..|y| - 1]);
    }
  }

  /** One column sum against `x`, split at `c`'s last row. */
  lemma {:induction false} ColumnPrefix(x: seq<real>, c: Matrix, l: nat)
    requires |x| == |c| > 0 && forall k :: 0 <= k < |c| ==> l < |c[k]|
    ensures Dot(x, Column(c, l)) == Dot(x[..|x| - 1], Column(c[..|c| - 1], l)) + x[|x| - 1] * c[|c| - 1][l]
  {
    assert Column(c, l)[..|c| - 1] == Column(c[..|c| - 1], l);
  }

  /** The vector of column sums of `c` against `x`. */
  function ColumnSums(x: seq<real>, c: Matrix, w: nat): (r: seq<real>)
    requires |x| == |c| && forall k :: 0 <= k < |c| ==> |c[k]| == w
    ensures |r| == w
  {
    seq(w, l requires 0 <= l < w => Dot(x, Column(c, l)))
  }

  /** Summing `c`'s columns against `x` first and `c`'s rows against `y` first agree. */
  lemma {:induction false} DotSwap(x: seq<real>, c: Matrix, y: seq<real>)
    requires |x| == |c| && forall k :: 0 <= k < |c| ==> |c[k]| == |y|
    ensures Dot(ColumnSums(x, c, |y|), y) == Bilinear(x, c, y)
  {
    var n := |x|;
    var lhs := ColumnSums(x, c, |y|);
    if n == 0 {
      assert lhs == seq(|y|, _ => 0.0);
      DotZero(|y|, y);
    } else {
      ColumnSumsDot(x, c, y);
      DotSwap(x[..n - 1], c[..n - 1], y);
    }
  }

  /** Peeling the last row off `c` peels its weighted inner product off the column sums' product. */
  lemma {:induction false} ColumnSumsDot(x: seq<real>, c: Matrix, y: seq<real>)
    requires |x| == |c| > 0 && forall k :: 0 <= k < |c| ==> |c[k]| == |y|
    ensures Dot(ColumnSums(x, c, |y|), y)
      == Dot(ColumnSums(x[..|x| - 1], c[..|c| - 1], |y|), y) + x[|x| - 1] * Dot(c[|c| - 1], y)
  {
    var n := |x|;
    var lhs := ColumnSums(x, c, |y|);
    var prev := ColumnSums(x[..n - 1], c[..n - 1], |y|);
    ColumnSumsCombine(x, c, |y|);
    DotLinear(lhs, 1.0, prev, x[n - 1], c[n - 1], y);
    assert 1.0 * Dot(prev, y) == Dot(prev, y);
  }

  lemma {:induction false} ColumnSumsCombine(x: seq<real>, c: Matrix, w: nat)
    requires |x| == |c| > 0 && forall k :: 0 <= k < |c| ==> |c[k]| == w
    ensures Combines(ColumnSums(x, c, w), 1.0, ColumnSums(x[..|x| - 1], c[..|c| - 1], w), x[|x| - 1], c[|c| - 1])
  {
    forall l | 0 <= l < w
      ensures ColumnSums(x, c, w)[l] == 1.0 * ColumnSums(x[..|x| - 1], c[..|c| - 1], w)[l] + x[|x| - 1] * c[|c| - 1][l]
    {
      ColumnPrefix(x, c, l);
    }
  }


  /** The row-first form is the double sum `sum_k sum_l x[k] * c[k][l] * y[l]`. */
  lemma {:induction false} BilinearIsDoubleSum(x: seq<real>, c: Matrix, y: seq<real>)
    requires |x| == |c| && forall k :: 0 <= k < |c| ==> |c[k]| == |y|
    ensures Sum(Weights(x, c, y)) == Bilinear(x, c, y)
  {
    var n := |x|;
    if n > 0 {
      var x', c' := x[..n - 1], c[..n - 1];
      assert Weights(x, c, y)[..n - 1] == Weights(x', c', y);
      BilinearIsDoubleSum(x', c', y);
      RowWeights(x[n - 1], c[n - 1], y);
      assert Weights(x, c, y)[n - 1] == seq(|y|, l requires 0 <= l < |y| => x[n - 1] * c[n - 1][l] * y[l]);
    }
  }

  lemma {:induction false} RowWeights(a: real, r: seq<real>, y: seq<real>)
    requires |r| == |y|
    ensures SumSeq(seq(|y|, l requires 0 <= l < |y| => a * r[l] * y[l])) == a * Dot(r, y)
  {
    var n := |y|;
    if n > 0 {
      var s := seq(|y|, l requires 0 <= l < |y| => a * r[l] * y[l]);
      var y', r' := y[..n - 1], r[..n - 1];
      var s' := seq(|y'|, l requires 0 <= l < |y'| => a * r'[l] * y'[l]);
      assert forall l :: 0 <= l < n - 1 ==> s[..n - 1][l] == s'[l];
      assert s[..n - 1] == s';
      RowWeights(a, r', y');
    }
  }

  /**
   * Entry `(i, j)` of the surface is `sum_k sum_l u[i][k] * c[k][l] * v[j][l]`:
   * the control points weighted by the `k`-th basis function at the `i`-th u
   * sample and the `l`-th at the `j`-th v sample.
   */
  lemma {:induction false} SplineSurfaceEntry(u: Matrix, c: Matrix, v: Matrix, i: nat, j: nat)
    requires Composable(u, c, v) && i < |u| && j < |v|
    ensures SplineSurface(u, c, v)[i][j] == Sum(Weights(u[i], c, v[j]))
    ensures SplineSurface(u, c, v)[i][j] == Bilinear(u[i], c, v[j])
  {
    SplineSurfaceBilinear(u, c, v, i, j);
    BilinearIsDoubleSum(u[i], c, v[j]);
  }

  lemma {:induction false} SplineSurfaceBilinear(u: Matrix, c: Matrix, v: Matrix, i: nat, j: nat)
    requires Composable(u, c, v) && i < |u| && j < |v|
    ensures SplineSurface(u, c, v)[i][j] == Bilinear(u[i], c, v[j])
  {
    var w := Width(c);
    var uc := MatMul(u, c, |c|, w);
    var vt := Transpose(v);
    assert Column(vt, j) == v[j];
    assert uc[i] == ColumnSums(u[i], c, w);
    DotSwap(u[i], c, v[j]);
  }

  lemma {:induction false} BilinearLast(x: seq<real>, c: Matrix, y: seq<real>, n: nat)
    requires |x| == |c| == n > 0 && forall k :: 0 <= k < |c| ==> |c[k]| == |y|
    ensures Bilinear(x, c, y) == Bilinear(x[..n - 1], c[..n - 1], y) + x[n - 1] * Dot(c[n - 1], y)
  {
  }

  /** The inner products of `c`'s rows with `y`. */
  function RowDots(c: Matrix, y: seq<real>): (r: seq<real>)
    requires forall k :: 0 <= k < |c| ==> |c[k]| == |y|
    ensures |r| == |c|
  {
    seq(|c|, k requires 0 <= k < |c| => Dot(c[k], y))
  }

  /** The row-by-row sum is the inner product of `x` with the row products. */
  lemma {:induction false} BilinearAsDot(x: seq<real>, c: Matrix, y: seq<real>)
    requires |x| == |c| && forall k :: 0 <= k < |c| ==> |c[k]| == |y|
    ensures Bilinear(x, c, y) == Dot(x, RowDots(c, y))
  {
    var n := |x|;
    if n > 0 {
      var x', c' := x[..n - 1], c[..n - 1];
      BilinearAsDot(x', c', y);
      var r, r' := RowDots(c, y), RowDots(c', y);
      assert forall k :: 0 <= k < n - 1 ==> r[..n - 1][k] == r'[k];
      assert r[..n - 1] == r';
      BilinearLast(x, c, y, n);
      DotLast(x, r, n);
    }
  }

  lemma {:induction false} DotLast(u: seq<real>, v: seq<real>, n: nat)
    requires |u| == |v| == n > 0
    ensures Dot(u, v) == Dot(u[..n - 1], v[..n - 1]) + u[n - 1] * v[n - 1]
  {
  }

  /**
   * The row-by-row sum is linear in `c` as soon as every row of `c` meets
   * `y` as `a` times the row of `c1` plus `b` times the row of `c2`.
   */
  lemma {:induction false} BilinearLinear(x: seq<real>, c: Matrix, a: real, c1: Matrix, b: real, c2: Matrix, y: seq<real>)
    requires |x| == |c| == |c1| == |c2|
    requires forall k :: 0 <= k < |c| ==> |c[k]| == |c1[k]| == |c2[k]| == |y|
    requires Combines(RowDots(c, y), a, RowDots(c1, y), b, RowDots(c2, y))
    ensures Bilinear(x, c, y) == a * Bilinear(x, c1, y) + b * Bilinear(x, c2, y)
  {
    var r, r1, r2 := RowDots(c, y), RowDots(c1, y), RowDots(c2, y);
    BilinearAsDot(x, c, y);
    BilinearAsDot(x, c1, y);
    BilinearAsDot(x, c2, y);
    DotLinear(r, a, r1, b, r2, x);
    DotSymmetric(x, r);
    DotSymmetric(x, r1);
    DotSymmetric(x, r2);
  }

  lemma {:induction false} RowDotsCombine(c: Matrix, a: real, c1: Matrix, b: real, c2: Matrix, y: seq<real>)
    requires MatrixCombines(c, a, c1, b, c2) && forall k :: 0 <= k < |c| ==> |c[k]| == |y|
    ensures Combines(RowDots(c, y), a, RowDots(c1, y), b, RowDots(c2, y))
  {
    forall k | 0 <= k < |c| ensures RowDots(c, y)[k] == a * RowDots(c1, y)[k] + b * RowDots(c2, y)[k] {
      DotLinear(c[k], a, c1[k], b, c2[k], y);
    }
  }

  /**
   * The surface is linear in the control points: the surface of
   * `a * c1 + b * c2` is `a` times that of `c1` plus `b` times that of `c2`.
   */
  lemma {:induction false} SplineSurfaceLinear(u: Matrix, c: Matrix, a: real, c1: Matrix, b: real, c2: Matrix, v: Matrix)
    requires Composable(u, c1, v) && MatrixCombines(c, a, c1, b, c2)
    ensures Composable(u, c, v) && Composable(u, c2, v)
    ensures forall i, j :: 0 <= i < |u| && 0 <= j < |v| ==>
      SplineSurface(u, c, v)[i][j] == a * SplineSurface(u, c1, v)[i][j] + b * SplineSurface(u, c2, v)[i][j]
  {
    CombinedComposable(u, c, a, c1, b, c2, v);
    forall i, j | 0 <= i < |u| && 0 <= j < |v|
      ensures SplineSurface(u, c, v)[i][j] == a * SplineSurface(u, c1, v)[i][j] + b * SplineSurface(u, c2, v)[i][j]
    {
      SplineSurfaceLinearAt(u, c, a, c1, b, c2, v, i, j);
    }
  }

  lemma {:induction false} CombinedComposable(u: Matrix, c: Matrix, a: real, c1: Matrix, b: real, c2: Matrix, v: Matrix)
    requires Composable(u, c1, v) && MatrixCombines(c, a, c1, b, c2)
    ensures Composable(u, c, v) && Composable(u, c2, v)
  {
    assert Width(c) == Width(c1) && Width(c2) == Width(c1);
  }

  lemma {:induction false} SplineSurfaceLinearAt(u: Matrix, c: Matrix, a: real, c1: Matrix, b: real, c2: Matrix, v: Matrix,
                                                 i: nat, j: nat)
    requires Composable(u, c, v) && Composable(u, c1, v) && Composable(u, c2, v)
    requires MatrixCombines(c, a, c1, b, c2) && i < |u| && j < |v|
    ensures SplineSurface(u, c, v)[i][j] == a * SplineSurface(u, c1, v)[i][j] + b * SplineSurface(u, c2, v)[i][j]
  {
    SplineSurfaceBilinear(u, c, v, i, j);
    SplineSurfaceBilinear(u, c1, v, i, j);
    SplineSurfaceBilinear(u, c2, v, i, j);
    RowDotsCombine(c, a, c1, b, c2, v[j]);
    BilinearLinear(u[i], c, a, c1, b, c2, v[j]);
  }


  // ---------------------------------------------------------------------
  // Design matrices

  /** scipy's `BSpline.design_matrix(x, kv, p)`, densified. */
  type Basis = (seq<real>, seq<real>, int) -> Matrix

  /**
   * scipy's documented shape: one row per sample and one column per basis
   * function, `len(kv) - p - 1` of them.
   */
  ghost predicate BasisShape(basis: Basis)
  {
    forall x, kv, p {:trigger basis(x, kv, p)} :: 0 <= p && p + 1 <= |kv| ==> IsRect(basis(x, kv, p), |x|, |kv| - p - 1)
  }

  /** The design matrices of the rows of `x`, stacked. */
  function Stack(x: Matrix, kv: seq<real>, p: int, basis: Basis): (m: seq<Matrix>)
    ensures |m| == |x|
  {
    seq(|x|, i requires 0 <= i < |x| => basis(x[i], kv, p))
  }

  /**
   * `design_matrix(dim)`: the scaled u-grid with the second knot vector and
   * degree for `dim == 1`, the scaled v-grid with the first for `dim == 0`;
   * one design matrix per wavelength row.
   */
  function DesignMatrix(dim: nat, s: Spline, uGrid: Matrix, vGrid: Matrix, scale: Matrix -> Matrix, basis: Basis): (m: seq<Matrix>)
    requires dim < 2
    ensures dim == 1 ==> m == Stack(scale(uGrid), s.knotVectors.1, s.degrees.1, basis)
    ensures dim == 0 ==> m == Stack(scale(vGrid), s.knotVectors.0, s.degrees.0, basis)
  {
    if dim == 1 then Stack(scale(uGrid), s.knotVectors.1, s.degrees.1, basis)
    else Stack(scale(vGrid), s.knotVectors.0, s.degrees.0, basis)
  }

  /**
   * With scipy's shapes, every u design matrix has one column per control
   * point along the grid's second axis and every v design matrix one per
   * point along its first axis.  `u * c` therefore needs as many rows in `c`
   * as it has columns, so the surface exists for a `g0 x g1` control grid
   * exactly when the grid is square.
   */
  lemma {:induction false} DesignMatrixColumns(s: Spline, c: Matrix, uGrid: Matrix, vGrid: Matrix, scale: Matrix -> Matrix, basis: Basis, k: nat)
    requires BasisShape(basis)
    requires s.degrees.0 >= 0 && s.degrees.1 >= 0
    requires |s.knotVectors.0| - s.degrees.0 - 1 == s.gridSize.0
    requires |s.knotVectors.1| - s.degrees.1 - 1 == s.gridSize.1
    requires IsRect(c, s.gridSize.0, s.gridSize.1)
    requires k < |scale(uGrid)| && k < |scale(vGrid)|
    requires |scale(uGrid)[k]| >= 1 && |scale(vGrid)[k]| >= 1
    ensures IsRect(DesignMatrix(1, s, uGrid, vGrid, scale, basis)[k], |scale(uGrid)[k]|, s.gridSize.1)
    ensures IsRect(DesignMatrix(0, s, uGrid, vGrid, scale, basis)[k], |scale(vGrid)[k]|, s.gridSize.0)
    ensures Composable(DesignMatrix(1, s, uGrid, vGrid, scale, basis)[k], c, DesignMatrix(0, s, uGrid, vGrid, scale, basis)[k])
        <==> s.gridSize.0 == s.gridSize.1
  {
    var u := DesignMatrix(1, s, uGrid, vGrid, scale, basis)[k];
    var v := DesignMatrix(0, s, uGrid, vGrid, scale, basis)[k];
    assert u == basis(scale(uGrid)[k], s.knotVectors.1, s.degrees.1);
    assert v == basis(scale(vGrid)[k], s.knotVectors.0, s.degrees.0);
    assert |u[0]| == s.gridSize.1;
    assert Width(v) == s.gridSize.0;
    if s.gridSize.0 > 0 {
      assert |c[0]| == s.gridSize.1;
    }
  }

  /**
   * `design_matrices(x, c_n, kv, p)`: a zero tensor of shape
   * `x.shape ++ [c_n]` whose `i`-th block is overwritten with the design
   * matrix of the `i`-th row of `x` (the leading axes of `x` flattened).
   * Each block must fit `len x c_n` for the assignment to be accepted.
   */
  method DesignMatrices(x: Matrix, len: nat, cn: nat, kv: seq<real>, p: int, basis: Basis) returns (r: seq<Matrix>)
    requires IsRect(x, |x|, len)
    requires forall i :: 0 <= i < |x| ==> IsRect(basis(x[i], kv, p), len, cn)
    ensures |r| == |x| && forall i :: 0 <= i < |r| ==> IsRect(r[i], len, cn)
    ensures r == Stack(x, kv, p, basis)
  {
    var n := |x|;
    var mat := new real[n, len, cn]((_, _, _) => 0.0);
    var i := 0;
    while i < n
      invariant 0 <= i <= n
      invariant forall a, b, d :: 0 <= a < i && 0 <= b < len && 0 <= d < cn ==> mat[a, b, d] == basis(x[a], kv, p)[b][d]
    {
      var block := basis(x[i], kv, p);
      var j := 0;
      while j < len
        invariant 0 <= j <= len
        invariant forall a, b, d :: 0 <= a < i && 0 <= b < len && 0 <= d < cn ==> mat[a, b, d] == basis(x[a], kv, p)[b][d]
        invariant forall b, d :: 0 <= b < j && 0 <= d < cn ==> mat[i, b, d] == block[b][d]
      {
        var k := 0;
        while k < cn
          invariant 0 <= k <= cn
          invariant forall a, b, d :: 0 <= a < i && 0 <= b < len && 0 <= d < cn ==> mat[a, b, d] == basis(x[a], kv, p)[b][d]
          invariant forall b, d :: 0 <= b < j && 0 <= d < cn ==> mat[i, b, d] == block[b][d]
          invariant forall d :: 0 <= d < k ==> mat[i, j, d] == block[j][d]
        {
          mat[i, j, k] := block[j][k];
          k := k + 1;
        }
        j := j + 1;
      }
      i := i + 1;
    }
    r := seq(n, a requires 0 <= a < n reads mat =>
           seq(len, b requires 0 <= b < len reads mat =>
             seq(cn, d requires 0 <= d < cn reads mat => mat[a, b, d])));
    forall a | 0 <= a < n ensures r[a] == basis(x[a], kv, p) {
      var block := basis(x[a], kv, p);
      forall b | 0 <= b < len ensures r[a][b] == block[b] { }
    }
  }

  // ---------------------------------------------------------------------
  // The camera

  /**
   * The state the constructor leaves: the settled spline, the trainable
   * control points and the two buffered stacks of design matrices.
   */
  class SplineCamera {
    const spline: Spline
    var controlPoints: Matrix
    const uMatrix: seq<Matrix>
    const vMatrix: seq<Matrix>

    /** Both stacks hold one design matrix per wavelength. */
    ghost predicate Valid()
      reads this
    {
      |uMatrix| == |vMatrix|
    }

    /**
     * The constructor of `BSplineApertureCamera` after the classic camera's
     * own: `uGrid` and `vGrid` are that camera's per-wavelength sample
     * positions (one row per wavelength), `latticeFocal` the analytic initial
     * surface.
     */
    constructor(gridSize: (nat, nat), knotVectors: Option<(seq<real>, seq<real>)>, degrees: (int, int),
                initType: string, latticeFocal: Matrix, uGrid: Matrix, vGrid: Matrix,
                scale: Matrix -> Matrix, basis: Basis)
      requires Configure(gridSize, knotVectors, degrees).Some?
      requires |scale(uGrid)| == |scale(vGrid)|
      ensures Valid()
      ensures spline == Configure(gridSize, knotVectors, degrees).value
      ensures controlPoints == InitialControlPoints(initType, gridSize, latticeFocal)
      ensures uMatrix == DesignMatrix(1, spline, uGrid, vGrid, scale, basis)
      ensures vMatrix == DesignMatrix(0, spline, uGrid, vGrid, scale, basis)
    {
      var s := Configure(gridSize, knotVectors, degrees).value;
      spline := s;
      controlPoints := InitialControlPoints(initType, gridSize, latticeFocal);
      uMatrix := DesignMatrix(1, s, uGrid, vGrid, scale, basis);
      vMatrix := DesignMatrix(0, s, uGrid, vGrid, scale, basis);
    }

    /**
     * `heightmap()`: per wavelength, the spline surface of the control
     * points folded by `fold_profile`; `None` where torch would reject the
     * shapes of the products.
     */
    ghost function Heightmap(fold: Matrix -> Matrix): (r: Option<seq<Matrix>>)
      requires Valid()
      reads this
      ensures r.Some? <==> forall k :: 0 <= k < |uMatrix| ==> Composable(uMatrix[k], controlPoints, vMatrix[k])
      ensures r.Some? ==> |r.value| == |uMatrix|
      ensures r.Some? ==> forall k :: 0 <= k < |uMatrix| ==> r.value[k] == fold(SplineSurface(uMatrix[k], controlPoints, vMatrix[k]))
    {
      var u, c, v := uMatrix, controlPoints, vMatrix;
      if forall k :: 0 <= k < |u| ==> Composable(u[k], c, v[k]) then
        Some(seq(|u|, k requires 0 <= k < |u| => fold(SplineSurface(u[k], c, v[k]))))
      else None
    }
  }

  // ---------------------------------------------------------------------
  // Command-line parameters

  /** A parameter value: a list of ints this code writes, or one handed on unchanged. */
  datatype Param<V> = Ints(ints: seq<int>) | Given(value: V)

  /**
   * `extract_parameters`: only `'default'` and `'lattice_focal'` are
   * accepted; the classic camera's parameters `base` gain square `degrees`
   * and `grid_size` entries, which replace any of the same name.
   */
  function ExtractParameters<V>(initializationType: string, degree: int, gridSize: int, base: map<string, Param<V>>): (r: Result<map<string, Param<V>>, string>)
    ensures r.Ok? <==> initializationType == "default" || initializationType == "lattice_focal"
    ensures r.Err? ==> r.error == "Unsupported initialization type: " + initializationType
    ensures r.Ok? ==> r.value.Keys == base.Keys + {"degrees", "grid_size"}
    ensures r.Ok? ==> r.value["degrees"] == Ints([degree, degree]) && r.value["grid_size"] == Ints([gridSize, gridSize])
    ensures r.Ok? ==> forall key :: key in base && key != "degrees" && key != "grid_size" ==> r.value[key] == base[key]
  {
    if initializationType != "default" && initializationType != "lattice_focal" then
      Err("Unsupported initialization type: " + initializationType)
    else
      Ok(base["degrees" := Ints([degree, degree])]["grid_size" := Ints([gridSize, gridSize])])
  }

  /**
   * The parameters `extract_parameters` produces always describe a square
   * grid with default knot vectors; for a grid larger than the degree the
   * constructor's design matrices then compose with its control points.
   */
  lemma {:induction false} ExtractedGridComposes(degree: int, gridSize: nat, c: Matrix, uGrid: Matrix, vGrid: Matrix,
                              scale: Matrix -> Matrix, basis: Basis, k: nat)
    requires BasisShape(basis)
    requires 0 <= degree && degree + 1 <= gridSize
    requires IsRect(c, gridSize, gridSize)
    requires k < |scale(uGrid)| && k < |scale(vGrid)|
    requires |scale(uGrid)[k]| >= 1 && |scale(vGrid)[k]| >= 1
    ensures Configure((gridSize, gridSize), None, (degree, degree)).Some?
    ensures var s := Configure((gridSize, gridSize), None, (degree, degree)).value;
      Composable(DesignMatrix(1, s, uGrid, vGrid, scale, basis)[k], c, DesignMatrix(0, s, uGrid, vGrid, scale, basis)[k])
  {
    var s := Configure((gridSize, gridSize), None, (degree, degree)).value;
    DesignMatrixColumns(s, c, uGrid, vGrid, scale, basis, k);
  }
}

=== FILE: camera.dfy ===
/**
 * The `Camera` object of `optics/__init__.py`: its constructor, the scene
 * distances it registers, and `psf_at_camera`, the PSF request pipeline
 * with its single-slot cache.  The subclass's `psf(scene_distances,
 * modulate_phase)` is a function parameter, and the random draws of a
 * training request (depth jitter, far-depth extension, channel shifts) are
 * parameters holding the values the generators returned.
 */
module CameraPsf {
  import opened Results
  import opened Tensor
  import opened Utils
  import opened Fft
  import opened Optics

  // ---------------------------------------------------------------------
  // PSF stacks

  /** `p` is a `c x d x h x w` tensor: `c` channels of `d` depth slices of `h x w`. */
  ghost predicate IsPsf(p: Psf, c: nat, d: nat, h: nat, w: nat)
  {
    && |p| == c
    && (forall i :: 0 <= i < c ==> |p[i]| == d)
    && (forall i, k :: 0 <= i < c && 0 <= k < d ==> |p[i][k]| == h)
    && (forall i, k, y :: 0 <= i < c && 0 <= k < d && 0 <= y < h ==> |p[i][k][y]| == w)
  }

  /** Every slice of a stack is a rectangular matrix. */
  ghost predicate AllRect(p: Psf)
  {
    forall c, d :: 0 <= c < |p| && 0 <= d < |p[c]| ==> Rect(p[c][d])
  }

  /** A valid target of `pad_or_crop`: none, or a positive height and width. */
  predicate ValidTarget(size: Option<(nat, nat)>)
  {
    size.Some? ==> size.value.0 >= 1 && size.value.1 >= 1
  }

  /** `utils.pad_or_crop` on a PSF stack: every slice resized to `size`. */
  function ResizePsf(p: Psf, size: Option<(nat, nat)>): (r: Psf)
    requires AllRect(p) && ValidTarget(size)
    ensures |r| == |p| && forall c :: 0 <= c < |p| ==> |r[c]| == |p[c]|
  {
    seq(|p|, c requires 0 <= c < |p| =>
      seq(|p[c]|, d requires 0 <= d < |p[c]| => PadOrCrop(p[c][d], size)))
  }

  /** Resizing keeps every slice rectangular. */
  lemma {:induction false} ResizePsfRect(p: Psf, size: Option<(nat, nat)>)
    requires AllRect(p) && ValidTarget(size)
    ensures AllRect(ResizePsf(p, size))
  {
    forall c, d | 0 <= c < |p| && 0 <= d < |p[c]| ensures Rect(ResizePsf(p, size)[c][d]) {
      PadOrCropRect(p[c][d], size);
    }
  }

  /**
   * Resizing twice to the same target is resizing once, so a cached stack
   * served again at the size it was stored with comes back unchanged.
   */
  lemma {:induction false} ResizePsfTwice(p: Psf, size: Option<(nat, nat)>)
    requires AllRect(p) && ValidTarget(size)
    ensures AllRect(ResizePsf(p, size))
    ensures ResizePsf(ResizePsf(p, size), size) == ResizePsf(p, size)
  {
    ResizePsfRect(p, size);
    var once := ResizePsf(p, size);
    forall c | 0 <= c < |p| ensures ResizePsf(once, size)[c] == once[c] {
      forall d | 0 <= d < |p[c]| ensures ResizePsf(once, size)[c][d] == once[c][d] {
        PadOrCropTwice(p[c][d], size);
      }
    }
  }

  /** Two stacks whose slices pair up shape for shape. */
  ghost predicate SameStack(a: Psf, b: Psf)
  {
    && |a| == |b|
    && (forall c :: 0 <= c < |a| ==> |a[c]| == |b[c]|)
    && (forall c, d :: 0 <= c < |a| && 0 <= d < |a[c]| ==> SameShape(a[c][d], b[c][d]))
  }

  /** `x.sum(dim=(-1, -2))` on every slice: the normalisation factors. */
  function SliceSums(p: Psf): (s: seq<seq<real>>)
    ensures |s| == |p| && forall c :: 0 <= c < |p| ==> |s[c]| == |p[c]|
  {
    seq(|p|, c requires 0 <= c < |p| => seq(|p[c]|, d requires 0 <= d < |p[c]| => Sum(p[c][d])))
  }

  /**
   * One slice of the cached PSF: the diffracted and undiffracted slices,
   * each divided by its own sum, mixed with weight `eff` on the diffracted
   * one.
   */
  function CombineSlice(eff: real, diffracted: Matrix, undiffracted: Matrix): (r: Matrix)
    requires SameShape(diffracted, undiffracted)
    ensures SameShape(r, diffracted)
  {
    Mix(eff, NormalizeSlice(diffracted), NormalizeSlice(undiffracted))
  }

  /**
   * The convex combination of two normalised slices again sums to one,
   * whatever the diffraction efficiency.
   */
  lemma {:induction false} CombineSliceUnit(eff: real, diffracted: Matrix, undiffracted: Matrix)
    requires SameShape(diffracted, undiffracted)
    requires Sum(diffracted) != 0.0 && Sum(undiffracted) != 0.0
    ensures Sum(CombineSlice(eff, diffracted, undiffracted)) == 1.0
  {
    NormalizeSliceSum(diffracted);
    NormalizeSliceSum(undiffracted);
    SumCombine(eff, 1.0 - eff, NormalizeSlice(diffracted), NormalizeSlice(undiffracted));
  }

  /** The combination slice by slice over the whole stack. */
  function CombinePsf(eff: real, diffracted: Psf, undiffracted: Psf): (r: Psf)
    requires SameStack(diffracted, undiffracted)
    ensures |r| == |diffracted| && forall c :: 0 <= c < |r| ==> |r[c]| == |diffracted[c]|
  {
    seq(|diffracted|, c requires 0 <= c < |diffracted| =>
      seq(|diffracted[c]|, d requires 0 <= d < |diffracted[c]| =>
        CombineSlice(eff, diffracted[c][d], undiffracted[c][d])))
  }

  /** `torch.roll(x, shifts=(sw, sh), dims=(-1, -2))` on every depth slice of one channel. */
  function RollChannel(s: seq<Matrix>, shift: (int, int)): (r: seq<Matrix>)
    ensures |r| == |s|
  {
    seq(|s|, d requires 0 <= d < |s| => Roll2(s[d], shift.0, shift.1))
  }

  /**
   * The training shift: red and blue rolled by their offsets, green kept,
   * and the three stacked again (any further channel is dropped).
   */
  function ShiftChannels(p: Psf, rShift: (int, int), bShift: (int, int)): (r: Psf)
    requires |p| >= 3
    ensures |r| == 3 && r[1] == p[1]
  {
    [RollChannel(p[0], rShift), p[1], RollChannel(p[2], bShift)]
  }

  /** Rolling keeps each slice's shape and its sum. */
  lemma {:induction false} RollChannelKeeps(s: seq<Matrix>, shift: (int, int), d: nat)
    requires d < |s| && Rect(s[d])
    ensures IsRect(RollChannel(s, shift)[d], |s[d]|, Width(s[d]))
    ensures Sum(RollChannel(s, shift)[d]) == Sum(s[d])
  {
    Roll2Shape(s[d], |s[d]|, Width(s[d]), shift.0, shift.1);
    Roll2Sum(s[d], shift.0, shift.1);
  }

  /** `np.random.randint(low=-2, high=2)` draws from `[-2, 1]`. */
  predicate ValidShift(shift: (int, int))
  {
    -2 <= shift.0 < 2 && -2 <= shift.1 < 2
  }

  // ---------------------------------------------------------------------
  // Scene distances

  /** `u` clamped to `[0, 1]`. */
  function Clamp01(u: real): (c: real)
    ensures 0.0 <= c <= 1.0
    ensures 0.0 <= u <= 1.0 ==> c == u
  {
    if u < 0.0 then 0.0 else if u > 1.0 then 1.0 else u
  }

  /** `torch.linspace(0, 1, n)` lies in `[0, 1]`. */
  lemma {:induction false} Linspace01(n: nat)
    ensures forall i :: 0 <= i < n ==> 0.0 <= Linspace(0.0, 1.0, n)[i] <= 1.0
  {
    forall i | 0 <= i < n ensures 0.0 <= Linspace(0.0, 1.0, n)[i] <= 1.0 {
      LinspaceMonotone(0.0, 1.0, n, i, i);
    }
  }

  /** For positive near and far depths the mapping's denominator is positive on `[0, 1]`. */
  lemma {:induction false} DenominatorPositive(u: real, minDepth: real, maxDepth: real)
    requires 0.0 <= u <= 1.0 && 0.0 < minDepth && 0.0 < maxDepth
    ensures IpsDenominator(u, minDepth, maxDepth) > 0.0
  {
    assert IpsDenominator(u, minDepth, maxDepth) == (1.0 - u) * maxDepth + u * minDepth;
    if u < 1.0 {
      assert (1.0 - u) * maxDepth > 0.0;
    } else {
      assert u * minDepth > 0.0;
    }
  }

  /** `ips_to_metric` at a coordinate of `[0, 1]`. */
  function DepthAt(u: real, minDepth: real, maxDepth: real): real
    requires 0.0 <= u <= 1.0 && 0.0 < minDepth && 0.0 < maxDepth
  {
    DenominatorPositive(u, minDepth, maxDepth);
    IpsToMetric(u, minDepth, maxDepth)
  }

  /** `ips_to_metric(torch.linspace(0, 1, n), min, max)`: the registered scene distances. */
  function SceneDistances(n: nat, minDepth: real, maxDepth: real): (s: seq<real>)
    requires 0.0 < minDepth && 0.0 < maxDepth
    ensures |s| == n
  {
    Linspace01(n);
    seq(n, i requires 0 <= i < n => DepthAt(Linspace(0.0, 1.0, n)[i], minDepth, maxDepth))
  }

  /**
   * The registered distances run from the near depth to the far depth and
   * never leave that range.
   */
  lemma {:induction false} SceneDistancesRange(n: nat, minDepth: real, maxDepth: real, i: nat)
    requires 0.0 < minDepth < maxDepth && i < n
    ensures minDepth <= SceneDistances(n, minDepth, maxDepth)[i] <= maxDepth
    ensures SceneDistances(n, minDepth, maxDepth)[0] == minDepth
    ensures n >= 2 ==> SceneDistances(n, minDepth, maxDepth)[n - 1] == maxDepth
  {
    Linspace01(n);
    LinspaceEnds(0.0, 1.0, n);
    IpsToMetricBounds(Linspace(0.0, 1.0, n)[i], minDepth, maxDepth);
    IpsToMetricEnds(minDepth, maxDepth);
  }

  /**
   * Why a request fails: `scene_distances[-1]` of no depths, the missing
   * red, green or blue channel, or a jittered coordinate exactly on the pole
   * of `ips_to_metric`.
   */
  datatype PsfError = DepthIndex | ChannelIndex | DepthAtPole

  /**
   * The inverse-perspective coordinates of a request: the evenly spaced
   * grid, in training moved by `(rand - 0.5) / n` per sample and then kept
   * inside `[0, 1]`.
   */
  function JitteredIps(n: nat, isTraining: bool, jitter: seq<real>): (u: seq<real>)
    requires isTraining ==> |jitter| == n
    ensures |u| == n && forall i :: 0 <= i < n ==> 0.0 <= u[i] <= 1.0
  {
    Linspace01(n);
    if isTraining then
      seq(n, i requires 0 <= i < n => Clamp01(Linspace(0.0, 1.0, n)[i] + (jitter[i] - 0.5) / n as real))
    else Linspace(0.0, 1.0, n)
  }

  /**
   * The scene distances of one request.  In training the far sample is also
   * pushed back by `rand * (100 - max)`, and a request with no depths fails
   * on that index.
   */
  function RequestDepths(n: nat, minDepth: real, maxDepth: real, isTraining: bool,
                         jitter: seq<real>, lastRand: real): (r: Result<seq<real>, PsfError>)
    requires 0.0 < minDepth && 0.0 < maxDepth
    requires isTraining ==> |jitter| == n
    ensures r.Ok? ==> |r.value| == n
    ensures r.Err? <==> isTraining && n == 0
  {
    var u := JitteredIps(n, isTraining, jitter);
    var sd := seq(n, i requires 0 <= i < n => DepthAt(u[i], minDepth, maxDepth));
    if !isTraining then Ok(sd)
    else if n == 0 then Err(DepthIndex)
    else Ok(sd[n - 1 := sd[n - 1] + lastRand * (100.0 - maxDepth)])
  }

  /**
   * Every requested distance lies between the near and the far depth,
   * except the far sample of a training request, which is only pushed
   * further back; outside training the distances are the registered ones.
   */
  lemma {:induction false} RequestDepthsRange(n: nat, minDepth: real, maxDepth: real, isTraining: bool,
                           jitter: seq<real>, lastRand: real, i: nat)
    requires 0.0 < minDepth < maxDepth <= 100.0 && 0.0 <= lastRand
    requires isTraining ==> |jitter| == n
    requires i < n
    ensures RequestDepths(n, minDepth, maxDepth, isTraining, jitter, lastRand).Ok?
    ensures !(isTraining && i == n - 1) ==>
      minDepth <= RequestDepths(n, minDepth, maxDepth, isTraining, jitter, lastRand).value[i] <= maxDepth
    ensures isTraining && i == n - 1 ==>
      minDepth <= RequestDepths(n, minDepth, maxDepth, isTraining, jitter, lastRand).value[i]
    ensures !isTraining ==>
      RequestDepths(n, minDepth, maxDepth, isTraining, jitter, lastRand).value == SceneDistances(n, minDepth, maxDepth)
  {
    var u := JitteredIps(n, isTraining, jitter);
    IpsToMetricBounds(u[i], minDepth, maxDepth);
    assert lastRand * (100.0 - maxDepth) >= 0.0;
  }

  /** The jittered coordinates as written, without the clamp. */
  function UnclampedIps(n: nat, isTraining: bool, jitter: seq<real>): (u: seq<real>)
    requires isTraining ==> |jitter| == n
    ensures |u| == n
  {
    if isTraining
    then seq(n, i requires 0 <= i < n => Linspace(0.0, 1.0, n)[i] + (jitter[i] - 0.5) / n as real)
    else Linspace(0.0, 1.0, n)
  }

  /**
   * Some coordinate of the request lands exactly on the pole of
   * `ips_to_metric`, where the source divides by zero.
   */
  predicate HitsPole(n: nat, minDepth: real, maxDepth: real, isTraining: bool, jitter: seq<real>)
    requires isTraining ==> |jitter| == n
  {
    exists i :: 0 <= i < n && IpsDenominator(UnclampedIps(n, isTraining, jitter)[i], minDepth, maxDepth) == 0.0
  }

  /**
   * The request as `psf_at_camera` writes it: the jittered coordinates are
   * not kept inside `[0, 1]`, so a distance can fall below the near depth
   * or, past the pole, become negative.  A coordinate exactly on the pole
   * (an infinite distance in the source) stops the request.
   */
  function RequestDepthsAsWritten(n: nat, minDepth: real, maxDepth: real, isTraining: bool,
                                  jitter: seq<real>, lastRand: real): (r: Result<seq<real>, PsfError>)
    requires isTraining ==> |jitter| == n
    ensures r.Ok? ==> |r.value| == n
    ensures r == Err(DepthIndex) <==> isTraining && n == 0
    ensures r == Err(DepthAtPole) <==> HitsPole(n, minDepth, maxDepth, isTraining, jitter)
    ensures r != Err(ChannelIndex)
  {
    if HitsPole(n, minDepth, maxDepth, isTraining, jitter) then Err(DepthAtPole)
    else
      var u := UnclampedIps(n, isTraining, jitter);
      var sd := seq(n, i requires 0 <= i < n => IpsToMetric(u[i], minDepth, maxDepth));
      if !isTraining then Ok(sd)
      else if n == 0 then Err(DepthIndex)
      else Ok(sd[n - 1 := sd[n - 1] + lastRand * (100.0 - maxDepth)])
  }

  /** Outside training the request as written asks for the registered distances. */
  lemma {:induction false} RequestDepthsAsWrittenOutsideTraining(n: nat, minDepth: real, maxDepth: real,
                                                                 jitter: seq<real>, lastRand: real)
    requires 0.0 < minDepth && 0.0 < maxDepth
    ensures !HitsPole(n, minDepth, maxDepth, false, jitter)
    ensures RequestDepthsAsWritten(n, minDepth, maxDepth, false, jitter, lastRand) == Ok(SceneDistances(n, minDepth, maxDepth))
  {
    Linspace01(n);
    var u := UnclampedIps(n, false, jitter);
    forall i | 0 <= i < n ensures IpsDenominator(u[i], minDepth, maxDepth) > 0.0 {
      DenominatorPositive(u[i], minDepth, maxDepth);
    }
    var sd := seq(n, i requires 0 <= i < n => IpsToMetric(u[i], minDepth, maxDepth));
    assert sd == SceneDistances(n, minDepth, maxDepth);
  }

  /**
   * The request as written and the clamped one agree whenever every
   * jittered coordinate already lies in `[0, 1]`: the two differ only where
   * a coordinate leaves that range.
   */
  lemma {:induction false} RequestDepthsAgree(n: nat, minDepth: real, maxDepth: real, isTraining: bool,
                                              jitter: seq<real>, lastRand: real)
    requires 0.0 < minDepth && 0.0 < maxDepth
    requires isTraining ==> |jitter| == n
    requires forall i :: 0 <= i < n ==> 0.0 <= UnclampedIps(n, isTraining, jitter)[i] <= 1.0
    ensures !HitsPole(n, minDepth, maxDepth, isTraining, jitter)
    ensures RequestDepthsAsWritten(n, minDepth, maxDepth, isTraining, jitter, lastRand)
         == RequestDepths(n, minDepth, maxDepth, isTraining, jitter, lastRand)
  {
    var u := UnclampedIps(n, isTraining, jitter);
    var c := JitteredIps(n, isTraining, jitter);
    forall i | 0 <= i < n ensures IpsDenominator(u[i], minDepth, maxDepth) > 0.0 && c[i] == u[i] {
      DenominatorPositive(u[i], minDepth, maxDepth);
    }
    var written := seq(n, i requires 0 <= i < n => IpsToMetric(u[i], minDepth, maxDepth));
    var clamped := seq(n, i requires 0 <= i < n => DepthAt(c[i], minDepth, maxDepth));
    assert written == clamped;
  }

  /**
   * With near depth 1, far depth 100 and five depths, a far-sample jitter
   * draw of 0.9 moves its coordinate to 1.08, past the pole at 100/99, and
   * the requested distance becomes negative.
   */
  lemma {:induction false} RequestDepthsAsWrittenPassesPole()
    ensures var r := RequestDepthsAsWritten(5, 1.0, 100.0, true, [0.5, 0.5, 0.5, 0.5, 0.9], 0.5);
      r.Ok? && r.value[4] < 0.0
  {
    var jitter := [0.5, 0.5, 0.5, 0.5, 0.9];
    var u := UnclampedIps(5, true, jitter);
    Linspace01(5);
    assert Linspace(0.0, 1.0, 5)[3] == 0.75;
    assert Linspace(0.0, 1.0, 5)[4] == 1.0;
    forall i | 0 <= i < 5 ensures IpsDenominator(u[i], 1.0, 100.0) != 0.0 {
      if i < 4 {
        LinspaceMonotone(0.0, 1.0, 5, i, 3);
        assert u[i] == Linspace(0.0, 1.0, 5)[i];
      } else {
        assert u[4] == 1.08;
      }
    }
    assert !HitsPole(5, 1.0, 100.0, true, jitter);
    assert u[4] == 1.08;
    assert IpsDenominator(u[4], 1.0, 100.0) == -6.92;
    var sd := seq(5, i requires 0 <= i < 5 => IpsToMetric(u[i], 1.0, 100.0));
    assert sd[4] < 0.0;
    var r := RequestDepthsAsWritten(5, 1.0, 100.0, true, jitter, 0.5);
    assert r == Ok(sd[4 := sd[4] + 0.5 * (100.0 - 100.0)]);
  }

  // ---------------------------------------------------------------------
  // psf_at_camera, a miss

  /** The state a request leaves behind and what it returns. */
  datatype Outcome = Outcome(result: Result<Psf, PsfError>, scaler: Option<seq<seq<real>>>, cache: Option<Psf>)

  /**
   * A request that does not use the cache: the distances are requested as
   * written; both PSFs are computed; the diffracted sums become the new
   * scaler; the normalised PSFs are combined into the cache; in training
   * red and blue are shifted; and the cache is resized to `size` and
   * returned.  A failed depth request changes nothing; a failed channel
   * shift leaves the combined stack in the cache.
   */
  function PsfMiss(eff: real, nDepths: nat, minDepth: real, maxDepth: real, nChannels: nat, h: nat, w: nat,
                   psfOf: (seq<real>, bool) -> Psf, size: Option<(nat, nat)>, isTraining: bool,
                   jitter: seq<real>, lastRand: real, rShift: (int, int), bShift: (int, int),
                   oldScaler: Option<seq<seq<real>>>, oldCache: Option<Psf>): (o: Outcome)
    requires ValidTarget(size)
    requires isTraining ==> |jitter| == nDepths
    requires forall sd, b :: |sd| == nDepths ==> IsPsf(psfOf(sd, b), nChannels, nDepths, h, w)
  {
    match RequestDepthsAsWritten(nDepths, minDepth, maxDepth, isTraining, jitter, lastRand)
    case Err(e) => Outcome(Err(e), oldScaler, oldCache)
    case Ok(sd) =>
      var diffracted := psfOf(sd, true);
      var undiffracted := psfOf(sd, false);
      assert IsPsf(diffracted, nChannels, nDepths, h, w) && IsPsf(undiffracted, nChannels, nDepths, h, w);
      ShiftedShape(eff, diffracted, undiffracted, nChannels, nDepths, h, w, isTraining && nChannels >= 3, rShift, bShift);
      var combined := CombinePsf(eff, diffracted, undiffracted);
      var scaler := Some(SliceSums(diffracted));
      if isTraining && nChannels < 3 then Outcome(Err(ChannelIndex), scaler, Some(combined))
      else
        var shifted := if isTraining then ShiftChannels(combined, rShift, bShift) else combined;
        var resized := ResizePsf(shifted, size);
        Outcome(Ok(resized), scaler, Some(resized))
  }

  /** The combined (and possibly shifted) stack keeps the `h x w` slice shape. */
  lemma {:induction false} ShiftedShape(eff: real, diffracted: Psf, undiffracted: Psf, c: nat, d: nat, h: nat, w: nat,
                     isTraining: bool, rShift: (int, int), bShift: (int, int))
    requires IsPsf(diffracted, c, d, h, w) && IsPsf(undiffracted, c, d, h, w)
    requires isTraining ==> c >= 3
    ensures SameStack(diffracted, undiffracted)
    ensures IsPsf(CombinePsf(eff, diffracted, undiffracted), c, d, h, w)
    ensures var combined := CombinePsf(eff, diffracted, undiffracted);
      AllRect(if isTraining then ShiftChannels(combined, rShift, bShift) else combined)
  {
    var combined := CombinePsf(eff, diffracted, undiffracted);
    forall i, k | 0 <= i < c && 0 <= k < d ensures IsRect(combined[i][k], h, w) {
      assert SameShape(combined[i][k], diffracted[i][k]);
    }
    if isTraining {
      var shifted := ShiftChannels(combined, rShift, bShift);
      forall i, k | 0 <= i < 3 && 0 <= k < d ensures IsRect(shifted[i][k], h, w) {
        if i == 0 {
          RollChannelKeeps(combined[0], rShift, k);
        } else if i == 2 {
          RollChannelKeeps(combined[2], bShift, k);
        }
      }
    }
  }

  /**
   * A miss fails exactly when a training request has no depths or a
   * coordinate on the pole (nothing changes), or fewer than three channels
   * (the combined stack is already cached); on success the cache holds
   * exactly what is returned, and whenever the distances were obtained the
   * scaler holds the sums of the raw diffracted PSF at those distances.
   */
  lemma {:induction false} PsfMissOutcome(eff: real, nDepths: nat, minDepth: real, maxDepth: real, nChannels: nat, h: nat, w: nat,
                       psfOf: (seq<real>, bool) -> Psf, size: Option<(nat, nat)>, isTraining: bool,
                       jitter: seq<real>, lastRand: real, rShift: (int, int), bShift: (int, int),
                       oldScaler: Option<seq<seq<real>>>, oldCache: Option<Psf>)
    requires ValidTarget(size)
    requires isTraining ==> |jitter| == nDepths
    requires forall sd, b :: |sd| == nDepths ==> IsPsf(psfOf(sd, b), nChannels, nDepths, h, w)
    ensures var o := PsfMiss(eff, nDepths, minDepth, maxDepth, nChannels, h, w, psfOf, size, isTraining,
                             jitter, lastRand, rShift, bShift, oldScaler, oldCache);
      var pole := HitsPole(nDepths, minDepth, maxDepth, isTraining, jitter);
      && (o.result == Err(DepthIndex) <==> isTraining && nDepths == 0)
      && (o.result == Err(DepthAtPole) <==> pole)
      && (o.result == Err(DepthIndex) || o.result == Err(DepthAtPole) ==> o.scaler == oldScaler && o.cache == oldCache)
      && (o.result == Err(ChannelIndex) <==> isTraining && nDepths > 0 && !pole && nChannels < 3)
      && (o.result.Ok? ==> o.cache == Some(o.result.value))
      && (o.result.Ok? ==> |o.result.value| == if isTraining then 3 else nChannels)
      && (o.result.Err? <==> pole || (isTraining && (nDepths == 0 || nChannels < 3)))
      && (var req := RequestDepthsAsWritten(nDepths, minDepth, maxDepth, isTraining, jitter, lastRand);
          req.Ok? ==> o.scaler == Some(SliceSums(psfOf(req.value, true))))
  {
  }

  /**
   * In training the green channel is never moved: unless a coordinate hits
   * the pole, it is the combined green stack at the requested distances,
   * only resized.
   */
  lemma {:induction false} PsfMissGreenUnmoved(eff: real, nDepths: nat, minDepth: real, maxDepth: real, nChannels: nat, h: nat, w: nat,
                            psfOf: (seq<real>, bool) -> Psf, size: Option<(nat, nat)>,
                            jitter: seq<real>, lastRand: real, rShift: (int, int), bShift: (int, int),
                            oldScaler: Option<seq<seq<real>>>, oldCache: Option<Psf>)
    requires ValidTarget(size)
    requires |jitter| == nDepths && nDepths > 0 && nChannels >= 3
    requires forall sd, b :: |sd| == nDepths ==> IsPsf(psfOf(sd, b), nChannels, nDepths, h, w)
    ensures var o := PsfMiss(eff, nDepths, minDepth, maxDepth, nChannels, h, w, psfOf, size, true,
                             jitter, lastRand, rShift, bShift, oldScaler, oldCache);
      var req := RequestDepthsAsWritten(nDepths, minDepth, maxDepth, true, jitter, lastRand);
      && (o.result.Ok? <==> !HitsPole(nDepths, minDepth, maxDepth, true, jitter))
      && (o.result.Ok? ==>
            var combined := CombinePsf(eff, psfOf(req.value, true), psfOf(req.value, false));
            && req.Ok? && |o.result.value| == 3
            && forall k :: 0 <= k < nDepths ==> o.result.value[1][k] == PadOrCrop(combined[1][k], size))
  {
    var req := RequestDepthsAsWritten(nDepths, minDepth, maxDepth, true, jitter, lastRand);
    if req.Ok? {
      var sd := req.value;
      ShiftedShape(eff, psfOf(sd, true), psfOf(sd, false), nChannels, nDepths, h, w, true, rShift, bShift);
    }
  }

  /** A slice that is combined from nonzero sums, rolled and padded still sums to one. */
  lemma {:induction false} MissSliceUnit(eff: real, diffracted: Psf, undiffracted: Psf, c: nat, d: nat, h: nat, w: nat,
                      isTraining: bool, rShift: (int, int), bShift: (int, int),
                      size: Option<(nat, nat)>, i: nat, k: nat)
    requires IsPsf(diffracted, c, d, h, w) && IsPsf(undiffracted, c, d, h, w)
    requires isTraining ==> c >= 3
    requires h >= 1 && w >= 1
    requires size.Some? ==> size.value.0 >= h && size.value.1 >= w
    requires i < (if isTraining then 3 else c) && k < d
    requires Sum(diffracted[i][k]) != 0.0 && Sum(undiffracted[i][k]) != 0.0
    ensures var combined := CombinePsf(eff, diffracted, undiffracted);
      var shifted := if isTraining then ShiftChannels(combined, rShift, bShift) else combined;
      Rect(shifted[i][k]) && Sum(PadOrCrop(shifted[i][k], size)) == 1.0
  {
    ShiftedShape(eff, diffracted, undiffracted, c, d, h, w, isTraining, rShift, bShift);
    var combined := CombinePsf(eff, diffracted, undiffracted);
    CombineSliceUnit(eff, diffracted[i][k], undiffracted[i][k]);
    assert IsRect(combined[i][k], h, w);
    var shifted := if isTraining then ShiftChannels(combined, rShift, bShift) else combined;
    var s := shifted[i][k];
    assert IsRect(s, h, w) && Sum(s) == 1.0 by {
      if isTraining && i == 0 {
        RollChannelKeeps(combined[0], rShift, k);
      } else if isTraining && i == 2 {
        RollChannelKeeps(combined[2], bShift, k);
      }
    }
    if size.Some? {
      PadOrCropSumPad(s, h, w, size.value.0, size.value.1);
    }
  }

  /**
   * When every raw PSF slice has a nonzero sum and the requested size only
   * pads, every slice of a successful request sums to exactly one: the
   * normalisation survives the combination, the channel rolls and the zero
   * padding.
   */
  lemma {:induction false} PsfMissUnitSlices(eff: real, nDepths: nat, minDepth: real, maxDepth: real, nChannels: nat, h: nat, w: nat,
                          psfOf: (seq<real>, bool) -> Psf, size: Option<(nat, nat)>, isTraining: bool,
                          jitter: seq<real>, lastRand: real, rShift: (int, int), bShift: (int, int),
                          oldScaler: Option<seq<seq<real>>>, oldCache: Option<Psf>)
    requires ValidTarget(size)
    requires isTraining ==> |jitter| == nDepths
    requires forall sd, b :: |sd| == nDepths ==> IsPsf(psfOf(sd, b), nChannels, nDepths, h, w)
    requires forall sd, b :: |sd| == nDepths ==> NonzeroSlices(psfOf(sd, b))
    requires h >= 1 && w >= 1
    requires size.Some? ==> size.value.0 >= h && size.value.1 >= w
    ensures var o := PsfMiss(eff, nDepths, minDepth, maxDepth, nChannels, h, w, psfOf, size, isTraining,
                             jitter, lastRand, rShift, bShift, oldScaler, oldCache);
      o.result.Ok? ==> UnitSlices(o.result.value)
  {
    var o := PsfMiss(eff, nDepths, minDepth, maxDepth, nChannels, h, w, psfOf, size, isTraining,
                     jitter, lastRand, rShift, bShift, oldScaler, oldCache);
    if o.result.Ok? {
      var sd := RequestDepthsAsWritten(nDepths, minDepth, maxDepth, isTraining, jitter, lastRand).value;
      var diffracted, undiffracted := psfOf(sd, true), psfOf(sd, false);
      var r := o.result.value;
      forall i, k | 0 <= i < |r| && 0 <= k < |r[i]| ensures Sum(r[i][k]) == 1.0 {
        MissSliceUnit(eff, diffracted, undiffracted, nChannels, nDepths, h, w, isTraining, rShift, bShift, size, i, k);
      }
    }
  }

  // ---------------------------------------------------------------------
  // The camera object

  class Camera {
    const diffractionEfficiency: real
    const nDepths: nat
    const minDepth: real
    const maxDepth: real
    const focalDepth: real
    const apertureDiameter: real
    const cameraPitch: real
    const focalLength: real
    const imageSize: seq<int>
    const apertureSize: int
    const wavelengths: seq<real>
    /** `buf_scene_distances` */
    const sceneDistances: seq<real>
    /** `_diffraction_scaler`: the sums of the last diffracted PSF, `None` until a request computes one. */
    var diffractionScaler: Option<seq<seq<real>>>
    /** `__psf_cache`: the last PSF stack computed, `None` until a request computes one. */
    var psfCache: Option<Psf>

    ghost predicate Valid()
      reads this
    {
      && 0.0 < minDepth && 0.0 < maxDepth
      && |sceneDistances| == nDepths
      && (psfCache.Some? ==> AllRect(psfCache.value))
    }

    /**
     * `Camera.__init__` once its checks have passed: the configuration is
     * stored, the scene distances registered, and the scaler and the cache
     * start empty.
     */
    constructor (focalDepth: real, minDepth: real, maxDepth: real, nDepths: nat, imageSize: ImageSizeArg,
                 apertureSize: int, focalLength: real, apertureDiameter: real, cameraPitch: real,
                 wavelengths: WavelengthArg, diffractionEfficiency: real)
      requires CheckConfig(minDepth, imageSize, wavelengths).Ok?
      requires 0.0 < maxDepth
      ensures Valid()
      ensures this.minDepth == minDepth && this.maxDepth == maxDepth && this.nDepths == nDepths
      ensures this.focalDepth == focalDepth && this.focalLength == focalLength
      ensures this.apertureDiameter == apertureDiameter && this.apertureSize == apertureSize
      ensures this.cameraPitch == cameraPitch && this.diffractionEfficiency == diffractionEfficiency
      ensures this.imageSize == CheckConfig(minDepth, imageSize, wavelengths).value.imageSize
      ensures this.wavelengths == CheckConfig(minDepth, imageSize, wavelengths).value.wavelengths
      ensures this.sceneDistances == SceneDistances(nDepths, minDepth, maxDepth)
      ensures this.diffractionScaler == None && this.psfCache == None
    {
      var cfg := CheckConfig(minDepth, imageSize, wavelengths).value;
      this.diffractionEfficiency := diffractionEfficiency;
      this.nDepths := nDepths;
      this.minDepth := minDepth;
      this.maxDepth := maxDepth;
      this.focalDepth := focalDepth;
      this.apertureDiameter := apertureDiameter;
      this.cameraPitch := cameraPitch;
      this.focalLength := focalLength;
      this.imageSize := cfg.imageSize;
      this.apertureSize := apertureSize;
      this.wavelengths := cfg.wavelengths;
      this.sceneDistances := SceneDistances(nDepths, minDepth, maxDepth);
      this.diffractionScaler := None;
      this.psfCache := None;
    }

    /**
     * `psf_at_camera(size, is_training, use_psf_cache)`.  A request that may
     * use the cache and finds it filled returns the cached stack resized to
     * `size` and changes nothing.  Any other request recomputes as
     * `PsfMiss` says, overwrites the scaler and the cache, and returns the
     * new cache.
     */
    method PsfAtCamera(size: Option<(nat, nat)>, isTraining: bool, usePsfCache: bool,
                       psfOf: (seq<real>, bool) -> Psf, h: nat, w: nat,
                       jitter: seq<real>, lastRand: real, rShift: (int, int), bShift: (int, int))
      returns (r: Result<Psf, PsfError>)
      requires Valid() && ValidTarget(size)
      requires isTraining ==> |jitter| == nDepths && 0.0 <= lastRand < 1.0
      requires isTraining ==> ValidShift(rShift) && ValidShift(bShift)
      requires forall sd, b :: |sd| == nDepths ==> IsPsf(psfOf(sd, b), |wavelengths|, nDepths, h, w)
      modifies this
      ensures Valid()
      ensures usePsfCache && old(psfCache).Some? ==>
        && r == Ok(ResizePsf(old(psfCache).value, size))
        && psfCache == old(psfCache) && diffractionScaler == old(diffractionScaler)
      ensures !(usePsfCache && old(psfCache).Some?) ==>
        Outcome(r, diffractionScaler, psfCache) ==
          PsfMiss(diffractionEfficiency, nDepths, minDepth, maxDepth, |wavelengths|, h, w, psfOf, size,
                  isTraining, jitter, lastRand, rShift, bShift, old(diffractionScaler), old(psfCache))
    {
      if usePsfCache && psfCache.Some? {
        return Ok(ResizePsf(psfCache.value, size));
      }
      var depths := RequestDepthsAsWritten(nDepths, minDepth, maxDepth, isTraining, jitter, lastRand);
      if depths.Err? {
        return Err(depths.error);
      }
      var sd := depths.value;
      var diffracted := psfOf(sd, true);
      var undiffracted := psfOf(sd, false);
      diffractionScaler := Some(SliceSums(diffracted));
      ShiftedShape(diffractionEfficiency, diffracted, undiffracted, |wavelengths|, nDepths, h, w, false, rShift, bShift);
      psfCache := Some(CombinePsf(diffractionEfficiency, diffracted, undiffracted));
      if isTraining {
        if |psfCache.value| < 3 {
          return Err(ChannelIndex);
        }
        ShiftedShape(diffractionEfficiency, diffracted, undiffracted, |wavelengths|, nDepths, h, w, true, rShift, bShift);
        psfCache := Some(ShiftChannels(psfCache.value, rShift, bShift));
      }
      ResizePsfRect(psfCache.value, size);
      psfCache := Some(ResizePsf(psfCache.value, size));
      r := Ok(psfCache.value);
    }
  }
}

=== FILE: classic.dfy ===
/**
 * The index and scaling logic of `optics/classic.py`: the oversampling
 * factor fixed by the constructor, the sampling interval and aperture
 * grids, the non-FFT steps of `psf` (phase, aperture stop and
 * max-normalisation, decimation, shift and crop), the single-slot heightmap
 * cache, and the subsquare count of the lattice-focal initialisation.
 * `sqrt`, the FFT and the kernel helpers are parameters.
 */
module Classic {
  import opened Results
  import opened Tensor
  import opened Utils
  import opened Fft
  import opened Optics

  // ---------------------------------------------------------------------
  // The oversampling factor

  /** Python's `int` on a float: truncation toward zero. */
  function Truncate(x: real): (t: int)
    ensures x >= 0.0 ==> t as real <= x < (t + 1) as real
    ensures x < 0.0 ==> (t - 1) as real < x <= t as real
  {
    if x >= 0.0 then x.Floor else -((-x).Floor)
  }

  /** `int(torch.ceil(x).item() + 1e-5)`. */
  function ScaleFactor(x: real): int
  {
    Truncate(Ceil(x) as real + 0.00001)
  }

  /**
   * For a positive ratio the factor is the ceiling of the ratio: the
   * smallest integer at least `x`, hence at least 1.  The added `1e-5` only
   * protects against a ceiling that comes back just below an integer.
   */
  lemma {:induction false} ScaleFactorIsCeiling(x: real)
    requires x > 0.0
    ensures ScaleFactor(x) >= 1
    ensures (ScaleFactor(x) - 1) as real < x <= ScaleFactor(x) as real
  {
    var c := Ceil(x);
    assert Truncate(c as real + 0.00001) == c;
  }

  /** The smallest wavelength, `torch.min(buf_wavelengths)`. */
  function MinOf(s: seq<real>): (m: real)
    requires |s| >= 1
    ensures m in s && forall i :: 0 <= i < |s| ==> m <= s[i]
  {
    if |s| == 1 then s[0]
    else
      var rest := MinOf(s[1..]);
      assert forall i :: 1 <= i < |s| ==> s[i] == s[1..][i - 1];
      if s[0] <= rest then s[0] else rest
  }

  /**
   * `camera_pitch / sensor_distance * aperture_diameter / min(wavelengths)`:
   * how many times finer than the pixel pitch the aperture field must be
   * sampled for the shortest wavelength.
   */
  function OversamplingRatio(cameraPitch: real, sensorDistance: real, apertureDiameter: real,
                             wavelengths: seq<real>): real
    requires sensorDistance != 0.0 && |wavelengths| >= 1 && MinOf(wavelengths) != 0.0
  {
    cameraPitch / sensorDistance * apertureDiameter / MinOf(wavelengths)
  }

  // ---------------------------------------------------------------------
  // interval and __uv_grid

  /** `interval[wl, dim]`: `wl * sensor_distance / camera_pitch * psf_factor / image_size[dim]`. */
  function Interval(wavelength: real, sensorDistance: real, cameraPitch: real, psfFactor: int, size: int): real
    requires cameraPitch != 0.0 && size != 0
  {
    wavelength * sensorDistance / cameraPitch * psfFactor as real / size as real
  }

  /** Python's `//` on ints: the floor of the quotient, for either sign of the divisor. */
  function FloorDiv(a: int, b: int): (q: int)
    requires b != 0
    ensures b > 0 ==> q * b <= a < q * b + b
    ensures b < 0 ==> q * b >= a > q * b + b
  {
    if b > 0 then a / b else (-a) / (-b)
  }

  lemma {:induction false} ProductSign(a: int, b: int)
    ensures a >= 0 && b >= 0 ==> a * b >= 0
  {
    if a >= 0 && b >= 0 {
      MulNonNegative(a, b);
    }
  }

  /** `image_size[dim] * scale_factor // psf_factor`: the number of aperture samples along `dim`. */
  function GridLength(size: int, scaleFactor: int, psfFactor: int): (n: int)
    requires psfFactor != 0
    ensures size >= 0 && scaleFactor >= 0 && psfFactor > 0 ==> n >= 0
  {
    ProductSign(size, scaleFactor);
    FloorDiv(size * scaleFactor, psfFactor)
  }

  /** `torch.linspace(-n / 2, n / 2, n) * interval`: the aperture coordinates along one axis. */
  function UvGrid(n: nat, interval: real): (x: seq<real>)
    ensures |x| == n
  {
    var c := n as real / 2.0;
    seq(n, k requires 0 <= k < n => Linspace(-c, c, n)[k] * interval)
  }

  /**
   * The grid is symmetric about the optical axis, `x_k == -x_(n-1-k)`, and
   * runs from `-n/2` to `n/2` intervals.
   */
  lemma {:induction false} UvGridSymmetric(n: nat, interval: real, k: nat)
    requires 2 <= n && k < n
    ensures UvGrid(n, interval)[k] == -UvGrid(n, interval)[n - 1 - k]
    ensures UvGrid(n, interval)[0] == -(n as real / 2.0) * interval
    ensures UvGrid(n, interval)[n - 1] == (n as real / 2.0) * interval
  {
    var c := n as real / 2.0;
    LinspaceSymmetric(c, n, k);
    LinspaceEnds(-c, c, n);
  }

  /**
   * Neighbouring aperture samples are `interval * n / (n - 1)` apart, not one
   * interval: the `n` samples of `linspace(-n/2, n/2, n)` span `n`
   * intervals in `n - 1` steps.
   */
  lemma {:induction false} UvGridSpacing(n: nat, interval: real, k: nat)
    requires 2 <= n && k + 1 < n
    ensures UvGrid(n, interval)[k + 1] - UvGrid(n, interval)[k] == interval * n as real / (n - 1) as real
    ensures UvGrid(n, interval)[n - 1] - UvGrid(n, interval)[0] == n as real * interval
  {
    var c := n as real / 2.0;
    var m := (n - 1) as real;
    var l := Linspace(-c, c, n);
    assert l[k] == -c + n as real * (k as real / m);
    assert l[k + 1] == -c + n as real * ((k + 1) as real / m);
    assert (k + 1) as real / m - k as real / m == 1.0 / m;
    assert l[k + 1] - l[k] == n as real / m;
    assert UvGrid(n, interval)[k + 1] - UvGrid(n, interval)[k] == (l[k + 1] - l[k]) * interval;
    UvGridSymmetric(n, interval, 0);
  }

  /**
   * `buf_r_sqr = u_axis ** 2 + v_axis ** 2` for one wavelength: rows follow
   * the v-grid (dimension 0), columns the u-grid (dimension 1).
   */
  function RSquared(u: seq<real>, v: seq<real>): (r: Matrix)
    ensures IsRect(r, |v|, |u|)
  {
    seq(|v|, i requires 0 <= i < |v| => seq(|u|, j requires 0 <= j < |u| => u[j] * u[j] + v[i] * v[i]))
  }

  /**
   * On symmetric grids the squared radius is the same at a sample and at its
   * mirror image through the centre.
   */
  lemma {:induction false} RSquaredPointSymmetric(nu: nat, nv: nat, du: real, dv: real, i: nat, j: nat)
    requires 2 <= nu && 2 <= nv && i < nv && j < nu
    ensures RSquared(UvGrid(nu, du), UvGrid(nv, dv))[i][j] ==
      RSquared(UvGrid(nu, du), UvGrid(nv, dv))[nv - 1 - i][nu - 1 - j]
  {
    UvGridSymmetric(nu, du, j);
    UvGridSymmetric(nv, dv, i);
  }

  // ---------------------------------------------------------------------
  // The phase of psf

  /**
   * The phase at one aperture sample, for one wavelength and scene distance:
   * the spherical-wave difference between the scene point and the focal
   * depth, plus, for the diffracted call only, the DOE's phase delay at
   * height `height`.
   */
  function Phase(r2: real, sceneDistance: real, focalDepth: real, wavelength: real,
                 modulatePhase: bool, height: real, sqrt: real -> real): real
    requires wavelength != 0.0
  {
    var phase1 := sqrt(r2 + sceneDistance * sceneDistance) - sceneDistance;
    var phase2 := sqrt(r2 + focalDepth * focalDepth) - focalDepth;
    var base := (phase1 - phase2) * (2.0 * Pi / wavelength);
    if modulatePhase then base + HeightmapToPhase(height, wavelength, RefractiveIndex(wavelength))
    else base
  }

  /**
   * The undiffracted phase does not depend on the heightmap, and the
   * diffracted phase exceeds it by exactly the DOE's phase delay.
   */
  lemma {:induction false} PhaseModulation(r2: real, sceneDistance: real, focalDepth: real, wavelength: real,
                        h1: real, h2: real, sqrt: real -> real)
    requires wavelength != 0.0
    ensures Phase(r2, sceneDistance, focalDepth, wavelength, false, h1, sqrt)
         == Phase(r2, sceneDistance, focalDepth, wavelength, false, h2, sqrt)
    ensures Phase(r2, sceneDistance, focalDepth, wavelength, true, h1, sqrt)
         - Phase(r2, sceneDistance, focalDepth, wavelength, false, h1, sqrt)
         == HeightmapToPhase(h1, wavelength, RefractiveIndex(wavelength))
  {
  }

  /** The phase over a whole aperture plane whose heights are `heights` (read only when modulating). */
  function PhasePlane(r2: Matrix, sceneDistance: real, focalDepth: real, wavelength: real,
                      modulatePhase: bool, heights: Matrix, sqrt: real -> real): (p: Matrix)
    requires wavelength != 0.0 && SameShape(heights, r2)
    ensures SameShape(p, r2)
  {
    seq(|r2|, i requires 0 <= i < |r2| => seq(|r2[i]|, j requires 0 <= j < |r2[i]| =>
      Phase(r2[i][j], sceneDistance, focalDepth, wavelength, modulatePhase, heights[i][j], sqrt)))
  }

  // ---------------------------------------------------------------------
  // Aperture stop and max-normalisation of the amplitude

  /** The largest entry, `x.max()` over the whole (flattened) tensor. */
  function MaxOf(s: seq<real>): (m: real)
    requires |s| >= 1
    ensures m in s && forall i :: 0 <= i < |s| ==> s[i] <= m
  {
    if |s| == 1 then s[0]
    else
      var rest := MaxOf(s[1..]);
      assert forall i :: 1 <= i < |s| ==> s[i] == s[1..][i - 1];
      if s[0] >= rest then s[0] else rest
  }

  /** `apply_stop(r_sqr, amplitude)` on the flattened tensor, each sample paired with its squared radius. */
  function StopAll(r2: seq<real>, amplitude: seq<real>, diameter: real): (r: seq<real>)
    requires |r2| == |amplitude|
    ensures |r| == |amplitude|
  {
    seq(|amplitude|, i requires 0 <= i < |amplitude| => Stop(r2[i], amplitude[i], diameter))
  }

  /**
   * `x / x.max()`.  A maximum of zero (a division producing NaN in the
   * source) leaves the samples as they are.
   */
  function NormalizeByMax(s: seq<real>): (r: seq<real>)
    requires |s| >= 1
    ensures |r| == |s|
  {
    var m := MaxOf(s);
    if m == 0.0 then s else seq(|s|, i requires 0 <= i < |s| => s[i] / m)
  }

  /** The stop-and-normalise step of `psf` on a given amplitude plane: the aperture stop, then division by the maximum. */
  function StopAndNormalize(r2: seq<real>, amplitude: seq<real>, diameter: real): (r: seq<real>)
    requires |r2| == |amplitude| >= 1
    ensures |r| == |amplitude|
  {
    NormalizeByMax(StopAll(r2, amplitude, diameter))
  }

  /** Every sample on or outside the aperture circle ends up zero. */
  lemma {:induction false} StopAndNormalizeOutside(r2: seq<real>, amplitude: seq<real>, diameter: real, i: nat)
    requires |r2| == |amplitude| >= 1 && i < |amplitude|
    requires r2[i] >= diameter * diameter / 4.0
    ensures StopAndNormalize(r2, amplitude, diameter)[i] == 0.0
  {
    assert StopAll(r2, amplitude, diameter)[i] == 0.0;
  }

  /**
   * When some sample is positive, normalising by the maximum bounds every
   * sample by 1 and makes the largest one exactly 1.
   */
  lemma {:induction false} NormalizeByMaxPeak(s: seq<real>)
    requires |s| >= 1 && MaxOf(s) > 0.0
    ensures forall k :: 0 <= k < |s| ==> NormalizeByMax(s)[k] <= 1.0
    ensures MaxOf(NormalizeByMax(s)) == 1.0
  {
    NormalizeByMaxBounded(s);
    var top := NormalizeByMaxReaches(s);
    MaxIsOne(NormalizeByMax(s), top);
  }

  lemma {:induction false} NormalizeByMaxReaches(s: seq<real>) returns (top: nat)
    requires |s| >= 1 && MaxOf(s) > 0.0
    ensures top < |s| && NormalizeByMax(s)[top] == 1.0
  {
    var m := MaxOf(s);
    top :| 0 <= top < |s| && s[top] == m;
    assert m / m == 1.0;
  }

  lemma {:induction false} NormalizeByMaxBounded(s: seq<real>)
    requires |s| >= 1 && MaxOf(s) > 0.0
    ensures forall k :: 0 <= k < |s| ==> NormalizeByMax(s)[k] <= 1.0
  {
    var m := MaxOf(s);
    forall k | 0 <= k < |s| ensures NormalizeByMax(s)[k] <= 1.0 {
      DivideAtMostOne(s[k], m);
    }
  }

  lemma {:induction false} DivideAtMostOne(x: real, m: real)
    requires 0.0 < m && x <= m
    ensures x / m <= 1.0
  {
    var q := x / m;
    assert q * m == x;
    if q > 1.0 {
      MulMonotone(m, 1.0, q);
      assert false;
    }
  }

  /** A sequence bounded by 1 that reaches 1 has maximum 1. */
  lemma {:induction false} MaxIsOne(s: seq<real>, top: nat)
    requires top < |s| && s[top] == 1.0 && forall k :: 0 <= k < |s| ==> s[k] <= 1.0
    ensures MaxOf(s) == 1.0
  {
  }

  // ---------------------------------------------------------------------
  // The amplitude plane

  /**
   * The amplitude of the spherical wave from a point at distance `sd`,
   * sampled at squared radius `r2` on the aperture:
   * `sd / (wl * (r2 + sd²))`.
   */
  function Amplitude(r2: real, sd: real, wavelength: real): real
    requires wavelength != 0.0 && r2 + sd * sd != 0.0
  {
    sd / (wavelength * (r2 + sd * sd))
  }

  /** A positive distance keeps `r2 + sd²` positive for every squared radius. */
  lemma {:induction false} ItemPositive(r2: real, sd: real)
    requires 0.0 <= r2 && 0.0 < sd
    ensures 0.0 < r2 + sd * sd
  {
    calc {
      r2 + sd * sd;
    >=
      sd * sd;
    >
      0.0;
    }
  }

  /**
   * Multiplying the amplitude by `wl * (r2 + sd²)` gives back the distance,
   * and a point in front of the lens lights every sample positively.
   */
  lemma {:induction false} AmplitudeMeaning(r2: real, sd: real, wavelength: real)
    requires wavelength != 0.0 && r2 + sd * sd != 0.0
    ensures Amplitude(r2, sd, wavelength) * (wavelength * (r2 + sd * sd)) == sd
    ensures 0.0 < sd && 0.0 < wavelength && 0.0 <= r2 ==> 0.0 < Amplitude(r2, sd, wavelength)
  {
    var den := wavelength * (r2 + sd * sd);
    assert den != 0.0;
    if 0.0 < sd && 0.0 < wavelength && 0.0 <= r2 {
      ItemPositive(r2, sd);
      MulMonotone(wavelength, 0.0, r2 + sd * sd);
      assert 0.0 < den;
    }
  }

  /** For a positive distance and wavelength, the amplitude falls off with the radius. */
  lemma {:induction false} AmplitudeFallsOff(r2: real, r2': real, sd: real, wavelength: real)
    requires 0.0 <= r2 <= r2' && 0.0 < sd && 0.0 < wavelength
    ensures 0.0 < r2 + sd * sd && 0.0 < r2' + sd * sd
    ensures Amplitude(r2', sd, wavelength) <= Amplitude(r2, sd, wavelength)
    ensures r2 < r2' ==> Amplitude(r2', sd, wavelength) < Amplitude(r2, sd, wavelength)
  {
    ItemPositive(r2, sd);
    ItemPositive(r2', sd);
    var d, d' := wavelength * (r2 + sd * sd), wavelength * (r2' + sd * sd);
    AmplitudeMeaning(r2, sd, wavelength);
    AmplitudeMeaning(r2', sd, wavelength);
    MulMonotone(wavelength, r2 + sd * sd, r2' + sd * sd);
    var a, a' := Amplitude(r2, sd, wavelength), Amplitude(r2', sd, wavelength);
    assert a * d == sd && a' * d' == sd && 0.0 < a';
    if a < a' {
      MulMonotone(d, a, a');
      MulMonotone(a', d, d');
      assert false;
    }
    if r2 < r2' {
      assert d < d';
      if a == a' {
        assert false;
      }
    }
  }

  /** Every sample of a flattened plane has a distance and wavelength its amplitude is defined at. */
  predicate AmplitudeDefined(r2: seq<real>, sd: seq<real>, wl: seq<real>)
  {
    |sd| == |r2| && |wl| == |r2| &&
    forall i :: 0 <= i < |r2| ==> wl[i] != 0.0 && r2[i] + sd[i] * sd[i] != 0.0
  }

  /**
   * `scene_distances / (wl * item)` on the flattened tensor: each sample
   * carries the squared radius, scene distance and wavelength the broadcast
   * pairs it with.
   */
  function AmplitudeAll(r2: seq<real>, sd: seq<real>, wl: seq<real>): (a: seq<real>)
    requires AmplitudeDefined(r2, sd, wl)
    ensures |a| == |r2|
  {
    seq(|r2|, i requires 0 <= i < |r2| && AmplitudeDefined(r2, sd, wl) => Amplitude(r2[i], sd[i], wl[i]))
  }

  /** The amplitude plane of `psf`: the amplitude, the aperture stop, then the maximum. */
  function PsfAmplitude(r2: seq<real>, sd: seq<real>, wl: seq<real>, diameter: real): (r: seq<real>)
    requires |r2| >= 1 && AmplitudeDefined(r2, sd, wl)
    ensures |r| == |r2|
  {
    StopAndNormalize(r2, AmplitudeAll(r2, sd, wl), diameter)
  }

  /** Every sample lit from in front of the lens: positive distance and wavelength, and a squared radius. */
  predicate InFront(r2: seq<real>, sd: seq<real>, wl: seq<real>)
  {
    |sd| == |r2| && |wl| == |r2| &&
    forall i :: 0 <= i < |r2| ==> 0.0 < sd[i] && 0.0 < wl[i] && 0.0 <= r2[i]
  }

  /** Lit from in front of the lens, the stopped amplitude is nonnegative, and positive exactly inside the aperture. */
  lemma {:induction false} StoppedAmplitudeSign(r2: seq<real>, sd: seq<real>, wl: seq<real>, diameter: real)
    requires InFront(r2, sd, wl)
    ensures AmplitudeDefined(r2, sd, wl)
    ensures forall k :: 0 <= k < |r2| ==> 0.0 <= StopAll(r2, AmplitudeAll(r2, sd, wl), diameter)[k]
    ensures forall k :: 0 <= k < |r2| ==>
      (0.0 < StopAll(r2, AmplitudeAll(r2, sd, wl), diameter)[k] <==> r2[k] < diameter * diameter / 4.0)
  {
    forall i | 0 <= i < |r2| ensures 0.0 < r2[i] + sd[i] * sd[i] {
      ItemPositive(r2[i], sd[i]);
    }
    var a := AmplitudeAll(r2, sd, wl);
    forall k | 0 <= k < |r2| ensures 0.0 < a[k] {
      AmplitudeMeaning(r2[k], sd[k], wl[k]);
    }
  }

  /** Division by a positive maximum keeps the sign of every sample. */
  lemma {:induction false} NormalizeByMaxSign(s: seq<real>)
    requires |s| >= 1 && MaxOf(s) > 0.0
    ensures forall k :: 0 <= k < |s| ==> (0.0 <= s[k] ==> 0.0 <= NormalizeByMax(s)[k])
    ensures forall k :: 0 <= k < |s| ==> (0.0 < NormalizeByMax(s)[k] <==> 0.0 < s[k])
  {
    var m := MaxOf(s);
    var r := NormalizeByMax(s);
    forall k | 0 <= k < |s| ensures (0.0 <= s[k] ==> 0.0 <= r[k]) && (0.0 < r[k] <==> 0.0 < s[k]) {
      assert r[k] == s[k] / m;
      DivideSign(s[k], m);
    }
  }

  lemma {:induction false} DivideSign(x: real, m: real)
    requires 0.0 < m
    ensures (0.0 <= x ==> 0.0 <= x / m) && (0.0 < x / m <==> 0.0 < x)
  {
    var q := x / m;
    assert q * m == x;
    if 0.0 < q { MulMonotone(m, 0.0, q); }
    if q < 0.0 { MulMonotone(m, q, 0.0); }
  }

  /**
   * When every sample is lit from in front of the lens and some sample lies
   * inside the aperture, the normalised amplitude lies in `[0, 1]`, is
   * positive exactly inside the aperture, and peaks at exactly one.
   */
  lemma {:induction false} PsfAmplitudeUnitPeak(r2: seq<real>, sd: seq<real>, wl: seq<real>, diameter: real, c: nat)
    requires InFront(r2, sd, wl) && c < |r2| && r2[c] < diameter * diameter / 4.0
    ensures AmplitudeDefined(r2, sd, wl)
    ensures forall k :: 0 <= k < |r2| ==> 0.0 <= PsfAmplitude(r2, sd, wl, diameter)[k] <= 1.0
    ensures forall k :: 0 <= k < |r2| ==>
      (0.0 < PsfAmplitude(r2, sd, wl, diameter)[k] <==> r2[k] < diameter * diameter / 4.0)
    ensures MaxOf(PsfAmplitude(r2, sd, wl, diameter)) == 1.0
  {
    StoppedAmplitudeSign(r2, sd, wl, diameter);
    var s := StopAll(r2, AmplitudeAll(r2, sd, wl), diameter);
    assert 0.0 < s[c] <= MaxOf(s);
    NormalizeByMaxPeak(s);
    NormalizeByMaxSign(s);
    assert PsfAmplitude(r2, sd, wl, diameter) == NormalizeByMax(s);
  }

  // ---------------------------------------------------------------------
  // Decimation, shift and crop

  /** Python's `s[start::step]`. */
  function Strided<T>(s: seq<T>, start: nat, step: nat): (r: seq<T>)
    requires step >= 1
    decreases |s| - start
  {
    if start >= |s| then [] else [s[start]] + Strided(s, start + step, step)
  }

  /**
   * The slice keeps exactly the indices `start + k * step` that lie inside
   * the sequence, in order: output `k` exists exactly when that index is in
   * range, and then it is the input at that index.
   */
  lemma {:induction false} StridedAt<T>(s: seq<T>, start: nat, step: nat, k: nat)
    requires step >= 1
    ensures k < |Strided(s, start, step)| <==> start + k * step < |s|
    ensures k < |Strided(s, start, step)| ==> Strided(s, start, step)[k] == s[start + k * step]
    decreases |s| - start
  {
    if start >= |s| {
      MulNonNegative(k, step);
    } else if k > 0 {
      StridedAt(s, start + step, step, k - 1);
      assert start + step + (k - 1) * step == start + k * step;
    }
  }

  /** The slice has `ceil((N - start) / step)` entries, none when `start >= N`. */
  lemma {:induction false} StridedLength<T>(s: seq<T>, start: nat, step: nat)
    requires step >= 1
    ensures |Strided(s, start, step)| == if start < |s| then (|s| - start + step - 1) / step else 0
    decreases |s| - start
  {
    if start < |s| {
      StridedLength(s, start + step, step);
      var x := |s| - start - 1;
      DivStep(x, step);
      assert |s| - start + step - 1 == x + step;
      if start + step < |s| {
        assert |s| - (start + step) + step - 1 == x;
      }
    }
  }

  /** Adding one step adds one to the quotient; below one step the quotient is zero. */
  lemma {:induction false} DivStep(x: nat, step: nat)
    requires step >= 1
    ensures (x + step) / step == x / step + 1
    ensures x < step ==> x / step == 0
  {
    DivMod(x, step);
    ModUnique(x + step, step, x / step + 1, x % step);
    if x < step {
      ModUnique(x, step, 0, x);
    }
  }

  /** `psf[..., sf // 2::sf, sf // 2::sf]` on one slice. */
  function Decimate(m: Matrix, sf: nat): (r: Matrix)
    requires sf >= 1
  {
    var rows := Strided(m, sf / 2, sf);
    seq(|rows|, i requires 0 <= i < |rows| => Strided(rows[i], sf / 2, sf))
  }

  /** The number of samples the decimation keeps on an axis of extent `n`. */
  function DecimatedLength(n: nat, sf: nat): nat
    requires sf >= 1
  {
    if sf / 2 < n then (n - sf / 2 + sf - 1) / sf else 0
  }

  /**
   * The decimated slice is `DecimatedLength(h) x DecimatedLength(w)`, and its
   * entry `(i, j)` is the input entry `(sf//2 + i*sf, sf//2 + j*sf)`.
   */
  lemma {:induction false} DecimateAt(m: Matrix, h: nat, w: nat, sf: nat, i: nat, j: nat)
    requires IsRect(m, h, w) && sf >= 1
    requires i < DecimatedLength(h, sf) && j < DecimatedLength(w, sf)
    ensures IsRect(Decimate(m, sf), DecimatedLength(h, sf), DecimatedLength(w, sf))
    ensures sf / 2 + i * sf < h && sf / 2 + j * sf < w
    ensures Decimate(m, sf)[i][j] == m[sf / 2 + i * sf][sf / 2 + j * sf]
  {
    DecimateShape(m, h, w, sf);
    var rows := Strided(m, sf / 2, sf);
    assert Decimate(m, sf)[i] == Strided(rows[i], sf / 2, sf);
    StridedAt(m, sf / 2, sf, i);
    StridedAt(rows[i], sf / 2, sf, j);
  }

  lemma {:induction false} DecimateShape(m: Matrix, h: nat, w: nat, sf: nat)
    requires IsRect(m, h, w) && sf >= 1
    ensures IsRect(Decimate(m, sf), DecimatedLength(h, sf), DecimatedLength(w, sf))
  {
    var rows := Strided(m, sf / 2, sf);
    StridedLength(m, sf / 2, sf);
    forall r | 0 <= r < |rows| ensures |Strided(rows[r], sf / 2, sf)| == DecimatedLength(w, sf) {
      StridedAt(m, sf / 2, sf, r);
      StridedLength(rows[r], sf / 2, sf);
    }
  }

  /** `fftshift(psf * c)` on one slice: a scaled permutation of its entries. */
  function ScaledShift(d: Matrix, c: real): (r: Matrix)
    requires Rect(d)
    ensures IsRect(r, |d|, Width(d)) && Rect(r)
  {
    ScaleRect(d, c);
    FftShiftRect(Scale(d, c));
    FftShift(Scale(d, c))
  }

  /** The shift permutes the scaled entries, so the energy is scaled by `c`. */
  lemma {:induction false} ScaledShiftEnergy(d: Matrix, c: real)
    requires Rect(d)
    ensures Sum(ScaledShift(d, c)) == Sum(d) * c
  {
    SumScale(d, c);
    ShiftsKeepSum(Scale(d, c));
  }

  /**
   * The steps of `psf` after the decimation, on one slice: scaling by
   * `c = prod(interval)^2 / (wl * sensor_distance)^2`, `fftshift` over the
   * two image axes, and `pad_or_crop` to the image size.  When the image is
   * at least as large as the slice, the result carries the slice's total
   * energy scaled by `c`: the shift permutes entries and the padding adds
   * zeros.
   */
  function FinishSlice(d: Matrix, c: real, imageSize: (nat, nat)): (r: Matrix)
    requires Rect(d) && imageSize.0 >= 1 && imageSize.1 >= 1
    ensures 1 <= |d| <= imageSize.0 && 1 <= Width(d) <= imageSize.1 ==> Sum(r) == Sum(d) * c
  {
    var r := PadOrCrop(ScaledShift(d, c), Some(imageSize));
    if 1 <= |d| <= imageSize.0 && 1 <= Width(d) <= imageSize.1 then
      PadOrCropSumPad(ScaledShift(d, c), |d|, Width(d), imageSize.0, imageSize.1);
      ScaledShiftEnergy(d, c);
      r
    else r
  }

  lemma {:induction false} ScaleRect(m: Matrix, c: real)
    requires Rect(m)
    ensures IsRect(Scale(m, c), |m|, Width(m)) && Rect(Scale(m, c))
  {
  }

  lemma {:induction false} FftShiftRect(m: Matrix)
    requires Rect(m)
    ensures IsRect(FftShift(m), |m|, Width(m)) && Rect(FftShift(m))
  {
    Roll2Shape(m, |m|, Width(m), Width(m) / 2, |m| / 2);
    if |m| >= 1 {
      assert Width(FftShift(m)) == |FftShift(m)[0]|;
    }
  }

  // ---------------------------------------------------------------------
  // prepare_lattice_focal_init

  /** Python's `round` on a float: to the nearest integer, halves to the even one. */
  function RoundHalfEven(x: real): (n: int)
    ensures (n as real) - 0.5 <= x <= (n as real) + 0.5
  {
    var f := x.Floor;
    var d := x - f as real;
    if d < 0.5 then f
    else if d > 0.5 then f + 1
    else if f % 2 == 0 then f else f + 1
  }

  /** Why `prepare_lattice_focal_init` fails. */
  datatype LatticeError = SubsquareCount | WavelengthIndex

  /**
   * `prepare_lattice_focal_init` given the cube root `x` the source computes
   * from the slope range and the kernel's delta: the subsquare count
   * `max(3, round(x))`, checked against 2, and the middle wavelength
   * `buf_wavelengths[n_wl // 2]`.
   */
  function PrepareLatticeFocalInit(slopeRange: real, x: real, wavelengths: seq<real>)
    : (r: Result<(real, int, real), LatticeError>)
  {
    var rounded := RoundHalfEven(x);
    var n := if 3 >= rounded then 3 else rounded;
    if n < 2 then Err(SubsquareCount)
    else if |wavelengths| == 0 then Err(WavelengthIndex)
    else Ok((slopeRange, n, wavelengths[|wavelengths| / 2]))
  }

  /**
   * The subsquare check can never fire: the count is at least 3 and at
   * least the rounded root; the only failure is an empty wavelength list.
   */
  lemma {:induction false} LatticeFocalCountAtLeastThree(slopeRange: real, x: real, wavelengths: seq<real>)
    ensures PrepareLatticeFocalInit(slopeRange, x, wavelengths) != Err(SubsquareCount)
    ensures PrepareLatticeFocalInit(slopeRange, x, wavelengths).Ok? <==> |wavelengths| >= 1
    ensures PrepareLatticeFocalInit(slopeRange, x, wavelengths).Ok? ==>
      var (s, n, wl) := PrepareLatticeFocalInit(slopeRange, x, wavelengths).value;
      && s == slopeRange
      && n >= 3 && n >= RoundHalfEven(x) && (x >= 3.5 ==> n as real - 0.5 <= x <= n as real + 0.5)
      && wl == wavelengths[|wavelengths| / 2]
  {
  }

  // ---------------------------------------------------------------------
  // The camera object

  /**
   * The state `ClassicCamera` adds to `Camera`: the oversampling factor and
   * the aperture grids, fixed by the constructor, and the single heightmap
   * slot that `heightmap` refreshes.
   */
  class ClassicCamera {
    const psfFactor: int
    const scaleFactor: int
    /** `u_axis` per wavelength (dimension 1 of the aperture plane). */
    const uAxis: seq<seq<real>>
    /** `v_axis` per wavelength (dimension 0 of the aperture plane). */
    const vAxis: seq<seq<real>>
    /** `buf_r_sqr` per wavelength. */
    const rSquared: seq<Matrix>
    /** `__heightmap_history` */
    var heightmapHistory: Option<Matrix>

    /**
     * `ClassicCamera.__init__` after the parent constructor: the factor is
     * the ceiling of the oversampling ratio; each axis has
     * `image_size[dim] * sf // psf_factor` samples spaced by the interval of
     * its wavelength; the heightmap slot starts empty.
     */
    constructor (wavelengths: seq<real>, sensorDistance: real, cameraPitch: real, apertureDiameter: real,
                 imageSize: (nat, nat), psfFactor: int)
      requires |wavelengths| >= 1 && MinOf(wavelengths) != 0.0
      requires sensorDistance != 0.0 && cameraPitch != 0.0
      requires imageSize.0 >= 1 && imageSize.1 >= 1 && psfFactor >= 1
      requires OversamplingRatio(cameraPitch, sensorDistance, apertureDiameter, wavelengths) > 0.0
      ensures scaleFactor == ScaleFactor(OversamplingRatio(cameraPitch, sensorDistance, apertureDiameter, wavelengths))
      ensures scaleFactor >= 1 && this.psfFactor == psfFactor
      ensures |uAxis| == |vAxis| == |rSquared| == |wavelengths|
      ensures forall c :: 0 <= c < |wavelengths| ==>
        uAxis[c] == UvGrid(GridLength(imageSize.1, scaleFactor, psfFactor),
                           Interval(wavelengths[c], sensorDistance, cameraPitch, psfFactor, imageSize.1))
      ensures forall c :: 0 <= c < |wavelengths| ==>
        vAxis[c] == UvGrid(GridLength(imageSize.0, scaleFactor, psfFactor),
                           Interval(wavelengths[c], sensorDistance, cameraPitch, psfFactor, imageSize.0))
      ensures forall c :: 0 <= c < |wavelengths| ==> rSquared[c] == RSquared(uAxis[c], vAxis[c])
      ensures heightmapHistory == None
    {
      var x := OversamplingRatio(cameraPitch, sensorDistance, apertureDiameter, wavelengths);
      ScaleFactorIsCeiling(x);
      var sf := ScaleFactor(x);
      var nu := GridLength(imageSize.1, sf, psfFactor);
      var nv := GridLength(imageSize.0, sf, psfFactor);
      var us := seq(|wavelengths|, c requires 0 <= c < |wavelengths| =>
        UvGrid(nu, Interval(wavelengths[c], sensorDistance, cameraPitch, psfFactor, imageSize.1)));
      var vs := seq(|wavelengths|, c requires 0 <= c < |wavelengths| =>
        UvGrid(nv, Interval(wavelengths[c], sensorDistance, cameraPitch, psfFactor, imageSize.0)));
      this.psfFactor := psfFactor;
      this.scaleFactor := sf;
      this.uAxis := us;
      this.vAxis := vs;
      this.rSquared := seq(|wavelengths|, c requires 0 <= c < |wavelengths| => RSquared(us[c], vs[c]));
      this.heightmapHistory := None;
    }

    /**
     * `heightmap(use_cache)`: without the cache, or with an empty slot, the
     * subclass's heightmap `computed` is stored and returned; otherwise the
     * stored heightmap is returned and nothing changes.
     */
    method Heightmap(useCache: bool, computed: Matrix) returns (h: Matrix)
      modifies this
      ensures !useCache || old(heightmapHistory).None? ==> heightmapHistory == Some(computed) && h == computed
      ensures useCache && old(heightmapHistory).Some? ==>
        heightmapHistory == old(heightmapHistory) && h == old(heightmapHistory).value
    {
      if !useCache || heightmapHistory.None? {
        heightmapHistory := Some(computed);
      }
      h := heightmapHistory.value;
    }

    /**
     * The phase step of `psf(scene_distances, modulate_phase)` on the
     * aperture plane of wavelength `c` and one scene distance.  The
     * diffracted call refreshes the heightmap slot (without the cache) and
     * adds the DOE's delay; the undiffracted call leaves the slot alone and
     * does not depend on the heightmap.
     */
    method PsfPhase(c: nat, wavelength: real, sceneDistance: real, focalDepth: real, modulatePhase: bool,
                    computed: Matrix, sqrt: real -> real) returns (phase: Matrix)
      requires c < |rSquared| && wavelength != 0.0 && SameShape(computed, rSquared[c])
      modifies this
      ensures SameShape(phase, rSquared[c])
      ensures modulatePhase ==> heightmapHistory == Some(computed)
      ensures !modulatePhase ==> heightmapHistory == old(heightmapHistory)
      ensures forall i, j :: 0 <= i < |phase| && 0 <= j < |phase[i]| ==>
        phase[i][j] == Phase(rSquared[c][i][j], sceneDistance, focalDepth, wavelength, modulatePhase,
                             computed[i][j], sqrt)
    {
      var heights := computed;
      if modulatePhase {
        heights := Heightmap(false, computed);
      }
      phase := PhasePlane(rSquared[c], sceneDistance, focalDepth, wavelength, modulatePhase, heights, sqrt);
      forall i, j | 0 <= i < |phase| && 0 <= j < |phase[i]|
        ensures phase[i][j] == Phase(rSquared[c][i][j], sceneDistance, focalDepth, wavelength, modulatePhase,
                                     computed[i][j], sqrt)
      {
        PhaseModulation(rSquared[c][i][j], sceneDistance, focalDepth, wavelength, heights[i][j], computed[i][j], sqrt);
      }
    }
  }
}

=== FILE: evaluation.dfy ===
/**
 * The bookkeeping of the evaluation script `test_on_dataset.py`: marking the
 * best value of every metric column of the markdown results table, parsing
 * the image-id part of `--img_path`, validating the requested metric names,
 * and choosing the checkpoint files to evaluate.  Model loading, datasets,
 * the metrics themselves and all output are outside this module.
 */
module Evaluation {
  import opened Results
  import opened Tensor

  // ---------------------------------------------------------------------
  // Substrings: `str.find` and `str.endswith`

  /** `sub` occurs in `s` starting at index `i`. */
  predicate OccursAt(s: string, sub: string, i: int)
  {
    0 <= i && i + |sub| <= |s| && s[i..i + |sub|] == sub
  }

  /** The first occurrence of `sub` in `s` at or after `from`, or -1. */
  function FindFrom(s: string, sub: string, from: nat): (r: int)
    ensures r == -1 || (from <= r && OccursAt(s, sub, r))
    ensures forall i :: from <= i && (r == -1 || i < r) ==> !OccursAt(s, sub, i)
    decreases |s| - from
  {
    if from + |sub| > |s| then -1
    else if s[from..from + |sub|] == sub then from
    else FindFrom(s, sub, from + 1)
  }

  /** `s.find(sub)`: the index of the first occurrence of `sub`, or -1 when there is none. */
  function Find(s: string, sub: string): (r: int)
    ensures r == -1 <==> forall i :: !OccursAt(s, sub, i)
    ensures r != -1 ==> OccursAt(s, sub, r) && forall i :: 0 <= i < r ==> !OccursAt(s, sub, i)
  {
    FindFrom(s, sub, 0)
  }

  /** An occurrence with none before it is the one `Find` reports. */
  lemma {:induction false} FindFirst(s: string, sub: string, k: nat)
    requires OccursAt(s, sub, k)
    requires forall i :: 0 <= i < k ==> !OccursAt(s, sub, i)
    ensures Find(s, sub) == k
  {
  }

  /** A single character that `s` does not contain is not found. */
  lemma {:induction false} FindAbsent(s: string, c: char)
    requires c !in s
    ensures Find(s, [c]) == -1
  {
    forall i | 0 <= i < |s|
      ensures !OccursAt(s, [c], i)
    {
      assert s[i..i + 1][0] == s[i];
    }
  }

  /** `s.endswith(suffix)`. */
  predicate EndsWith(s: string, suffix: string)
  {
    |suffix| <= |s| && s[|s| - |suffix|..] == suffix
  }

  // ---------------------------------------------------------------------
  // md_annotate

  /**
   * A cell of the results table: the checkpoint name in column 0 and the
   * metric values after it start as `Text` and `Number`; annotation turns
   * every value into the `Text` of its formatted form.
   */
  datatype Cell = Text(s: string) | Number(v: real)

  /** A psnr or ssim metric is better when larger; every other metric when smaller. */
  predicate Maximized(metric: string)
  {
    Find(metric, "psnr") != -1 || Find(metric, "ssim") != -1
  }

  /** Whether value column `c` (0-based, after the name column) takes its argmax rather than its argmin. */
  predicate MaximizeColumn(metrics: seq<string>, c: nat)
  {
    c < |metrics| && Maximized(metrics[c])
  }

  /**
   * The flag tensor has one entry per value column; a psnr or ssim name
   * listed past the last column would be written out of its range.
   */
  predicate FlagsFit(metrics: seq<string>, k: nat)
  {
    forall c :: k <= c < |metrics| ==> !Maximized(metrics[c])
  }

  /**
   * The `filt` loop: a boolean per value column, set where the metric of
   * that column is maximised and left false for columns without a metric.
   * A psnr or ssim name at a position past the last value column stops the
   * loop with an `IndexError`, reported as that position.
   */
  method ColumnDirections(metrics: seq<string>, k: nat) returns (r: Result<seq<bool>, nat>)
    ensures r.Ok? <==> FlagsFit(metrics, k)
    ensures r.Ok? ==> |r.value| == k
    ensures r.Ok? ==> forall c :: 0 <= c < k ==> (r.value[c] <==> c < |metrics| && Maximized(metrics[c]))
    ensures r.Err? ==> k <= r.error < |metrics| && Maximized(metrics[r.error])
    ensures r.Err? ==> forall c :: k <= c < r.error ==> !Maximized(metrics[c])
  {
    var flags := new bool[k](_ => false);
    var i := 0;
    while i < |metrics|
      invariant 0 <= i <= |metrics|
      invariant forall c :: 0 <= c < k ==> (flags[c] <==> c < i && MaximizeColumn(metrics, c))
      invariant forall c :: k <= c < i ==> !Maximized(metrics[c])
    {
      if Find(metrics[i], "psnr") != -1 || Find(metrics[i], "ssim") != -1 {
        if i >= k {
          assert !FlagsFit(metrics, k) by {
            assert k <= i < |metrics| && Maximized(metrics[i]);
          }
          return Err(i);
        }
        flags[i] := true;
      }
      i := i + 1;
    }
    assert FlagsFit(metrics, k);
    r := Ok(flags[..]);
  }

  /** `a` is at least as good as `b` for a column maximised (or minimised). */
  predicate AtLeastAsGood(a: real, b: real, maximize: bool)
  {
    if maximize then a >= b else a <= b
  }

  /**
   * `torch.argmax` (or `torch.argmin`) down one column: a row holding the
   * best value, and the first such row.
   */
  function ArgBest(col: seq<real>, maximize: bool): (r: nat)
    requires |col| > 0
    ensures r < |col|
    ensures forall i :: 0 <= i < |col| ==> AtLeastAsGood(col[r], col[i], maximize)
    ensures forall i :: 0 <= i < r ==> col[i] != col[r]
    decreases |col|
  {
    if |col| == 1 then 0
    else
      var k := ArgBest(col[..|col| - 1], maximize);
      if col[k] != col[|col| - 1] && AtLeastAsGood(col[|col| - 1], col[k], maximize) then |col| - 1 else k
  }

  /** Only one row is the first to hold the best value of a column. */
  lemma {:induction false} ArgBestUnique(col: seq<real>, maximize: bool, k: nat)
    requires k < |col|
    requires forall i :: 0 <= i < |col| ==> AtLeastAsGood(col[k], col[i], maximize)
    requires forall i :: 0 <= i < k ==> col[i] != col[k]
    ensures ArgBest(col, maximize) == k
  {
    var r := ArgBest(col, maximize);
    assert AtLeastAsGood(col[r], col[k], maximize) && AtLeastAsGood(col[k], col[r], maximize);
    assert col[r] == col[k];
  }

  /**
   * The table `md_annotate` accepts: at least one row (an empty table has no
   * second axis to index), every row `w` cells wide with the name first, and
   * a number in every cell after it.
   */
  predicate WellFormedTable(rows: seq<seq<Cell>>, w: nat)
  {
    |rows| > 0 && w >= 1 &&
    forall i :: 0 <= i < |rows| ==>
      |rows[i]| == w && forall j :: 1 <= j < w ==> rows[i][j].Number?
  }

  /** `torch.tensor([row[1:] for row in table])`: the values without the names. */
  function Numbers(rows: seq<seq<Cell>>, w: nat): (data: seq<seq<real>>)
    requires WellFormedTable(rows, w)
    ensures |data| == |rows|
    ensures forall i :: 0 <= i < |rows| ==> |data[i]| == w - 1
  {
    seq(|rows|, i requires 0 <= i < |rows| =>
      seq(w - 1, c requires 0 <= c < w - 1 => rows[i][c + 1].v))
  }

  /** `indices[c]`: the row whose value is marked in value column `c`. */
  function Winner(rows: seq<seq<Cell>>, w: nat, metrics: seq<string>, c: nat): nat
    requires WellFormedTable(rows, w) && c < w - 1
  {
    ArgBest(Column(Numbers(rows, w), c), MaximizeColumn(metrics, c))
  }

  /** The markdown bold markup. */
  function Bold(s: string): string
  {
    "**" + s + "**"
  }

  /** A value cell once formatted, with the bold markup when it is its column's winner. */
  function Marked(cell: Cell, winner: bool, fmt: real -> string): Cell
    requires cell.Number?
  {
    var formatted := fmt(cell.v);
    Text(if winner then Bold(formatted) else formatted)
  }

  /**
   * Cell `(i, j)` after annotation: the name column as it was, and every
   * value formatted, in bold in the winning row of its column.
   */
  function AnnotatedCell(rows: seq<seq<Cell>>, w: nat, metrics: seq<string>, fmt: real -> string, i: nat, j: nat): Cell
    requires WellFormedTable(rows, w) && i < |rows| && j < w
  {
    if j == 0 then rows[i][0]
    else Marked(rows[i][j], i == Winner(rows, w, metrics, j - 1), fmt)
  }

  /** The cells of a table, row by row. */
  function Contents(table: array2<Cell>): (rows: seq<seq<Cell>>)
    reads table
    ensures |rows| == table.Length0
    ensures forall i :: 0 <= i < |rows| ==> |rows[i]| == table.Length1
    ensures forall i, j :: 0 <= i < table.Length0 && 0 <= j < table.Length1 ==> rows[i][j] == table[i, j]
  {
    seq(table.Length0, i requires 0 <= i < table.Length0 reads table =>
      seq(table.Length1, j requires 0 <= j < table.Length1 reads table => table[i, j]))
  }

  /** The `data` loop of `md_annotate`: row by row, the values after the name. */
  method ValueMatrix(table: array2<Cell>) returns (data: seq<seq<real>>)
    requires WellFormedTable(Contents(table), table.Length1)
    ensures data == Numbers(Contents(table), table.Length1)
  {
    ghost var rows := Contents(table);
    var w := table.Length1;
    data := [];
    var i := 0;
    while i < table.Length0
      invariant 0 <= i <= table.Length0
      invariant data == Numbers(rows, w)[..i]
    {
      var row := seq(w - 1, c requires 0 <= c < w - 1 && table[i, c + 1].Number? reads table => table[i, c + 1].v);
      assert row == Numbers(rows, w)[i];
      data := data + [row];
      i := i + 1;
    }
  }

  /**
   * One pass of the inner loop of `md_annotate`: every value cell of row `i`
   * is formatted in place, in bold where `indices` names row `i` as the
   * winner of the column; every other cell is left as it was.
   */
  method MarkRow(table: array2<Cell>, i: nat, indices: seq<nat>, fmt: real -> string)
    requires i < table.Length0 && |indices| == table.Length1 - 1
    requires forall c :: 1 <= c < table.Length1 ==> table[i, c].Number?
    modifies table
    ensures forall r, c :: 0 <= r < table.Length0 && 0 <= c < table.Length1 ==>
      table[r, c] == if r == i && c >= 1 then Marked(old(table[r, c]), indices[c - 1] == i, fmt) else old(table[r, c])
  {
    var j := 1;
    while j < table.Length1
      invariant 1 <= j <= table.Length1 || j == 1
      invariant forall r, c :: 0 <= r < table.Length0 && 0 <= c < table.Length1 ==>
        table[r, c] == if r == i && 1 <= c < j then Marked(old(table[r, c]), indices[c - 1] == i, fmt) else old(table[r, c])
    {
      var formatted := fmt(table[i, j].v);
      table[i, j] := Text(if indices[j - 1] == i then "**" + formatted + "**" else formatted);
      j := j + 1;
    }
  }

  /**
   * `md_annotate`: overwrites every value cell in place with its formatted
   * form, bold in the first row holding the column's best value, and leaves
   * the names alone.  A psnr or ssim metric listed past the last value
   * column raises `IndexError` before any cell is written; the position of
   * that metric is returned and the table is left as it was.
   */
  method MdAnnotate(table: array2<Cell>, metrics: seq<string>, fmt: real -> string) returns (r: Result<(), nat>)
    requires WellFormedTable(Contents(table), table.Length1)
    modifies table
    ensures r.Ok? <==> FlagsFit(metrics, table.Length1 - 1)
    ensures r.Err? ==> r.error >= table.Length1 - 1 && MaximizeColumn(metrics, r.error) && unchanged(table)
    ensures r.Ok? ==> forall i, j :: 0 <= i < table.Length0 && 0 <= j < table.Length1 ==>
      table[i, j] == AnnotatedCell(old(Contents(table)), table.Length1, metrics, fmt, i, j)
  {
    ghost var rows := Contents(table);
    var h, w := table.Length0, table.Length1;
    var data := ValueMatrix(table);
    var directions := ColumnDirections(metrics, w - 1);
    if directions.Err? {
      return Err(directions.error);
    }
    var filt := directions.value;
    var indices := seq(w - 1, c requires 0 <= c < w - 1 => ArgBest(Column(data, c), filt[c]));
    assert forall c :: 0 <= c < w - 1 ==> indices[c] == Winner(rows, w, metrics, c);

    var i := 0;
    while i < h
      invariant 0 <= i <= h
      invariant forall r, c :: 0 <= r < h && 0 <= c < w ==>
        table[r, c] == if r < i && c >= 1 then Marked(rows[r][c], indices[c - 1] == r, fmt) else rows[r][c]
    {
      MarkRow(table, i, indices, fmt);
      i := i + 1;
    }
    r := Ok(());
  }

  /**
   * In every value column exactly one cell ends up bold: the one in the
   * first row holding the column's largest value for a psnr or ssim metric
   * and its smallest value otherwise; every other value is just formatted.
   */
  lemma {:induction false} OneBoldPerColumn(rows: seq<seq<Cell>>, w: nat, metrics: seq<string>, fmt: real -> string, j: nat)
    requires WellFormedTable(rows, w) && 1 <= j < w
    ensures exists k ::
              0 <= k < |rows| &&
              (forall i :: 0 <= i < |rows| ==>
                AtLeastAsGood(rows[k][j].v, rows[i][j].v, MaximizeColumn(metrics, j - 1))) &&
              (forall i :: 0 <= i < k ==> rows[i][j].v != rows[k][j].v) &&
              (forall i :: 0 <= i < |rows| ==>
                (AnnotatedCell(rows, w, metrics, fmt, i, j) == Text(Bold(fmt(rows[i][j].v))) <==> i == k)) &&
              (forall i :: 0 <= i < |rows| && i != k ==>
                AnnotatedCell(rows, w, metrics, fmt, i, j) == Text(fmt(rows[i][j].v)))
  {
    var col := Column(Numbers(rows, w), j - 1);
    var k := Winner(rows, w, metrics, j - 1);
    assert forall i :: 0 <= i < |rows| ==> col[i] == rows[i][j].v;
    forall i | 0 <= i < |rows| && i != k
      ensures AnnotatedCell(rows, w, metrics, fmt, i, j) != Text(Bold(fmt(rows[i][j].v)))
    {
      assert |Bold(fmt(rows[i][j].v))| != |fmt(rows[i][j].v)|;
    }
  }

  // ---------------------------------------------------------------------
  // The image-id part of `--img_path`

  predicate IsDigit(c: char)
  {
    '0' <= c <= '9'
  }

  /** The regular expression `\d*` (ASCII digits) matches all of `s`. */
  predicate AllDigits(s: string)
  {
    forall i :: 0 <= i < |s| ==> IsDigit(s[i])
  }

  /** The value of a string of decimal digits, leading zeros allowed. */
  function DecimalValue(s: string): nat
    requires AllDigits(s)
    decreases |s|
  {
    if |s| == 0 then 0
    else DecimalValue(s[..|s| - 1]) * 10 + (s[|s| - 1] as int - '0' as int)
  }

  /** The shortest decimal spelling of `n`. */
  function Decimal(n: nat): (s: string)
    ensures |s| > 0 && AllDigits(s)
  {
    if n < 10 then [(n + '0' as int) as char]
    else Decimal(n / 10) + [(n % 10 + '0' as int) as char]
  }

  /** Reading back the decimal spelling of `n` gives `n`. */
  lemma {:induction false} DecimalRoundTrip(n: nat)
    ensures DecimalValue(Decimal(n)) == n
  {
    if n >= 10 {
      var s := Decimal(n);
      assert s[..|s| - 1] == Decimal(n / 10);
      DecimalRoundTrip(n / 10);
    }
  }

  /** The message of the ValueError `int(s)` raises. */
  function IntError(s: string): string
  {
    "invalid literal for int() with base 10: '" + s + "'"
  }

  /** `int(s)` for a string the id patterns let through: digits only, so only the empty string fails. */
  function ParseInt(s: string): (r: Result<int, string>)
    requires AllDigits(s)
    ensures r.Ok? <==> |s| > 0
    ensures r.Ok? ==> r.value >= 0 && (forall n: nat :: s == Decimal(n) ==> r.value == n)
  {
    if |s| == 0 then Err(IntError(s))
    else
      assert forall n: nat :: s == Decimal(n) ==> DecimalValue(s) == n by {
        forall n: nat | s == Decimal(n) ensures DecimalValue(s) == n {
          DecimalRoundTrip(n);
        }
      }
      Ok(DecimalValue(s))
  }

  /** `range(a, b + 1)`: the ids from `a` to `b`, none when `b < a`. */
  function IdRange(a: int, b: int): (r: seq<int>)
    ensures |r| == 0 <==> b < a
    ensures forall x :: x in r <==> a <= x <= b
    ensures forall k :: 0 <= k < |r| - 1 ==> r[k + 1] == r[k] + 1
  {
    if b < a then []
    else
      var r := seq(b - a + 1, k => a + k);
      forall x | a <= x <= b ensures x in r {
        assert r[x - a] == x;
      }
      r
  }

  /** `s.split(',')`: the pieces between the commas, one more than there are commas. */
  function SplitCommas(s: string): (groups: seq<string>)
    ensures |groups| > 0
    ensures forall g :: g in groups ==> ',' !in g
    decreases |s|
  {
    var k := Find(s, ",");
    if k == -1 then
      assert ',' !in s by {
        forall i | 0 <= i < |s| ensures s[i] != ',' {
          assert !OccursAt(s, ",", i);
        }
      }
      [s]
    else
      assert s[..k] == s[..k] && ',' !in s[..k] by {
        forall i | 0 <= i < k ensures s[i] != ',' {
          assert !OccursAt(s, ",", i);
        }
      }
      [s[..k]] + SplitCommas(s[k + 1..])
  }

  /** The pieces joined back with commas between them. */
  function JoinCommas(groups: seq<string>): string
    requires |groups| > 0
  {
    if |groups| == 1 then groups[0] else groups[0] + "," + JoinCommas(groups[1..])
  }

  /** Joining the pieces of a split gives the string back. */
  lemma {:induction false} JoinSplit(s: string)
    ensures JoinCommas(SplitCommas(s)) == s
    decreases |s|
  {
    var k := Find(s, ",");
    if k != -1 {
      var rest := SplitCommas(s[k + 1..]);
      assert SplitCommas(s) == [s[..k]] + rest;
      JoinSplit(s[k + 1..]);
      assert s[k..k + 1] == ",";
      assert s == s[..k] + "," + s[k + 1..];
    }
  }

  /** Splitting pieces without commas, joined by commas, gives the pieces back. */
  lemma {:induction false} SplitJoin(groups: seq<string>)
    requires |groups| > 0
    requires forall g :: g in groups ==> ',' !in g
    ensures SplitCommas(JoinCommas(groups)) == groups
    decreases |groups|
  {
    var g := groups[0];
    assert g in groups;
    if |groups| == 1 {
      FindAbsent(g, ',');
    } else {
      assert forall x :: x in groups[1..] ==> x in groups;
      SplitStep(g, JoinCommas(groups[1..]));
      SplitJoin(groups[1..]);
      assert groups == [g] + groups[1..];
    }
  }

  /** A split stops at the comma after a leading piece without commas. */
  lemma {:induction false} SplitStep(g: string, tail: string)
    requires ',' !in g
    ensures SplitCommas(g + "," + tail) == [g] + SplitCommas(tail)
  {
    var s := g + "," + tail;
    assert s[..|g|] == g && s[|g| + 1..] == tail;
    assert s[|g|..|g| + 1] == ",";
    forall i | 0 <= i < |g| ensures !OccursAt(s, ",", i) {
      assert s[i..i + 1][0] == g[i];
    }
    FindFirst(s, ",", |g|);
  }

  /** `map(int, groups)`: the first group that is not a number raises. */
  function ParseGroups(groups: seq<string>): (r: Result<seq<int>, string>)
    requires forall g :: g in groups ==> AllDigits(g)
    ensures r.Ok? <==> forall g :: g in groups ==> |g| > 0
    ensures r.Ok? ==> |r.value| == |groups| && forall k :: 0 <= k < |groups| ==> r.value[k] == DecimalValue(groups[k])
  {
    if |groups| == 0 then Ok([])
    else
      match ParseInt(groups[0])
      case Err(e) => Err(e)
      case Ok(n) =>
        match ParseGroups(groups[1..])
        case Err(e) => Err(e)
        case Ok(ns) =>
          assert forall g :: g in groups ==> g == groups[0] || g in groups[1..];
          Ok([n] + ns)
  }

  /** The pattern `^\[\d*(,\d*)*]$`: brackets around digits and commas. */
  predicate IsBracketList(spec: string)
  {
    |spec| >= 2 && spec[0] == '[' && spec[|spec| - 1] == ']' &&
    forall i :: 1 <= i < |spec| - 1 ==> IsDigit(spec[i]) || spec[i] == ','
  }

  /**
   * The image-id part of `--img_path`: a number, an inclusive range `a-b`,
   * or a bracketed list `[a,b,...]`; a number left empty raises the
   * ValueError of `int`, and any other shape raises "Wrong image sets".
   */
  function ParseIdSpec(spec: string): (r: Result<seq<int>, string>)
  {
    if AllDigits(spec) then ParseSingle(spec)
    else if IsRange(spec) then ParseRangeSpec(spec)
    else if IsBracketList(spec) then ParseListSpec(spec)
    else Err("Wrong image sets: " + spec)
  }

  /** `[int(spec)]`. */
  function ParseSingle(spec: string): (r: Result<seq<int>, string>)
    requires AllDigits(spec)
  {
    match ParseInt(spec)
    case Err(e) => Err(e)
    case Ok(n) => Ok([n])
  }

  /** The pattern `^(\d*)-(\d*)$`: digits, one dash, digits. */
  predicate IsRange(spec: string)
  {
    var dash := Find(spec, "-");
    dash != -1 && AllDigits(spec[..dash]) && AllDigits(spec[dash + 1..])
  }

  /** `range(int(lo), int(hi) + 1)` for the two sides of the dash. */
  function ParseRangeSpec(spec: string): (r: Result<seq<int>, string>)
    requires IsRange(spec)
  {
    var dash := Find(spec, "-");
    match ParseInt(spec[..dash])
    case Err(e) => Err(e)
    case Ok(a) =>
      match ParseInt(spec[dash + 1..])
      case Err(e) => Err(e)
      case Ok(b) => Ok(IdRange(a, b))
  }

  /** `map(int, spec[1:-1].split(','))`. */
  function ParseListSpec(spec: string): (r: Result<seq<int>, string>)
    requires IsBracketList(spec)
  {
    var groups := SplitCommas(spec[1..|spec| - 1]);
    SplitDigits(spec[1..|spec| - 1]);
    ParseGroups(groups)
  }

  /** The pieces of a string of digits and commas are digit strings. */
  lemma {:induction false} SplitDigits(s: string)
    requires forall i :: 0 <= i < |s| ==> IsDigit(s[i]) || s[i] == ','
    ensures forall g :: g in SplitCommas(s) ==> AllDigits(g)
    decreases |s|
  {
    var k := Find(s, ",");
    if k != -1 {
      SplitDigits(s[k + 1..]);
      assert SplitCommas(s) == [s[..k]] + SplitCommas(s[k + 1..]);
      forall i | 0 <= i < k ensures IsDigit(s[i]) {
        assert !OccursAt(s, ",", i);
      }
    } else {
      forall i | 0 <= i < |s| ensures IsDigit(s[i]) {
        assert !OccursAt(s, ",", i);
      }
    }
  }

  /** Every character of comma-joined digit strings is a digit or a comma. */
  lemma {:induction false} JoinChars(groups: seq<string>)
    requires |groups| > 0 && forall g :: g in groups ==> AllDigits(g)
    ensures forall i :: 0 <= i < |JoinCommas(groups)| ==>
      IsDigit(JoinCommas(groups)[i]) || JoinCommas(groups)[i] == ','
    decreases |groups|
  {
    var g := groups[0];
    assert g in groups;
    if |groups| > 1 {
      assert forall x :: x in groups[1..] ==> x in groups;
      JoinChars(groups[1..]);
      var tail := JoinCommas(groups[1..]);
      var s := JoinCommas(groups);
      assert s == g + "," + tail;
      forall i | 0 <= i < |s|
        ensures IsDigit(s[i]) || s[i] == ','
      {
        if i < |g| {
          assert s[i] == g[i];
        } else if i > |g| {
          assert s[i] == tail[i - |g| - 1];
        }
      }
    }
  }

  /** `spec` is the range `a-b` of two digit strings. */
  predicate RangeOf(spec: string, a: string, b: string)
  {
    |a| > 0 && |b| > 0 && AllDigits(a) && AllDigits(b) && spec == a + "-" + b
  }

  /** `spec` is the bracketed, comma-separated list of the digit strings `groups`. */
  predicate ListOf(spec: string, groups: seq<string>)
  {
    |groups| > 0 && (forall g :: g in groups ==> |g| > 0 && AllDigits(g)) &&
    spec == "[" + JoinCommas(groups) + "]"
  }

  /** A range of two numbers reads as every id from the first to the second. */
  lemma {:induction false} ParseRange(spec: string, a: string, b: string)
    requires RangeOf(spec, a, b)
    ensures ParseIdSpec(spec) == Ok(IdRange(DecimalValue(a), DecimalValue(b)))
  {
    assert spec[|a|] == '-' && !IsDigit(spec[|a|]);
    assert spec[..|a|] == a && spec[|a| + 1..] == b;
    assert spec[|a|..|a| + 1] == "-";
    forall i | 0 <= i < |a| ensures !OccursAt(spec, "-", i) {
      assert spec[i..i + 1][0] == a[i];
    }
    FindFirst(spec, "-", |a|);
    assert IsRange(spec);
  }

  /** A bracketed list of numbers reads as those numbers, in order. */
  lemma {:induction false} ParseList(spec: string, groups: seq<string>)
    requires ListOf(spec, groups)
    ensures ParseIdSpec(spec) == Ok(seq(|groups|, k requires 0 <= k < |groups| => DecimalValue(groups[k])))
  {
    ListChars(spec, groups);
    assert !IsDigit(spec[0]);
    FindAbsent(spec, '-');
    assert !IsRange(spec);
    forall g | g in groups ensures ',' !in g {
      assert AllDigits(g);
    }
    SplitJoin(groups);
    ListValues(groups);
  }

  /** The characters of a bracketed list: brackets around digits and commas, and no dash. */
  lemma {:induction false} ListChars(spec: string, groups: seq<string>)
    requires ListOf(spec, groups)
    ensures IsBracketList(spec) && '-' !in spec
    ensures spec[1..|spec| - 1] == JoinCommas(groups)
  {
    var inner := JoinCommas(groups);
    JoinChars(groups);
    assert spec[1..|spec| - 1] == inner;
    forall i | 0 <= i < |spec| ensures spec[i] != '-' && (1 <= i < |spec| - 1 ==> IsDigit(spec[i]) || spec[i] == ',') {
      if 0 < i < |spec| - 1 {
        assert spec[i] == inner[i - 1];
      }
    }
  }

  /** Parsing nonempty digit strings gives their values. */
  lemma {:induction false} ListValues(groups: seq<string>)
    requires forall g :: g in groups ==> |g| > 0 && AllDigits(g)
    ensures ParseGroups(groups) == Ok(seq(|groups|, k requires 0 <= k < |groups| => DecimalValue(groups[k])))
  {
    var r := ParseGroups(groups);
    assert r.Ok?;
    assert r.value == seq(|groups|, k requires 0 <= k < |groups| => DecimalValue(groups[k]));
  }

  /**
   * Only the three shapes parse: a nonempty number, a range of two nonempty
   * numbers, and a bracketed list of nonempty numbers; everything else,
   * empty numbers included, raises.
   */
  lemma {:induction false} ParseIdSpecShapes(spec: string)
    requires ParseIdSpec(spec).Ok?
    ensures (|spec| > 0 && AllDigits(spec)) ||
            (exists a, b :: RangeOf(spec, a, b)) ||
            (exists groups :: ListOf(spec, groups))
  {
    if AllDigits(spec) {
    } else if IsRange(spec) {
      var dash := Find(spec, "-");
      RangeShape(spec);
      assert RangeOf(spec, spec[..dash], spec[dash + 1..]);
    } else {
      ListShape(spec);
      assert ListOf(spec, SplitCommas(spec[1..|spec| - 1]));
    }
  }

  /** A range that parses has a nonempty number on each side of its dash. */
  lemma {:induction false} RangeShape(spec: string)
    requires IsRange(spec) && ParseRangeSpec(spec).Ok?
    ensures RangeOf(spec, spec[..Find(spec, "-")], spec[Find(spec, "-") + 1..])
  {
    var dash := Find(spec, "-");
    assert spec[dash..dash + 1] == "-";
    assert spec == spec[..dash] + "-" + spec[dash + 1..];
  }

  /** A bracketed list that parses is its pieces joined by commas, each a nonempty number. */
  lemma {:induction false} ListShape(spec: string)
    requires IsBracketList(spec) && ParseListSpec(spec).Ok?
    ensures ListOf(spec, SplitCommas(spec[1..|spec| - 1]))
  {
    var groups := SplitCommas(spec[1..|spec| - 1]);
    ListPieces(spec);
    JoinSplit(spec[1..|spec| - 1]);
    Bracketed(spec, JoinCommas(groups));
  }

  /** A string in brackets is its inside with the brackets put back. */
  lemma {:induction false} Bracketed(spec: string, inner: string)
    requires |spec| >= 2 && spec[0] == '[' && spec[|spec| - 1] == ']'
    requires inner == spec[1..|spec| - 1]
    ensures spec == "[" + inner + "]"
  {
    assert spec == [spec[0]] + spec[1..|spec| - 1] + [spec[|spec| - 1]];
  }

  /** The pieces of a bracketed list that parses are nonempty numbers. */
  lemma {:induction false} ListPieces(spec: string)
    requires IsBracketList(spec) && ParseListSpec(spec).Ok?
    ensures forall g :: g in SplitCommas(spec[1..|spec| - 1]) ==> |g| > 0 && AllDigits(g)
  {
    var inner := spec[1..|spec| - 1];
    forall i | 0 <= i < |inner| ensures IsDigit(inner[i]) || inner[i] == ',' {
      assert inner[i] == spec[i + 1];
    }
    SplitDigits(inner);
    assert ParseListSpec(spec) == ParseGroups(SplitCommas(inner));
  }

  /** The numbers spelled out as the digit strings of an id list. */
  function Decimals(ids: seq<nat>): (groups: seq<string>)
    ensures |groups| == |ids|
    ensures forall g :: g in groups ==> |g| > 0 && AllDigits(g)
  {
    seq(|ids|, k requires 0 <= k < |ids| => Decimal(ids[k]))
  }

  /** Writing one id and parsing it gives the id back. */
  lemma {:induction false} SingleRoundTrip(a: nat)
    ensures ParseIdSpec(Decimal(a)) == Ok([a])
  {
    DecimalRoundTrip(a);
  }

  /** Writing a range of ids and parsing it gives every id from the first to the last. */
  lemma {:induction false} RangeRoundTrip(a: nat, b: nat)
    ensures ParseIdSpec(Decimal(a) + "-" + Decimal(b)) == Ok(IdRange(a, b))
  {
    DecimalRoundTrip(a);
    DecimalRoundTrip(b);
    ParseRange(Decimal(a) + "-" + Decimal(b), Decimal(a), Decimal(b));
  }

  /** Writing a list of ids and parsing it gives the ids back, in order. */
  lemma {:induction false} ListRoundTrip(ids: seq<nat>)
    requires |ids| > 0
    ensures ParseIdSpec("[" + JoinCommas(Decimals(ids)) + "]") == Ok(ids)
  {
    var groups := Decimals(ids);
    ParseList("[" + JoinCommas(groups) + "]", groups);
    forall k | 0 <= k < |ids| ensures DecimalValue(groups[k]) == ids[k] {
      DecimalRoundTrip(ids[k]);
    }
    assert seq(|groups|, k requires 0 <= k < |groups| => DecimalValue(groups[k])) == ids;
  }

  /**
   * What the id branches hand to `torch.tensor`: the ints of a number or a
   * range, or, for a bracketed list, the `map(int, groups)` object, which
   * is lazy and has not yet converted any group.
   */
  datatype IdSource = Ints(ids: seq<int>) | LazyInts(groups: seq<string>)

  /** The id branches as written, before `torch.tensor`. */
  function IdSourceAsWritten(spec: string): (r: Result<IdSource, string>)
  {
    if AllDigits(spec) then
      match ParseSingle(spec)
      case Err(e) => Err(e)
      case Ok(ids) => Ok(Ints(ids))
    else if IsRange(spec) then
      match ParseRangeSpec(spec)
      case Err(e) => Err(e)
      case Ok(ids) => Ok(Ints(ids))
    else if IsBracketList(spec) then Ok(LazyInts(SplitCommas(spec[1..|spec| - 1])))
    else Err("Wrong image sets: " + spec)
  }

  /** `torch.tensor(img_ids)`: a list of ints becomes the ids; a `map` object is refused. */
  function IdTensor(src: IdSource): (r: Result<seq<int>, string>)
    ensures r.Ok? <==> src.Ints?
    ensures src.Ints? ==> r.value == src.ids
  {
    match src
    case Ints(ids) => Ok(ids)
    case LazyInts(_) => Err("Could not infer dtype of map")
  }

  /** The id part of `--img_path` as written: the branches, then `torch.tensor`. */
  function ImageIdsAsWritten(spec: string): (r: Result<seq<int>, string>)
  {
    match IdSourceAsWritten(spec)
    case Err(e) => Err(e)
    case Ok(src) => IdTensor(src)
  }

  /**
   * As written, every bracketed list fails at `torch.tensor`, before any of
   * its groups is converted: `[]` and `[,]` raise the same error as `[1,2]`.
   */
  lemma {:induction false} ImageIdsAsWrittenRefusesLists(spec: string)
    requires IsBracketList(spec)
    ensures ImageIdsAsWritten(spec) == Err("Could not infer dtype of map")
  {
    assert !IsDigit(spec[0]);
    forall i | 0 <= i < |spec| ensures spec[i] != '-' {
      if 0 < i < |spec| - 1 {
        assert IsDigit(spec[i]) || spec[i] == ',';
      }
    }
    FindAbsent(spec, '-');
    assert !IsRange(spec);
  }

  /** Numbers, ranges and malformed specs fare the same as written and in `ParseIdSpec`. */
  lemma {:induction false} ImageIdsAsWrittenElsewhere(spec: string)
    requires !IsBracketList(spec)
    ensures ImageIdsAsWritten(spec) == ParseIdSpec(spec)
  {
  }

  /**
   * Every list of ids, written out as `[a,b,...]`, is read back by
   * `ParseIdSpec` but refused as written.
   */
  lemma {:induction false} ListRefusedAsWritten(ids: seq<nat>)
    requires |ids| > 0
    ensures var spec := "[" + JoinCommas(Decimals(ids)) + "]";
      ParseIdSpec(spec) == Ok(ids) && ImageIdsAsWritten(spec).Err?
  {
    var spec := "[" + JoinCommas(Decimals(ids)) + "]";
    ListRoundTrip(ids);
    ListChars(spec, Decimals(ids));
    ImageIdsAsWrittenRefusesLists(spec);
  }

  // ---------------------------------------------------------------------
  // Metric names and checkpoint files

  /** The keys of the `metrics` table, in their order. */
  const MetricNames: seq<string> := ["img_mae", "img_psnr", "img_ssim", "depth_mae", "depth_rmse"]

  /**
   * The check at the start of `main`: succeeds when every requested metric
   * is known, and otherwise fails naming the first one that is not.
   */
  method CheckMetrics(requested: seq<string>) returns (r: Result<(), string>)
    ensures r.Ok? <==> forall m :: m in requested ==> m in MetricNames
    ensures r.Err? ==>
      exists k ::
        0 <= k < |requested| && requested[k] !in MetricNames &&
        (forall i :: 0 <= i < k ==> requested[i] in MetricNames) &&
        r.error == "Unknown metric: " + requested[k]
  {
    var i := 0;
    while i < |requested|
      invariant 0 <= i <= |requested|
      invariant forall k :: 0 <= k < i ==> requested[k] in MetricNames
    {
      if requested[i] !in MetricNames {
        return Err("Unknown metric: " + requested[i]);
      }
      i := i + 1;
    }
    return Ok(());
  }

  /** The directory entries that end in `.ckpt`, in listing order. */
  function CheckpointFiles(listing: seq<string>): (r: seq<string>)
    ensures forall x :: x in r <==> x in listing && EndsWith(x, ".ckpt")
    ensures |r| <= |listing|
  {
    if |listing| == 0 then []
    else (if EndsWith(listing[0], ".ckpt") then [listing[0]] else []) + CheckpointFiles(listing[1..])
  }

  /** Filtering a listing in two parts and joining the results keeps the order of the listing. */
  lemma {:induction false} CheckpointFilesAppend(a: seq<string>, b: seq<string>)
    ensures CheckpointFiles(a + b) == CheckpointFiles(a) + CheckpointFiles(b)
    decreases |a|
  {
    if |a| > 0 {
      assert (a + b)[1..] == a[1..] + b;
      CheckpointFilesAppend(a[1..], b);
    } else {
      assert a + b == b;
    }
  }

  /**
   * `ckpt_names`: the file given with `--ckpt_file` when it is a nonempty
   * name, and otherwise every `.ckpt` entry of the directory listing.
   */
  function CheckpointNames(ckptFile: Option<string>, listing: seq<string>): (r: seq<string>)
    ensures ckptFile.Some? && ckptFile.value != "" ==> r == [ckptFile.value]
    ensures ckptFile.None? || ckptFile.value == "" ==>
      forall x :: x in r <==> x in listing && EndsWith(x, ".ckpt")
  {
    if ckptFile.Some? && ckptFile.value != "" then [ckptFile.value] else CheckpointFiles(listing)
  }
}

=== FILE: fft.dfy ===
/**
 * The index shuffles of `utils/fft.py`: `fftshift` and `ifftshift` as
 * cyclic rolls of the last two axes, and `exp2xy`, which turns an amplitude
 * and a phase into the real and imaginary parts of the old stacked complex
 * layout.  The transforms themselves (`torch.fft`) are not part of this
 * model.
 */
module Fft {
  import opened Tensor
  import opened Utils

  // ---------------------------------------------------------------------
  // Cyclic roll of one axis

  /**
   * `torch.roll` of one axis by `k`: the entry at `i` moves to
   * `(i + k) mod n`, for any integer `k`.
   */
  function Roll<T>(s: seq<T>, k: int): (r: seq<T>)
    ensures |r| == |s|
  {
    seq(|s|, j requires 0 <= j < |s| => s[(j - k) % |s|])
  }

  lemma {:induction false} MulNonNegative(a: int, b: int)
    requires a >= 0 && b >= 0
    ensures a * b >= 0
  {
  }

  /** The only multiple of `n > 0` strictly between `-n` and `n` is zero. */
  lemma {:induction false} ZeroMultiple(n: int, t: int)
    requires n > 0 && -n < n * t < n
    ensures t == 0
  {
    if t >= 1 {
      assert n * t == n * (t - 1) + n;
      MulNonNegative(n, t - 1);
      assert false;
    } else if t <= -1 {
      assert n * t == -(n * (-t - 1)) - n;
      MulNonNegative(n, -t - 1);
      assert false;
    }
  }

  /** Euclidean division is unique: `x == q * n + r` with `0 <= r < n` fixes the quotient and the remainder. */
  lemma {:induction false} ModUnique(x: int, n: int, q: int, r: int)
    requires n > 0 && 0 <= r < n && x == q * n + r
    ensures x % n == r && x / n == q
  {
    var q', r' := x / n, x % n;
    assert x == q' * n + r';
    assert n * (q' - q) == r - r';
    ZeroMultiple(n, q' - q);
  }

  lemma {:induction false} ModOfShift(x: int, q: int, n: int)
    requires n > 0
    ensures (x + q * n) % n == x % n
  {
    ModUnique(x + q * n, n, x / n + q, x % n);
  }

  /** Entry `j` of a rolled sequence is the entry `(j - k) mod n` of the original. */
  lemma {:induction false} RollAt<T>(s: seq<T>, k: int, j: int)
    requires 0 <= j < |s|
    ensures Roll(s, k)[j] == s[(j - k) % |s|]
  {
  }

  /** A roll is a rotation: the last `k mod n` entries moved to the front. */
  lemma {:induction false} RollRotates<T>(s: seq<T>, k: int)
    requires |s| > 0
    ensures Roll(s, k) == s[|s| - k % |s|..] + s[..|s| - k % |s|]
  {
    var n := |s|;
    var c := k % n;
    var m := n - c;
    var t := s[m..] + s[..m];
    DivMod(k, n);
    forall j | 0 <= j < n ensures Roll(s, k)[j] == t[j] {
      if j < n - m {
        assert t[j] == s[m + j];
        ModUnique(j - k, n, -(k / n) - 1, m + j);
      } else {
        assert t[j] == s[j - (n - m)];
        ModUnique(j - k, n, -(k / n), j - (n - m));
      }
    }
  }

  lemma {:induction false} DivMod(x: int, n: int)
    requires n > 0
    ensures x == (x / n) * n + x % n && 0 <= x % n < n
  {
  }

  /** The entry at `i` lands at `(i + k) mod n`. */
  lemma {:induction false} RollMoves<T>(s: seq<T>, k: int, i: int)
    requires 0 <= i < |s|
    ensures Roll(s, k)[(i + k) % |s|] == s[i]
  {
    var n := |s|;
    var q, j := (i + k) / n, (i + k) % n;
    DivMod(i + k, n);
    RollAt(s, k, j);
    assert j - k == (-q) * n + i;
    ModUnique(j - k, n, -q, i);
  }

  lemma {:induction false} RollRollAt<T>(s: seq<T>, a: int, b: int, j: int)
    requires 0 <= j < |s|
    ensures Roll(Roll(s, a), b)[j] == Roll(s, a + b)[j]
  {
    var n := |s|;
    var i := (j - b) % n;
    DivMod(j - b, n);
    assert Roll(Roll(s, a), b)[j] == Roll(s, a)[i];
    assert Roll(s, a)[i] == s[(i - a) % n];
    ModTwice(j, a, b, n);
  }

  /** Subtracting `b` and then `a` modulo `n` is subtracting `a + b`. */
  lemma {:induction false} ModTwice(j: int, a: int, b: int, n: int)
    requires n > 0
    ensures ((j - b) % n - a) % n == (j - (a + b)) % n
  {
    var q, i := (j - b) / n, (j - b) % n;
    DivMod(j - b, n);
    assert j - (a + b) == (i - a) + q * n;
    ModOfShift(i - a, q, n);
  }

  /** Two rolls compose into one by the sum of the shifts. */
  lemma {:induction false} RollRoll<T>(s: seq<T>, a: int, b: int)
    ensures Roll(Roll(s, a), b) == Roll(s, a + b)
  {
    forall j | 0 <= j < |s| ensures Roll(Roll(s, a), b)[j] == Roll(s, a + b)[j] {
      RollRollAt(s, a, b, j);
    }
  }

  /** A roll by a multiple of the length, in particular by `0`, changes nothing. */
  lemma {:induction false} RollWhole<T>(s: seq<T>, q: int)
    ensures Roll(s, q * |s|) == s
  {
    var n := |s|;
    if n > 0 {
      forall j | 0 <= j < n ensures Roll(s, q * n)[j] == s[j] {
        RollAt(s, q * n, j);
        ModUnique(j - q * n, n, -q, j);
      }
    }
  }

  /** A roll rearranges the entries: the multiset of entries is unchanged. */
  lemma {:induction false} RollPermutes<T>(s: seq<T>, k: int)
    ensures multiset(Roll(s, k)) == multiset(s)
  {
    if |s| > 0 {
      var m := |s| - k % |s|;
      RollRotates(s, k);
      assert s == s[..m] + s[m..];
    }
  }

  /** A roll keeps the sum of the entries. */
  lemma {:induction false} RollSum(s: seq<real>, k: int)
    ensures SumSeq(Roll(s, k)) == SumSeq(s)
  {
    if |s| > 0 {
      var m := |s| - k % |s|;
      RollRotates(s, k);
      assert s == s[..m] + s[m..];
      SumSeqAppend(s[m..], s[..m]);
      SumSeqAppend(s[..m], s[m..]);
    }
  }

  // ---------------------------------------------------------------------
  // Rolls of a matrix

  /**
   * `torch.roll(x, shifts=(kw, kh), dims=(-1, -2))`: every row rolled by
   * `kw`, then the rows rolled by `kh`.
   */
  function Roll2(m: Matrix, kw: int, kh: int): (r: Matrix)
    ensures |r| == |m|
  {
    Roll(seq(|m|, i requires 0 <= i < |m| => Roll(m[i], kw)), kh)
  }

  lemma {:induction false} Roll2Shape(m: Matrix, h: nat, w: nat, kw: int, kh: int)
    requires IsRect(m, h, w)
    ensures IsRect(Roll2(m, kw, kh), h, w)
  {
    var rows := seq(h, i requires 0 <= i < h => Roll(m[i], kw));
    forall i | 0 <= i < h ensures |Roll2(m, kw, kh)[i]| == w {
      RollAt(rows, kh, i);
    }
  }

  /** Entry `(i, j)` of a rolled matrix is entry `((i - kh) mod h, (j - kw) mod w)` of the original. */
  lemma {:induction false} Roll2At(m: Matrix, h: nat, w: nat, kw: int, kh: int, i: nat, j: nat)
    requires IsRect(m, h, w) && i < h && j < w
    ensures IsRect(Roll2(m, kw, kh), h, w)
    ensures Roll2(m, kw, kh)[i][j] == m[(i - kh) % h][(j - kw) % w]
  {
    var rows := seq(h, i requires 0 <= i < h => Roll(m[i], kw));
    Roll2Shape(m, h, w, kw, kh);
    RollAt(rows, kh, i);
    RollAt(m[(i - kh) % h], kw, j);
  }

  /** Rolls of a matrix compose axis by axis. */
  lemma {:induction false} Roll2Roll2(m: Matrix, h: nat, w: nat, aw: int, ah: int, bw: int, bh: int)
    requires IsRect(m, h, w)
    ensures Roll2(Roll2(m, aw, ah), bw, bh) == Roll2(m, aw + bw, ah + bh)
  {
    var rows := seq(h, i requires 0 <= i < h => Roll(m[i], aw));
    var rolled := Roll(rows, ah);
    var rows2 := seq(h, i requires 0 <= i < h => Roll(rolled[i], bw));
    var rows3 := seq(h, i requires 0 <= i < h => Roll(m[i], aw + bw));
    assert Roll2(Roll2(m, aw, ah), bw, bh) == Roll(rows2, bh);
    assert Roll2(m, aw + bw, ah + bh) == Roll(rows3, ah + bh);
    // Rolling every row and rolling the rows commute.
    assert rows2 == Roll(rows3, ah) by {
      forall i | 0 <= i < h ensures rows2[i] == Roll(rows3, ah)[i] {
        RollAt(rows, ah, i);
        RollAt(rows3, ah, i);
        RollRoll(m[(i - ah) % h], aw, bw);
      }
    }
    RollRoll(rows3, ah, bh);
  }

  /** A roll of a matrix keeps the sum of its entries. */
  lemma {:induction false} Roll2Sum(m: Matrix, kw: int, kh: int)
    ensures Sum(Roll2(m, kw, kh)) == Sum(m)
  {
    var rows := seq(|m|, i requires 0 <= i < |m| => Roll(m[i], kw));
    RollSumRows(rows, kh);
    forall i | 0 <= i < |m| ensures SumSeq(rows[i]) == SumSeq(m[i]) {
      RollSum(m[i], kw);
    }
    SumByRows(rows, m);
  }

  lemma {:induction false} RollSumRows(m: Matrix, k: int)
    ensures Sum(Roll(m, k)) == Sum(m)
  {
    if |m| > 0 {
      var c := |m| - k % |m|;
      RollRotates(m, k);
      assert m == m[..c] + m[c..];
      SumAppend(m[c..], m[..c]);
      SumAppend(m[..c], m[c..]);
    }
  }

  // ---------------------------------------------------------------------
  // fftshift / ifftshift

  /** `fftshift(x)` on the last two axes: each axis rolled by half its extent, rounded down. */
  function FftShift(m: Matrix): (r: Matrix)
    ensures |r| == |m|
  {
    Roll2(m, Width(m) / 2, |m| / 2)
  }

  /** `ifftshift(x, (-1, -2))`: each axis rolled by half its extent, rounded up. */
  function IfftShift(m: Matrix): (r: Matrix)
    ensures |r| == |m|
  {
    Roll2(m, (Width(m) + 1) / 2, (|m| + 1) / 2)
  }

  /** Undoing a shift by `k`: `((i + k) mod n - k) mod n == i`. */
  lemma {:induction false} ModBack(i: int, k: int, n: int)
    requires 0 <= i < n
    ensures ((i + k) % n - k) % n == i
  {
    var q, j := (i + k) / n, (i + k) % n;
    DivMod(i + k, n);
    assert j - k == (-q) * n + i;
    ModUnique(j - k, n, -q, i);
  }

  /** The entry at `(i, j)` moves to `((i + h//2) mod h, (j + w//2) mod w)`: the zero frequency goes to the centre. */
  lemma {:induction false} FftShiftMoves(m: Matrix, h: nat, w: nat, i: nat, j: nat)
    requires IsRect(m, h, w) && i < h && j < w
    ensures IsRect(FftShift(m), h, w)
    ensures FftShift(m)[(i + h / 2) % h][(j + w / 2) % w] == m[i][j]
  {
    FftShiftIsRoll(m, h, w);
    Roll2Moves(m, h, w, w / 2, h / 2, i, j);
  }

  lemma {:induction false} FftShiftIsRoll(m: Matrix, h: nat, w: nat)
    requires IsRect(m, h, w) && h >= 1
    ensures FftShift(m) == Roll2(m, w / 2, h / 2)
  {
    assert |m[0]| == w;
  }

  /** Under a roll of a matrix, the entry at `(i, j)` lands at `((i + kh) mod h, (j + kw) mod w)`. */
  lemma {:induction false} Roll2Moves(m: Matrix, h: nat, w: nat, kw: int, kh: int, i: nat, j: nat)
    requires IsRect(m, h, w) && i < h && j < w
    ensures IsRect(Roll2(m, kw, kh), h, w)
    ensures Roll2(m, kw, kh)[(i + kh) % h][(j + kw) % w] == m[i][j]
  {
    var i2, j2 := (i + kh) % h, (j + kw) % w;
    Roll2At(m, h, w, kw, kh, i2, j2);
    ModBack(i, kh, h);
    ModBack(j, kw, w);
    assert (i2 - kh) % h == i && (j2 - kw) % w == j;
  }

  /** Rolling by `n // 2` and then by `(n + 1) // 2` is a roll by `n`. */
  lemma {:induction false} HalvesAddUp(n: nat)
    ensures n / 2 + (n + 1) / 2 == n
  {
  }

  /** Rolling both axes by their full extents changes nothing. */
  lemma {:induction false} Roll2Whole(m: Matrix, h: nat, w: nat, kw: int, kh: int)
    requires IsRect(m, h, w) && kw == w && kh == h
    ensures Roll2(m, kw, kh) == m
  {
    var rows := seq(h, i requires 0 <= i < h => Roll(m[i], w));
    forall i | 0 <= i < h ensures rows[i] == m[i] {
      RollWhole(m[i], 1);
    }
    assert rows == m;
    RollWhole(m, 1);
  }

  /** Two rolls whose shifts add up to the extents cancel. */
  lemma {:induction false} Roll2Cancel(m: Matrix, h: nat, w: nat, aw: int, ah: int, bw: int, bh: int)
    requires IsRect(m, h, w) && aw + bw == w && ah + bh == h
    ensures Roll2(Roll2(m, aw, ah), bw, bh) == m
  {
    Roll2Roll2(m, h, w, aw, ah, bw, bh);
    Roll2Whole(m, h, w, aw + bw, ah + bh);
  }

  /** `ifftshift` undoes `fftshift`. */
  lemma {:induction false} IfftShiftOfFftShift(m: Matrix, h: nat, w: nat)
    requires IsRect(m, h, w) && h >= 1
    ensures IfftShift(FftShift(m)) == m
  {
    assert Width(m) == w by { assert |m[0]| == w; }
    Roll2Shape(m, h, w, w / 2, h / 2);
    var f := FftShift(m);
    assert Width(f) == w by { assert |f[0]| == w; }
    HalvesAddUp(w);
    HalvesAddUp(h);
    Roll2Cancel(m, h, w, w / 2, h / 2, (w + 1) / 2, (h + 1) / 2);
  }

  /** `fftshift` undoes `ifftshift`. */
  lemma {:induction false} FftShiftOfIfftShift(m: Matrix, h: nat, w: nat)
    requires IsRect(m, h, w) && h >= 1
    ensures FftShift(IfftShift(m)) == m
  {
    assert Width(m) == w by { assert |m[0]| == w; }
    Roll2Shape(m, h, w, (w + 1) / 2, (h + 1) / 2);
    var f := IfftShift(m);
    assert Width(f) == w by { assert |f[0]| == w; }
    HalvesAddUp(w);
    HalvesAddUp(h);
    Roll2Cancel(m, h, w, (w + 1) / 2, (h + 1) / 2, w / 2, h / 2);
  }

  /** On even extents the two shifts are the same permutation. */
  lemma {:induction false} ShiftsAgreeWhenEven(m: Matrix, h: nat, w: nat)
    requires IsRect(m, h, w) && h >= 1 && h % 2 == 0 && w % 2 == 0
    ensures FftShift(m) == IfftShift(m)
  {
    assert Width(m) == w by { assert |m[0]| == w; }
    HalfOfEven(h);
    HalfOfEven(w);
  }

  /** On an even extent, rounding the half down or up gives the same shift. */
  lemma {:induction false} HalfOfEven(n: nat)
    requires n % 2 == 0
    ensures n / 2 == (n + 1) / 2
  {
    DivMod(n, 2);
    ModUnique(n + 1, 2, n / 2, 1);
  }

  /** Both shifts keep the sum of the entries. */
  lemma {:induction false} ShiftsKeepSum(m: Matrix)
    ensures Sum(FftShift(m)) == Sum(m) && Sum(IfftShift(m)) == Sum(m)
  {
    Roll2Sum(m, Width(m) / 2, |m| / 2);
    Roll2Sum(m, (Width(m) + 1) / 2, (|m| + 1) / 2);
  }

  // ---------------------------------------------------------------------
  // exp2xy

  /**
   * `exp2xy(amplitude, phase)`: the real part `amplitude * cos(phase)` and
   * the imaginary part `amplitude * sin(phase)` of `amplitude * e^(i phase)`,
   * stacked along a last axis of two.  `cos` and `sin` are parameters.
   */
  function Exp2Xy(amplitude: Matrix, phase: Matrix, cos: real -> real, sin: real -> real): (r: ComplexMatrix)
    requires SameShape(amplitude, phase)
    ensures SameShape(r.re, amplitude) && SameShape(r.im, amplitude)
  {
    ComplexMatrix(
      seq(|amplitude|, i requires 0 <= i < |amplitude| =>
        seq(|amplitude[i]|, j requires 0 <= j < |amplitude[i]| => amplitude[i][j] * cos(phase[i][j]))),
      seq(|amplitude|, i requires 0 <= i < |amplitude| =>
        seq(|amplitude[i]|, j requires 0 <= j < |amplitude[i]| => amplitude[i][j] * sin(phase[i][j]))))
  }

  lemma {:induction false} SquaresFactor(a: real, c: real, s: real)
    requires c * c + s * s == 1.0
    ensures (a * c) * (a * c) + (a * s) * (a * s) == a * a
  {
    assert (a * c) * (a * c) + (a * s) * (a * s) == (a * a) * (c * c + s * s);
  }

  /**
   * Where `cos` and `sin` satisfy `cos^2 + sin^2 == 1` at the phase, the
   * squared modulus of the entry is the squared amplitude, so the phase
   * does not change the intensity.
   */
  lemma {:induction false} Exp2XyIntensity(amplitude: Matrix, phase: Matrix, cos: real -> real, sin: real -> real, i: nat, j: nat)
    requires SameShape(amplitude, phase) && i < |amplitude| && j < |amplitude[i]|
    requires cos(phase[i][j]) * cos(phase[i][j]) + sin(phase[i][j]) * sin(phase[i][j]) == 1.0
    ensures var r := Exp2Xy(amplitude, phase, cos, sin);
      r.re[i][j] * r.re[i][j] + r.im[i][j] * r.im[i][j] == amplitude[i][j] * amplitude[i][j]
  {
    SquaresFactor(amplitude[i][j], cos(phase[i][j]), sin(phase[i][j]));
  }
}

=== FILE: optics.dfy ===
/**
 * The camera-independent parts of `optics/__init__.py`: the split of a
 * depth map into depth layers, the checks the camera constructor makes on
 * its configuration, and the small optical formulas (dispersion, phase from
 * height, aperture stop, per-slice normalisation, thin-lens quantities).
 * Floating-point values are modelled as reals.
 */
module Optics {
  import opened Results
  import opened Tensor
  import opened Utils

  // ---------------------------------------------------------------------
  // _depthmap2layers

  /** `depthmap.clamp(1e-8, 1.0)` */
  function ClampDepth(d: real): (c: real)
    ensures 0.00000001 <= c <= 1.0
    ensures 0.00000001 <= d <= 1.0 ==> c == d
  {
    if d < 0.00000001 then 0.00000001 else if d > 1.0 then 1.0 else d
  }

  /**
   * `diff = d - depthmap * n` for layer `k` (0-based, so `d == k + 1`) at a
   * pixel of depth `depth`.
   */
  function LayerDiff(depth: real, n: nat, k: nat): real
  {
    (k + 1) as real - ClampDepth(depth) * n as real
  }

  /**
   * The weight that layer `k` of `n` receives at a pixel of depth `depth`:
   * in binary mode 1 when `0 <= diff < 1`; in soft mode `diff + 1` when
   * `-1 < diff <= 0` and 1 when `0 < diff <= 1`; 0 otherwise.
   */
  function LayerWeight(depth: real, n: nat, k: nat, binary: bool): real
  {
    var diff := LayerDiff(depth, n, k);
    if binary then
      if 0.0 <= diff < 1.0 then 1.0 else 0.0
    else if -1.0 < diff <= 0.0 then diff + 1.0
    else if 0.0 < diff <= 1.0 then 1.0
    else 0.0
  }

  /** The smallest integer not below `x`, as `torch.ceil`. */
  function Ceil(x: real): (c: int)
    ensures (c - 1) as real < x <= c as real
  {
    -((-x).Floor)
  }

  /**
   * The layer a pixel belongs to in binary mode: the `k` with
   * `k < depth * n <= k + 1`.
   */
  function BinaryLayer(depth: real, n: nat): int
  {
    Ceil(ClampDepth(depth) * n as real) - 1
  }

  lemma {:induction false} ScaledDepthRange(depth: real, n: nat)
    requires n >= 1
    ensures 0.0 < ClampDepth(depth) * n as real <= n as real
  {
    var c := ClampDepth(depth);
    MulMonotone(n as real, c, 1.0);
    assert c * n as real > 0.0;
  }

  /**
   * Binary layering is one-hot: the layer `BinaryLayer` is one of the `n`
   * layers, it gets weight 1, and every other layer gets 0.
   */
  lemma {:induction false} BinaryOneHot(depth: real, n: nat, k: nat)
    requires n >= 1 && k < n
    ensures 0 <= BinaryLayer(depth, n) < n
    ensures LayerWeight(depth, n, k, true) == if k == BinaryLayer(depth, n) then 1.0 else 0.0
  {
    ScaledDepthRange(depth, n);
    var x := ClampDepth(depth) * n as real;
    var c := Ceil(x);
    assert 0 < c <= n;
  }

  /** The binary weights over all `n` layers sum to exactly one. */
  lemma {:induction false} BinaryWeightsSumToOne(depth: real, n: nat)
    requires n >= 1
    ensures SumSeq(seq(n, k requires 0 <= k < n => LayerWeight(depth, n, k, true))) == 1.0
  {
    var w := seq(n, k requires 0 <= k < n => LayerWeight(depth, n, k, true));
    var b := BinaryLayer(depth, n);
    BinaryOneHot(depth, n, 0);
    forall k | 0 <= k < n ensures w[k] == if k == b then 1.0 else 0.0 {
      BinaryOneHot(depth, n, k);
    }
    OneHotSum(w, b);
  }

  /** A sequence that is one at `b` and zero elsewhere sums to one. */
  lemma {:induction false} OneHotSum(w: seq<real>, b: int)
    requires 0 <= b < |w|
    requires forall k :: 0 <= k < |w| ==> w[k] == if k == b then 1.0 else 0.0
    ensures SumSeq(w) == 1.0
  {
    var n := |w| - 1;
    if b < n {
      OneHotSum(w[..n], b);
    } else {
      forall k | 0 <= k < n ensures w[..n][k] == 0.0 {
      }
      assert w[..n] == seq(n, _ => 0.0);
      SumSeqZeros(n);
    }
  }

  /**
   * Soft layering gives every layer a weight in `[0, 1]`: `k + 1 - depth*n + 1`
   * on the layer at or just below the scaled depth, 1 on the layer just
   * above it, and 0 on all others.
   */
  lemma {:induction false} SoftWeightBounds(depth: real, n: nat, k: nat)
    ensures 0.0 <= LayerWeight(depth, n, k, false) <= 1.0
    ensures var x := ClampDepth(depth) * n as real;
      LayerWeight(depth, n, k, false) ==
        if x - 1.0 < (k + 1) as real <= x then (k + 1) as real - x + 1.0
        else if x < (k + 1) as real <= x + 1.0 then 1.0
        else 0.0
  {
  }

  /**
   * The soft weights at one pixel need not sum to at most one: at scaled
   * depth 2.3 (depth 0.575 over 4 layers) the second layer gets 0.7 and the
   * third gets 1.
   */
  lemma {:induction false} SoftWeightsExceedOne()
    ensures LayerWeight(0.575, 4, 1, false) == 0.7
    ensures LayerWeight(0.575, 4, 2, false) == 1.0
    ensures LayerWeight(0.575, 4, 0, false) == 0.0 && LayerWeight(0.575, 4, 3, false) == 0.0
  {
    assert ClampDepth(0.575) * 4.0 == 2.3;
  }

  /** The half-open or half-closed ranges the three masked assignments test `diff` against. */
  datatype Range = ClosedOpen(lo: real, hi: real) | OpenClosed(lo: real, hi: real)

  predicate InRange(r: Range, x: real)
  {
    match r
    case ClosedOpen(lo, hi) => lo <= x < hi
    case OpenClosed(lo, hi) => lo < x <= hi
  }

  /** What a masked assignment writes: the constant 1 or `diff + 1`. */
  datatype Fill = One | DiffPlusOne

  function FillValue(f: Fill, diff: real): real
  {
    match f
    case One => 1.0
    case DiffPlusOne => diff + 1.0
  }

  /**
   * `layered_mask[cond] = value`: every cell whose `diff` lies in `r` is
   * overwritten with the fill; every other cell keeps its value.
   */
  method SetWhere(mask: array3<real>, diff: seq<Matrix>, r: Range, f: Fill)
    requires |diff| == mask.Length0
    requires forall k :: 0 <= k < |diff| ==> |diff[k]| == mask.Length1
    requires forall k, i :: 0 <= k < |diff| && 0 <= i < mask.Length1 ==> |diff[k][i]| == mask.Length2
    modifies mask
    ensures forall k, i, j :: 0 <= k < mask.Length0 && 0 <= i < mask.Length1 && 0 <= j < mask.Length2 ==>
      mask[k, i, j] == if InRange(r, diff[k][i][j]) then FillValue(f, diff[k][i][j]) else old(mask[k, i, j])
  {
    var k := 0;
    while k < mask.Length0
      invariant 0 <= k <= mask.Length0
      invariant forall k', i, j :: 0 <= k' < mask.Length0 && 0 <= i < mask.Length1 && 0 <= j < mask.Length2 ==>
        mask[k', i, j] ==
          if k' < k && InRange(r, diff[k'][i][j]) then FillValue(f, diff[k'][i][j]) else old(mask[k', i, j])
    {
      var i := 0;
      while i < mask.Length1
        invariant 0 <= i <= mask.Length1
        invariant forall k', i', j :: 0 <= k' < mask.Length0 && 0 <= i' < mask.Length1 && 0 <= j < mask.Length2 ==>
          mask[k', i', j] ==
            if (k' < k || (k' == k && i' < i)) && InRange(r, diff[k'][i'][j])
            then FillValue(f, diff[k'][i'][j]) else old(mask[k', i', j])
      {
        var j := 0;
        while j < mask.Length2
          invariant 0 <= j <= mask.Length2
          invariant forall k', i', j' :: 0 <= k' < mask.Length0 && 0 <= i' < mask.Length1 && 0 <= j' < mask.Length2 ==>
            mask[k', i', j'] ==
              if (k' < k || (k' == k && (i' < i || (i' == i && j' < j)))) && InRange(r, diff[k'][i'][j'])
              then FillValue(f, diff[k'][i'][j']) else old(mask[k', i', j'])
        {
          if InRange(r, diff[k][i][j]) {
            mask[k, i, j] := FillValue(f, diff[k][i][j]);
          }
          j := j + 1;
        }
        i := i + 1;
      }
      k := k + 1;
    }
  }

  /** The tensor `d - depthmap * n` of shape `n x h x w`. */
  function Diffs(depthmap: Matrix, h: nat, w: nat, n: nat): (diff: seq<Matrix>)
    requires IsRect(depthmap, h, w)
    ensures |diff| == n && forall k :: 0 <= k < n ==> |diff[k]| == h
    ensures forall k, i :: 0 <= k < n && 0 <= i < h ==> |diff[k][i]| == w
    ensures forall k, i, j :: 0 <= k < n && 0 <= i < h && 0 <= j < w ==>
      diff[k][i][j] == (k + 1) as real - ClampDepth(depthmap[i][j]) * n as real
  {
    seq(n, k requires 0 <= k < n =>
      seq(h, i requires 0 <= i < h =>
        seq(w, j requires 0 <= j < w => LayerDiff(depthmap[i][j], n, k))))
  }

  /**
   * `_depthmap2layers(depthmap, n, binary)` for one `h x w` depth map: a
   * zero mask of `n` layers is filled by masked assignments on `diff`, and
   * every cell ends up holding `LayerWeight` of its pixel's depth.
   */
  method DepthmapToLayers(depthmap: Matrix, h: nat, w: nat, n: nat, binary: bool) returns (mask: array3<real>)
    requires IsRect(depthmap, h, w)
    ensures fresh(mask)
    ensures mask.Length0 == n && mask.Length1 == h && mask.Length2 == w
    ensures forall k, i, j :: 0 <= k < n && 0 <= i < h && 0 <= j < w ==>
      mask[k, i, j] == LayerWeight(depthmap[i][j], n, k, binary)
  {
    var diff := Diffs(depthmap, h, w, n);
    mask := new real[n, h, w]((k, i, j) => 0.0);
    if binary {
      SetWhere(mask, diff, ClosedOpen(0.0, 1.0), One);
    } else {
      SetWhere(mask, diff, OpenClosed(-1.0, 0.0), DiffPlusOne);
      SetWhere(mask, diff, OpenClosed(0.0, 1.0), One);
    }
  }

  // ---------------------------------------------------------------------
  // Camera.__init__ checks, normalize_image_size, __register_wavlength

  /** Why the camera constructor refuses a configuration. */
  datatype ConfigError =
    | MinDepthTooSmall         // ValueError: min depth below 1e-6
    | OddImageSize             // ValueError: an entry of a list image size is odd
    | ImageSizeIndex           // IndexError: a list image size with fewer than two entries
    | BadImageSizeType         // ValueError: image size neither int nor list
    | BadWavelengthType        // ValueError: wavelengths neither tuple nor float
    | WavelengthCountNotTriple // ValueError: number of wavelengths not a multiple of 3

  /** The smallest minimum depth the constructor accepts. */
  const MinDepthLimit: real := 0.000001

  /** The Python types `image_size` may arrive as. */
  datatype ImageSizeArg = IntSize(n: int) | ListSize(l: seq<int>) | OtherSize

  /**
   * `normalize_image_size`: an int becomes a square size without a parity
   * check; a list is checked entry by entry, left to right with Python's
   * short-circuit `or`, and returned unchanged when both entries are even.
   */
  function NormalizeImageSize(a: ImageSizeArg): (r: Result<seq<int>, ConfigError>)
  {
    match a
    case IntSize(n) => Ok([n, n])
    case ListSize(l) =>
      if |l| == 0 then Err(ImageSizeIndex)
      else if l[0] % 2 == 1 then Err(OddImageSize)
      else if |l| == 1 then Err(ImageSizeIndex)
      else if l[1] % 2 == 1 then Err(OddImageSize)
      else Ok(l)
    case OtherSize => Err(BadImageSizeType)
  }

  /**
   * The image size is accepted exactly when it is an int, or a list of at
   * least two entries whose first two are even; an accepted list comes back
   * unchanged, an int `n` as `[n, n]`.
   */
  lemma {:induction false} NormalizeImageSizeAccepts(a: ImageSizeArg)
    ensures NormalizeImageSize(a).Ok? <==>
      a.IntSize? || (a.ListSize? && |a.l| >= 2 && a.l[0] % 2 == 0 && a.l[1] % 2 == 0)
    ensures a.IntSize? ==> NormalizeImageSize(a) == Ok([a.n, a.n])
    ensures NormalizeImageSize(a).Ok? && a.ListSize? ==> NormalizeImageSize(a).value == a.l
    ensures a.OtherSize? ==> NormalizeImageSize(a) == Err(BadImageSizeType)
    ensures a.ListSize? && |a.l| >= 1 && a.l[0] % 2 == 1 ==> NormalizeImageSize(a) == Err(OddImageSize)
  {
  }

  /**
   * An int size skips the parity check that the same size given as a list
   * must pass: an odd `n` is accepted as an int and refused as `[n, n]`.
   */
  lemma {:induction false} IntSizeSkipsParity(n: int)
    ensures NormalizeImageSize(IntSize(n)) == Ok([n, n])
    ensures NormalizeImageSize(ListSize([n, n])).Ok? <==> n % 2 == 0
  {
  }

  /** The Python types `wavelengths` may arrive as. */
  datatype WavelengthArg = TupleArg(ws: seq<real>) | FloatArg(w: real) | OtherArg

  /**
   * `__register_wavlength`: a tuple is taken as is, a float as a
   * one-element list, anything else is refused; then the count must be a
   * multiple of three.
   */
  function RegisterWavelengths(a: WavelengthArg): (r: Result<seq<real>, ConfigError>)
  {
    var ws :=
      match a
      case TupleArg(ws) => Ok(ws)
      case FloatArg(w) => Ok([w])
      case OtherArg => Err(BadWavelengthType);
    if ws.Err? then ws
    else if |ws.value| % 3 != 0 then Err(WavelengthCountNotTriple)
    else ws
  }

  /**
   * Wavelengths are accepted exactly when they form a tuple whose length is
   * a multiple of three (the empty tuple included), and then unchanged; a
   * single float is always refused.
   */
  lemma {:induction false} RegisterWavelengthsAccepts(a: WavelengthArg)
    ensures RegisterWavelengths(a).Ok? <==> a.TupleArg? && |a.ws| % 3 == 0
    ensures RegisterWavelengths(a).Ok? ==> RegisterWavelengths(a).value == a.ws
    ensures a.FloatArg? ==> RegisterWavelengths(a) == Err(WavelengthCountNotTriple)
    ensures a.OtherArg? ==> RegisterWavelengths(a) == Err(BadWavelengthType)
  {
  }

  /** The validated parts of a camera configuration. */
  datatype CheckedConfig = CheckedConfig(imageSize: seq<int>, wavelengths: seq<real>)

  /**
   * The checks of `Camera.__init__` in the order they run: the minimum
   * depth, then the image size, then the wavelengths.
   */
  function CheckConfig(minDepth: real, imageSize: ImageSizeArg, wavelengths: WavelengthArg)
    : (r: Result<CheckedConfig, ConfigError>)
  {
    if minDepth < MinDepthLimit then Err(MinDepthTooSmall)
    else
      var sz := NormalizeImageSize(imageSize);
      if sz.Err? then Err(sz.error)
      else
        var ws := RegisterWavelengths(wavelengths);
        if ws.Err? then Err(ws.error)
        else Ok(CheckedConfig(sz.value, ws.value))
  }

  /**
   * A configuration passes exactly when all three checks pass, and the
   * first failing check in source order names the error.
   */
  lemma {:induction false} CheckConfigOrder(minDepth: real, imageSize: ImageSizeArg, wavelengths: WavelengthArg)
    ensures CheckConfig(minDepth, imageSize, wavelengths).Ok? <==>
      minDepth >= MinDepthLimit && NormalizeImageSize(imageSize).Ok? && RegisterWavelengths(wavelengths).Ok?
    ensures minDepth < MinDepthLimit ==> CheckConfig(minDepth, imageSize, wavelengths) == Err(MinDepthTooSmall)
    ensures minDepth >= MinDepthLimit && NormalizeImageSize(imageSize).Err? ==>
      CheckConfig(minDepth, imageSize, wavelengths) == Err(NormalizeImageSize(imageSize).error)
    ensures CheckConfig(minDepth, imageSize, wavelengths).Ok? ==>
      CheckConfig(minDepth, imageSize, wavelengths).value ==
        CheckedConfig(NormalizeImageSize(imageSize).value, RegisterWavelengths(wavelengths).value)
  {
  }

  // ---------------------------------------------------------------------
  // apply_stop, normalize_psf

  /** `apply_stop` at one sample: `x` strictly inside the aperture circle, 0 on or outside it. */
  function Stop(r2: real, x: real, diameter: real): real
  {
    if r2 < diameter * diameter / 4.0 then x else 0.0
  }

  /** `apply_stop` on a sampled plane: the squared radii `r2` and the field `x` share a shape. */
  function ApplyStop(r2: Matrix, x: Matrix, diameter: real): (r: Matrix)
    requires SameShape(r2, x)
    ensures SameShape(r, x)
  {
    seq(|x|, i requires 0 <= i < |x| =>
      seq(|x[i]|, j requires 0 <= j < |x[i]| => Stop(r2[i][j], x[i][j], diameter)))
  }

  /**
   * The stop keeps a sample exactly when it lies strictly inside the circle
   * of diameter `diameter`; it zeroes every sample on or outside it, and a
   * second application changes nothing.
   */
  lemma {:induction false} ApplyStopAt(r2: Matrix, x: Matrix, diameter: real, i: nat, j: nat)
    requires SameShape(r2, x) && i < |x| && j < |x[i]|
    ensures r2[i][j] < diameter * diameter / 4.0 ==> ApplyStop(r2, x, diameter)[i][j] == x[i][j]
    ensures r2[i][j] >= diameter * diameter / 4.0 ==> ApplyStop(r2, x, diameter)[i][j] == 0.0
    ensures ApplyStop(r2, ApplyStop(r2, x, diameter), diameter)[i][j] == ApplyStop(r2, x, diameter)[i][j]
  {
  }

  /** Applying the stop twice is applying it once. */
  lemma {:induction false} ApplyStopIdempotent(r2: Matrix, x: Matrix, diameter: real)
    requires SameShape(r2, x)
    ensures ApplyStop(r2, ApplyStop(r2, x, diameter), diameter) == ApplyStop(r2, x, diameter)
  {
    var once := ApplyStop(r2, x, diameter);
    var twice := ApplyStop(r2, once, diameter);
    forall i | 0 <= i < |x| ensures twice[i] == once[i] {
      forall j | 0 <= j < |x[i]| ensures twice[i][j] == once[i][j] {
        ApplyStopAt(r2, x, diameter, i, j);
      }
    }
  }

  /**
   * `psf / psf.sum(dim=(-2, -1))` on one slice. A slice that sums to zero
   * (a division producing NaN in the source) is left as it is.
   */
  function NormalizeSlice(m: Matrix): (r: Matrix)
    ensures SameShape(r, m)
  {
    var s := Sum(m);
    if s == 0.0 then m else Scale(m, 1.0 / s)
  }

  /** A slice with a nonzero sum is rescaled to sum to exactly one. */
  lemma {:induction false} NormalizeSliceSum(m: Matrix)
    requires Sum(m) != 0.0
    ensures Sum(NormalizeSlice(m)) == 1.0
    ensures forall i, j :: 0 <= i < |m| && 0 <= j < |m[i]| ==> NormalizeSlice(m)[i][j] * Sum(m) == m[i][j]
  {
    assert NormalizeSlice(m) == Scale(m, 1.0 / Sum(m));
    NormalizeSliceTotal(m);
    NormalizeSliceEntries(m);
  }

  lemma {:induction false} NormalizeSliceTotal(m: Matrix)
    requires Sum(m) != 0.0
    ensures Sum(Scale(m, 1.0 / Sum(m))) == 1.0
  {
    var s := Sum(m);
    SumScale(m, 1.0 / s);
    InverseCancels(1.0, s);
  }

  lemma {:induction false} NormalizeSliceEntries(m: Matrix)
    requires Sum(m) != 0.0
    ensures forall i, j :: 0 <= i < |m| && 0 <= j < |m[i]| ==> Scale(m, 1.0 / Sum(m))[i][j] * Sum(m) == m[i][j]
  {
    forall i, j | 0 <= i < |m| && 0 <= j < |m[i]| ensures Scale(m, 1.0 / Sum(m))[i][j] * Sum(m) == m[i][j] {
      ScaleCancels(m, Sum(m), i, j);
    }
  }

  lemma {:induction false} ScaleCancels(m: Matrix, s: real, i: nat, j: nat)
    requires s != 0.0 && i < |m| && j < |m[i]|
    ensures Scale(m, 1.0 / s)[i][j] * s == m[i][j]
  {
    var x := m[i][j];
    assert Scale(m, 1.0 / s)[i][j] == x * (1.0 / s);
    InverseCancels(x, s);
  }

  lemma InverseCancels(x: real, s: real)
    requires s != 0.0
    ensures x * (1.0 / s) * s == x
  {
  }

  /** Normalising an already normalised slice changes nothing. */
  lemma {:induction false} NormalizeSliceIdempotent(m: Matrix)
    requires Sum(m) != 0.0
    ensures NormalizeSlice(NormalizeSlice(m)) == NormalizeSlice(m)
  {
    NormalizeSliceSum(m);
    var n := NormalizeSlice(m);
    assert Scale(n, 1.0 / 1.0) == n by {
      forall i | 0 <= i < |n| ensures Scale(n, 1.0)[i] == n[i] {
      }
    }
  }

  /** A PSF stack indexed by channel, then depth, then the two image axes. */
  type Psf = seq<seq<Matrix>>

  /** Applies `f` to every `(H, W)` slice of a PSF stack. */
  function MapSlices(p: Psf, f: Matrix -> Matrix): (r: Psf)
    ensures |r| == |p| && forall c :: 0 <= c < |p| ==> |r[c]| == |p[c]|
  {
    seq(|p|, c requires 0 <= c < |p| => seq(|p[c]|, d requires 0 <= d < |p[c]| => f(p[c][d])))
  }

  /** `normalize_psf`: every slice divided by its own sum. */
  function NormalizePsf(p: Psf): (r: Psf)
    ensures |r| == |p| && forall c :: 0 <= c < |p| ==> |r[c]| == |p[c]|
  {
    MapSlices(p, NormalizeSlice)
  }

  /** Every slice of a stack sums to one. */
  ghost predicate UnitSlices(p: Psf)
  {
    forall c, d :: 0 <= c < |p| && 0 <= d < |p[c]| ==> Sum(p[c][d]) == 1.0
  }

  /** Every slice of a stack has a nonzero sum. */
  ghost predicate NonzeroSlices(p: Psf)
  {
    forall c, d :: 0 <= c < |p| && 0 <= d < |p[c]| ==> Sum(p[c][d]) != 0.0
  }

  /** After `normalize_psf`, every slice with a nonzero sum sums to one. */
  lemma {:induction false} NormalizePsfUnit(p: Psf)
    requires NonzeroSlices(p)
    ensures UnitSlices(NormalizePsf(p))
  {
    forall c, d | 0 <= c < |p| && 0 <= d < |p[c]| ensures Sum(NormalizePsf(p)[c][d]) == 1.0 {
      NormalizeSliceSum(p[c][d]);
    }
  }

  // ---------------------------------------------------------------------
  // refractive_index, heightmap2phase

  /** The value of pi the source takes from `math.pi`. */
  const Pi: real := 3.141592653589793

  /**
   * `refractive_index`: Cauchy's dispersion formula with the coefficients of
   * NOA61, the wavelength given in metres and converted to micrometres.
   */
  function RefractiveIndex(wavelength: real): real
    requires wavelength != 0.0
  {
    var x := wavelength * 1000000.0;
    1.5375 + 0.00829045 / (x * x) + -0.000211046 / (x * x * x * x)
  }

  /** Cauchy's formula written in `u = 1 / x^2`. */
  lemma {:induction false} RefractiveIndexInU(wavelength: real, u: real)
    requires wavelength != 0.0
    requires u * ((wavelength * 1000000.0) * (wavelength * 1000000.0)) == 1.0
    ensures RefractiveIndex(wavelength) == 1.5375 + 0.00829045 * u + -0.000211046 * (u * u)
  {
    var x := wavelength * 1000000.0;
    var x2 := x * x;
    assert x * x * x * x == x2 * x2;
    assert 0.00829045 / x2 == 0.00829045 * u;
    assert -0.000211046 / (x2 * x2) == -0.000211046 * (u * u) by {
      assert (u * u) * (x2 * x2) == (u * x2) * (u * x2);
    }
  }

  /** For wavelengths of at least 0.3 micrometres, `u = 1 / x^2` lies in `(0, 1 / 0.09]`. */
  lemma {:induction false} InverseSquareRange(wavelength: real) returns (u: real)
    requires wavelength >= 0.0000003
    ensures u * ((wavelength * 1000000.0) * (wavelength * 1000000.0)) == 1.0
    ensures 0.0 < u && u * 0.09 <= 1.0
  {
    var x := wavelength * 1000000.0;
    assert x >= 0.3;
    var x2 := x * x;
    assert x2 >= 0.09 by {
      MulMonotone(x, 0.3, x);
      MulMonotone(0.3, 0.3, x);
    }
    u := 1.0 / x2;
    assert u * x2 == 1.0;
    MulMonotone(u, 0.09, x2);
  }

  /** The quadratic in `u` is increasing on `(0, 1 / 0.09]`. */
  lemma {:induction false} CauchyQuadraticIncreasing(u1: real, u2: real)
    requires 0.0 < u2 < u1 && u1 * 0.09 <= 1.0
    ensures 0.00829045 * u2 + -0.000211046 * (u2 * u2) < 0.00829045 * u1 + -0.000211046 * (u1 * u1)
  {
    var g := 0.00829045 + -0.000211046 * (u1 + u2);
    assert u1 + u2 < 23.0;
    assert g > 0.0;
    var d := u1 - u2;
    assert d * g > 0.0;
    assert (0.00829045 * u1 + -0.000211046 * (u1 * u1)) - (0.00829045 * u2 + -0.000211046 * (u2 * u2)) == d * g;
  }

  /** `u` decreases as the wavelength grows. */
  lemma {:induction false} InverseSquareDecreasing(w1: real, w2: real, u1: real, u2: real)
    requires 0.0000003 <= w1 < w2
    requires u1 * ((w1 * 1000000.0) * (w1 * 1000000.0)) == 1.0
    requires u2 * ((w2 * 1000000.0) * (w2 * 1000000.0)) == 1.0
    ensures u2 < u1
  {
    var x1 := w1 * 1000000.0;
    var x2 := w2 * 1000000.0;
    assert 0.0 < x1 < x2;
    var s1 := x1 * x1;
    var s2 := x2 * x2;
    assert s1 < s2 by {
      MulMonotone(x1, x1, x2);
      assert x1 * x2 < x2 * x2;
    }
    assert s1 > 0.0;
    if u1 <= u2 {
      MulMonotone(u1, s1, s2);
      MulMonotone(s2, u1, u2);
      assert false;
    }
  }

  /**
   * Over the visible range and beyond (wavelengths of at least 0.3
   * micrometres) the index strictly decreases with the wavelength and stays
   * above 1.5375, so the phase of a positive height is positive.
   */
  lemma {:induction false} RefractiveIndexDecreasing(w1: real, w2: real)
    requires 0.0000003 <= w1 < w2
    ensures RefractiveIndex(w2) < RefractiveIndex(w1)
    ensures RefractiveIndex(w2) > 1.5375
  {
    var u1 := InverseSquareRange(w1);
    var u2 := InverseSquareRange(w2);
    RefractiveIndexInU(w1, u1);
    RefractiveIndexInU(w2, u2);
    InverseSquareDecreasing(w1, w2, u1, u2);
    CauchyQuadraticIncreasing(u1, u2);
    CauchyQuadraticPositive(u2);
  }

  /** The quadratic in `u` is positive on `(0, 1 / 0.09]`. */
  lemma {:induction false} CauchyQuadraticPositive(u: real)
    requires 0.0 < u && u * 0.09 <= 1.0
    ensures 0.00829045 * u + -0.000211046 * (u * u) > 0.0
  {
    assert 0.00829045 + -0.000211046 * u > 0.0;
    assert 0.00829045 * u + -0.000211046 * (u * u) == u * (0.00829045 + -0.000211046 * u);
  }

  /** `heightmap2phase`: the phase delay of a relief of height `height`. */
  function HeightmapToPhase(height: real, wavelength: real, refractiveIndex: real): real
    requires wavelength != 0.0
  {
    height * (2.0 * Pi / wavelength) * (refractiveIndex - 1.0)
  }

  /** The height that produces a given phase delay. */
  function PhaseToHeight(phase: real, wavelength: real, refractiveIndex: real): real
    requires refractiveIndex != 1.0
  {
    phase * wavelength / (2.0 * Pi * (refractiveIndex - 1.0))
  }

  /**
   * The phase determines the height again whenever the material differs from
   * air, and the phase is linear in the height.
   */
  lemma {:induction false} HeightmapToPhaseRoundTrip(height: real, wavelength: real, refractiveIndex: real)
    requires wavelength != 0.0 && refractiveIndex != 1.0
    ensures PhaseToHeight(HeightmapToPhase(height, wavelength, refractiveIndex), wavelength, refractiveIndex) == height
  {
    var k := 2.0 * Pi;
    var e := refractiveIndex - 1.0;
    var p := height * (k / wavelength) * e;
    assert p * wavelength == height * k * e;
    assert (height * k * e) / (k * e) == height;
  }

  /** Doubling the relief doubles the phase; a flat relief has no phase. */
  lemma {:induction false} HeightmapToPhaseLinear(h1: real, h2: real, wavelength: real, refractiveIndex: real)
    requires wavelength != 0.0
    ensures HeightmapToPhase(h1 + h2, wavelength, refractiveIndex) ==
      HeightmapToPhase(h1, wavelength, refractiveIndex) + HeightmapToPhase(h2, wavelength, refractiveIndex)
    ensures HeightmapToPhase(0.0, wavelength, refractiveIndex) == 0.0
  {
    var k := (2.0 * Pi / wavelength) * (refractiveIndex - 1.0);
    assert HeightmapToPhase(h1 + h2, wavelength, refractiveIndex) == (h1 + h2) * k;
  }

  // ---------------------------------------------------------------------
  // f_number, sensor_distance, slope_range, aperture_pitch

  /** Python's true division on floats: `None` where it raises ZeroDivisionError. */
  function Divide(a: real, b: real): (r: Option<real>)
    ensures r.Some? <==> b != 0.0
    ensures r.Some? ==> r.value * b == a
  {
    if b == 0.0 then None else Some(a / b)
  }

  /** `f_number`: focal length over aperture diameter. */
  function FNumber(focalLength: real, apertureDiameter: real): Option<real>
  {
    Divide(focalLength, apertureDiameter)
  }

  /** `aperture_pitch`: aperture diameter over the number of aperture samples. */
  function AperturePitch(apertureDiameter: real, apertureSize: int): Option<real>
  {
    Divide(apertureDiameter, apertureSize as real)
  }

  /** The f-number times the diameter is the focal length; a zero diameter raises. */
  lemma {:induction false} FNumberMeaning(focalLength: real, apertureDiameter: real)
    ensures FNumber(focalLength, apertureDiameter).Some? <==> apertureDiameter != 0.0
    ensures FNumber(focalLength, apertureDiameter).Some? ==>
      FNumber(focalLength, apertureDiameter).value * apertureDiameter == focalLength
  {
  }

  /** The pitch times the number of samples spans the aperture; zero samples raise. */
  lemma {:induction false} AperturePitchMeaning(apertureDiameter: real, apertureSize: int)
    ensures AperturePitch(apertureDiameter, apertureSize).Some? <==> apertureSize != 0
    ensures AperturePitch(apertureDiameter, apertureSize).Some? ==>
      AperturePitch(apertureDiameter, apertureSize).value * apertureSize as real == apertureDiameter
  {
  }

  /**
   * `sensor_distance`: `1 / (1/f - 1/focal_depth)`, each of the three
   * divisions raising on a zero divisor.
   */
  function SensorDistance(focalLength: real, focalDepth: real): Option<real>
  {
    match Divide(1.0, focalLength)
    case None => None
    case Some(a) =>
      match Divide(1.0, focalDepth)
      case None => None
      case Some(b) => Divide(1.0, a - b)
  }

  /**
   * The sensor distance satisfies the thin-lens equation
   * `1/s + 1/focal_depth == 1/f`; it exists exactly when both lengths are
   * nonzero and differ; and for `0 < f < focal_depth` it lies beyond the
   * focal length.
   */
  lemma {:induction false} SensorDistanceThinLens(focalLength: real, focalDepth: real)
    ensures SensorDistance(focalLength, focalDepth).Some? <==>
      focalLength != 0.0 && focalDepth != 0.0 && focalLength != focalDepth
    ensures SensorDistance(focalLength, focalDepth).Some? ==>
      var s := SensorDistance(focalLength, focalDepth).value;
      s != 0.0 && 1.0 / s + 1.0 / focalDepth == 1.0 / focalLength
    ensures 0.0 < focalLength < focalDepth ==> SensorDistance(focalLength, focalDepth).value > focalLength
  {
    if focalLength != 0.0 && focalDepth != 0.0 {
      var a := 1.0 / focalLength;
      var b := 1.0 / focalDepth;
      assert a == b <==> focalLength == focalDepth by {
        if a == b {
          assert a * focalLength == 1.0 && b * focalDepth == 1.0;
          assert focalLength == 1.0 / a && focalDepth == 1.0 / b;
        }
      }
      if a != b {
        var s := 1.0 / (a - b);
        assert s * (a - b) == 1.0;
        assert 1.0 / s == a - b;
        if 0.0 < focalLength < focalDepth {
          DivideDecreasing(1.0, focalLength, focalDepth);
          assert 0.0 < b < a;
          assert 0.0 < a - b < a;
          DivideDecreasing(1.0, a - b, a);
          assert 1.0 / a == focalLength;
        }
      }
    }
  }

  /** `slope_range`: `2 (max - min) / (max + min)`. */
  function SlopeRange(minDepth: real, maxDepth: real): Option<real>
  {
    Divide(2.0 * (maxDepth - minDepth), maxDepth + minDepth)
  }

  /** For `0 < min <= max` the slope range lies in `[0, 2)`. */
  lemma {:induction false} SlopeRangeBounds(minDepth: real, maxDepth: real)
    requires 0.0 < minDepth <= maxDepth
    ensures SlopeRange(minDepth, maxDepth).Some?
    ensures 0.0 <= SlopeRange(minDepth, maxDepth).value < 2.0
  {
    var s := SlopeRange(minDepth, maxDepth).value;
    var t := maxDepth + minDepth;
    assert s * t == 2.0 * (maxDepth - minDepth);
    assert 2.0 * (maxDepth - minDepth) < 2.0 * t;
    if s < 0.0 {
      MulMonotone(t, s, 0.0);
      assert false;
    }
    if s >= 2.0 {
      MulMonotone(t, 2.0, s);
      assert false;
    }
  }
}

=== FILE: results.dfy ===
/** Failure-carrying results, standing in for the exceptions the modelled code raises. */
module Results {

  datatype Option<+T> = None | Some(value: T)

  datatype Result<+T, +E> = Ok(value: T) | Err(error: E)
}

=== FILE: tensor.dfy ===
/**
 * Dense real matrices as sequences of rows, and the sums over them that the
 * normalisation and roll properties are stated with.  Every two-dimensional
 * operation of the model acts on the last two axes of a tensor; a tensor with
 * leading axes is a sequence of such matrices.
 */
module Tensor {

  type Matrix = seq<seq<real>>

  /** `m` has `h` rows of `w` entries each. */
  ghost predicate IsRect(m: Matrix, h: nat, w: nat)
  {
    |m| == h && forall i :: 0 <= i < h ==> |m[i]| == w
  }

  /** The number of columns of a matrix, read from its first row as a tensor's shape would be. */
  function Width(m: Matrix): nat
  {
    if |m| == 0 then 0 else |m[0]|
  }

  ghost predicate Rect(m: Matrix)
  {
    IsRect(m, |m|, Width(m))
  }

  /** Two matrices of one shape, so that entrywise operations on them are defined. */
  ghost predicate SameShape(a: Matrix, b: Matrix)
  {
    |a| == |b| && forall i :: 0 <= i < |a| ==> |a[i]| == |b[i]|
  }

  function Zeros(h: nat, w: nat): (z: Matrix)
    ensures IsRect(z, h, w)
    ensures forall i, j :: 0 <= i < h && 0 <= j < w ==> z[i][j] == 0.0
  {
    seq(h, i => seq(w, j => 0.0))
  }

  function SumSeq(s: seq<real>): real
  {
    if |s| == 0 then 0.0 else SumSeq(s[..|s| - 1]) + s[|s| - 1]
  }

  /** The sum over both axes, as `x.sum(dim=(-2, -1))`. */
  function Sum(m: Matrix): real
  {
    if |m| == 0 then 0.0 else Sum(m[..|m| - 1]) + SumSeq(m[|m| - 1])
  }

  function ScaleRow(s: seq<real>, c: real): (r: seq<real>)
    ensures |r| == |s|
  {
    seq(|s|, j requires 0 <= j < |s| => s[j] * c)
  }

  /** Every entry multiplied by `c`, as `x * c` on a tensor. */
  function Scale(m: Matrix, c: real): (r: Matrix)
    ensures |r| == |m| && forall i :: 0 <= i < |m| ==> |r[i]| == |m[i]|
  {
    seq(|m|, i requires 0 <= i < |m| => ScaleRow(m[i], c))
  }

  function AddRow(a: seq<real>, b: seq<real>): (r: seq<real>)
    requires |a| == |b|
    ensures |r| == |a|
  {
    seq(|a|, j requires 0 <= j < |a| => a[j] + b[j])
  }

  /** The entrywise sum of two matrices of one shape. */
  function Add(a: Matrix, b: Matrix): (r: Matrix)
    requires SameShape(a, b)
    ensures |r| == |a| && forall i :: 0 <= i < |a| ==> |r[i]| == |a[i]|
  {
    seq(|a|, i requires 0 <= i < |a| => AddRow(a[i], b[i]))
  }

  /** The convex combination `e * a + (1 - e) * b` of two matrices of one shape. */
  function Mix(e: real, a: Matrix, b: Matrix): (r: Matrix)
    requires SameShape(a, b)
    ensures SameShape(r, a)
  {
    Add(Scale(a, e), Scale(b, 1.0 - e))
  }

  lemma {:induction false} SumSeqAppend(a: seq<real>, b: seq<real>)
    ensures SumSeq(a + b) == SumSeq(a) + SumSeq(b)
  {
    if |b| > 0 {
      assert (a + b)[..|a + b| - 1] == a + b[..|b| - 1];
      SumSeqAppend(a, b[..|b| - 1]);
    } else {
      assert a + b == a;
    }
  }

  lemma {:induction false} SumAppend(a: Matrix, b: Matrix)
    ensures Sum(a + b) == Sum(a) + Sum(b)
  {
    if |b| > 0 {
      assert (a + b)[..|a + b| - 1] == a + b[..|b| - 1];
      SumAppend(a, b[..|b| - 1]);
    } else {
      assert a + b == a;
    }
  }

  lemma {:induction false} SumSeqScale(s: seq<real>, c: real)
    ensures SumSeq(ScaleRow(s, c)) == SumSeq(s) * c
  {
    if |s| > 0 {
      var n := |s| - 1;
      forall j | 0 <= j < n ensures ScaleRow(s, c)[..n][j] == ScaleRow(s[..n], c)[j] {
        assert s[..n][j] == s[j];
      }
      assert ScaleRow(s, c)[..n] == ScaleRow(s[..n], c);
      SumSeqScale(s[..n], c);
    }
  }

  /** Scaling every entry scales the sum. */
  lemma {:induction false} SumScale(m: Matrix, c: real)
    ensures Sum(Scale(m, c)) == Sum(m) * c
  {
    RowSumsScale(m, c);
    SumRowSums(Scale(m, c));
    SumRowSums(m);
    SumSeqScale(RowSums(m), c);
  }

  lemma {:induction false} RowSumsScale(m: Matrix, c: real)
    ensures RowSums(Scale(m, c)) == ScaleRow(RowSums(m), c)
  {
    forall i | 0 <= i < |m| ensures RowSums(Scale(m, c))[i] == ScaleRow(RowSums(m), c)[i] {
      SumSeqScale(m[i], c);
    }
  }

  /** The sum of every row, one entry per row. */
  function RowSums(m: Matrix): (r: seq<real>)
    ensures |r| == |m|
  {
    seq(|m|, i requires 0 <= i < |m| => SumSeq(m[i]))
  }

  /** The total is the sum of the row sums. */
  lemma {:induction false} SumRowSums(m: Matrix)
    ensures Sum(m) == SumSeq(RowSums(m))
  {
    if |m| > 0 {
      var n := |m| - 1;
      assert RowSums(m)[..n] == RowSums(m[..n]);
      SumRowSums(m[..n]);
    }
  }

  lemma {:induction false} SumSeqAdd(a: seq<real>, b: seq<real>)
    requires |a| == |b|
    ensures SumSeq(AddRow(a, b)) == SumSeq(a) + SumSeq(b)
  {
    if |a| > 0 {
      var n := |a| - 1;
      forall j | 0 <= j < n ensures AddRow(a, b)[..n][j] == AddRow(a[..n], b[..n])[j] {
        assert a[..n][j] == a[j] && b[..n][j] == b[j];
      }
      assert AddRow(a, b)[..n] == AddRow(a[..n], b[..n]);
      SumSeqAdd(a[..n], b[..n]);
    }
  }

  lemma {:induction false} AddPrefix(a: Matrix, b: Matrix, n: nat)
    requires SameShape(a, b) && n <= |a|
    ensures SameShape(a[..n], b[..n])
    ensures Add(a, b)[..n] == Add(a[..n], b[..n])
  {
  }

  /** The sum of an entrywise sum is the sum of the sums. */
  lemma {:induction false} SumAdd(a: Matrix, b: Matrix)
    requires SameShape(a, b)
    ensures Sum(Add(a, b)) == Sum(a) + Sum(b)
  {
    if |a| > 0 {
      var n := |a| - 1;
      AddPrefix(a, b, n);
      SumAdd(a[..n], b[..n]);
      SumSeqAdd(a[n], b[n]);
    }
  }

  /** The sum of a weighted combination of two matrices is the same combination of their sums. */
  lemma {:induction false} SumCombine(e: real, f: real, a: Matrix, b: Matrix)
    requires SameShape(a, b)
    ensures Sum(Add(Scale(a, e), Scale(b, f))) == Sum(a) * e + Sum(b) * f
  {
    SumAdd(Scale(a, e), Scale(b, f));
    SumScale(a, e);
    SumScale(b, f);
  }

  /** Matrices whose rows have pairwise equal sums have equal sums. */
  lemma {:induction false} SumByRows(a: Matrix, b: Matrix)
    requires |a| == |b|
    requires forall i :: 0 <= i < |a| ==> SumSeq(a[i]) == SumSeq(b[i])
    ensures Sum(a) == Sum(b)
  {
    if |a| > 0 {
      SumByRows(a[..|a| - 1], b[..|b| - 1]);
    }
  }

  /** The entrywise difference of two matrices of one shape. */
  function Sub(a: Matrix, b: Matrix): (r: Matrix)
    requires SameShape(a, b)
    ensures SameShape(r, a)
  {
    seq(|a|, i requires 0 <= i < |a| => seq(|a[i]|, j requires 0 <= j < |a[i]| => a[i][j] - b[i][j]))
  }

  /** The inner product of two vectors of one length. */
  function Dot(u: seq<real>, v: seq<real>): real
    requires |u| == |v|
  {
    if |u| == 0 then 0.0 else Dot(u[..|u| - 1], v[..|v| - 1]) + u[|u| - 1] * v[|v| - 1]
  }

  /** Column `j` of a matrix whose rows all have more than `j` entries. */
  function Column(m: Matrix, j: nat): (c: seq<real>)
    requires forall i :: 0 <= i < |m| ==> j < |m[i]|
    ensures |c| == |m|
  {
    seq(|m|, i requires 0 <= i < |m| => m[i][j])
  }

  /** The matrix product `torch.matmul(a, b)` of an `n x k` and a `k x p` matrix. */
  function MatMul(a: Matrix, b: Matrix, k: nat, p: nat): (r: Matrix)
    requires forall i :: 0 <= i < |a| ==> |a[i]| == k
    requires IsRect(b, k, p)
    ensures IsRect(r, |a|, p)
  {
    seq(|a|, i requires 0 <= i < |a| => seq(p, j requires 0 <= j < p => Dot(a[i], Column(b, j))))
  }

  /** Swapping the two axes of a rectangular matrix, as `x.transpose(-2, -1)`. */
  function Transpose(m: Matrix): (r: Matrix)
    requires Rect(m)
    ensures IsRect(r, Width(m), |m|)
  {
    seq(Width(m), j requires 0 <= j < Width(m) => seq(|m|, i requires 0 <= i < |m| => m[i][j]))
  }

  /**
   * `torch.linspace(a, b, n)`: `n` evenly spaced samples from `a` to `b`
   * inclusive, the single sample `a` when `n == 1`.
   */
  function Linspace(a: real, b: real, n: nat): (r: seq<real>)
    ensures |r| == n
  {
    seq(n, i => if n == 1 then a else Lerp(a, b, (i as real) / ((n - 1) as real)))
  }

  /** The point a fraction `t` of the way from `a` to `b`. */
  function Lerp(a: real, b: real, t: real): real
  {
    a + (b - a) * t
  }

  lemma {:induction false} LerpMonotone(a: real, b: real, t1: real, t2: real)
    requires a <= b && 0.0 <= t1 <= t2 <= 1.0
    ensures a <= Lerp(a, b, t1) <= Lerp(a, b, t2) <= b
  {
    MulMonotone(b - a, 0.0, t1);
    MulMonotone(b - a, t1, t2);
    MulMonotone(b - a, t2, 1.0);
  }

  /** The first and the last sample are the two end points. */
  lemma {:induction false} LinspaceEnds(a: real, b: real, n: nat)
    requires n >= 1
    ensures Linspace(a, b, n)[0] == a
    ensures n >= 2 ==> Linspace(a, b, n)[n - 1] == b
  {
    if n > 1 {
      var t := ((n - 1) as real) / ((n - 1) as real);
      SelfDivide((n - 1) as real);
      assert Linspace(a, b, n)[n - 1] == Lerp(a, b, t);
    }
  }

  /** Samples ascend with their index and stay between the end points when `a <= b`. */
  lemma {:induction false} LinspaceMonotone(a: real, b: real, n: nat, i: nat, j: nat)
    requires a <= b && i <= j < n
    ensures a <= Linspace(a, b, n)[i] <= Linspace(a, b, n)[j] <= b
  {
    var r := Linspace(a, b, n);
    if n > 1 {
      var d := (n - 1) as real;
      var ti, tj := (i as real) / d, (j as real) / d;
      DivMonotone(0.0, i as real, d);
      DivMonotone(i as real, j as real, d);
      DivMonotone(j as real, d, d);
      SelfDivide(d);
      assert 0.0 / d == 0.0;
      LerpMonotone(a, b, ti, tj);
      assert r[i] == Lerp(a, b, ti);
      assert r[j] == Lerp(a, b, tj);
    } else {
      assert r[i] == a && r[j] == a;
    }
  }

  lemma {:induction false} SelfDivide(d: real)
    requires d != 0.0
    ensures d / d == 1.0
  {
    var q := d / d;
    assert q * d == d;
    assert (q - 1.0) * d == 0.0;
  }

  lemma {:induction false} DivMonotone(x: real, y: real, d: real)
    requires x <= y && d > 0.0
    ensures x / d <= y / d
  {
    assert y / d - x / d == (y - x) / d;
  }

  lemma {:induction false} AddFractions(x: real, y: real, d: real)
    requires d != 0.0
    ensures x / d + y / d == (x + y) / d
  {
  }

  lemma {:induction false} MulMonotone(c: real, x: real, y: real)
    requires 0.0 <= c && x <= y
    ensures c * x <= c * y
  {
  }

  /**
   * A linspace over `[-c, c]` with at least two samples is symmetric about
   * zero: `x_k == -x_(n-1-k)`.  A single sample is `-c` alone.
   */
  lemma {:induction false} LinspaceSymmetric(c: real, n: nat, k: nat)
    requires 2 <= n && k < n
    ensures Linspace(-c, c, n)[k] == -Linspace(-c, c, n)[n - 1 - k]
  {
    var d := (n - 1) as real;
    var t, u := (k as real) / d, ((n - 1 - k) as real) / d;
    AddFractions(k as real, (n - 1 - k) as real, d);
    assert (k as real) + ((n - 1 - k) as real) == d;
    SelfDivide(d);
    assert t + u == d / d == 1.0;
    assert (c - -c) * t == 2.0 * c - (c - -c) * u;
    assert Linspace(-c, c, n)[k] == Lerp(-c, c, t) == -c + (c - -c) * t;
    assert Linspace(-c, c, n)[n - 1 - k] == Lerp(-c, c, u) == -c + (c - -c) * u;
  }

  /** Transposing twice returns a rectangular matrix whose rows are not empty. */
  lemma {:induction false} TransposeTwice(m: Matrix)
    requires Rect(m) && (|m| == 0 || Width(m) > 0)
    ensures Rect(Transpose(m)) && Transpose(Transpose(m)) == m
  {
    var t := Transpose(m);
    if |m| > 0 {
      assert Width(t) == |m|;
      var tt := Transpose(t);
      assert |tt| == |m|;
      forall i | 0 <= i < |m| ensures tt[i] == m[i] {
        assert |tt[i]| == |m[i]|;
      }
    }
  }
}

=== FILE: utils.dfy ===
/**
 * The array utilities of `utils/__init__.py`: boundary cropping, symmetric
 * padding or centre cropping, the RGGB Bayer mosaic, the inverse-perspective
 * depth mapping and its inverse, and complex matrices held as real and
 * imaginary parts.  Tensors with leading batch or channel axes are modelled
 * one matrix (the last two axes) at a time.
 */
module Utils {
  import opened Results
  import opened Tensor

  // ---------------------------------------------------------------------
  // crop_boundary

  /**
   * The Python slice `s[w:-w]` for `w > 0`: both ends lose `w` entries, and
   * the slice is empty once they meet.
   */
  function Trim<T>(s: seq<T>, w: nat): (r: seq<T>)
    requires w > 0
  {
    if 2 * w < |s| then s[w..|s| - w] else []
  }

  /** `x[..., w:-w, w:-w]`, with `w == 0` special-cased because `x[0:-0]` would be empty. */
  function CropBoundary(m: Matrix, w: nat): (r: Matrix)
  {
    if w == 0 then m
    else
      var rows := Trim(m, w);
      seq(|rows|, i requires 0 <= i < |rows| => Trim(rows[i], w))
  }

  /**
   * With `w == 0` nothing changes; otherwise `w` rows and `w` columns go from
   * each side, so entry `(i, j)` of the result is entry `(i + w, j + w)`.
   */
  lemma {:induction false} CropBoundaryShape(m: Matrix, h: nat, wd: nat, w: nat)
    requires IsRect(m, h, wd) && 2 * w < h && 2 * w < wd
    ensures w == 0 ==> CropBoundary(m, w) == m
    ensures IsRect(CropBoundary(m, w), h - 2 * w, wd - 2 * w)
    ensures forall i, j :: 0 <= i < h - 2 * w && 0 <= j < wd - 2 * w ==>
      CropBoundary(m, w)[i][j] == m[i + w][j + w]
  {
  }

  /** Row `i` of a cropped matrix is the middle of row `i + w`. */
  lemma {:induction false} CropBoundaryRow(m: Matrix, h: nat, wd: nat, w: nat, i: nat)
    requires IsRect(m, h, wd) && 2 * w < h && 2 * w < wd && i < h - 2 * w
    ensures |CropBoundary(m, w)| == h - 2 * w
    ensures CropBoundary(m, w)[i] == m[i + w][w..wd - w]
  {
  }

  /** A boundary of `w >= 1` that meets itself in either axis leaves nothing. */
  lemma {:induction false} CropBoundaryEmpty(m: Matrix, h: nat, wd: nat, w: nat)
    requires IsRect(m, h, wd) && w > 0 && (2 * w >= h || 2 * w >= wd)
    ensures forall i :: 0 <= i < |CropBoundary(m, w)| ==> CropBoundary(m, w)[i] == []
    ensures 2 * w >= h ==> CropBoundary(m, w) == []
  {
  }

  /** Two matrices of one rectangular shape with equal entries are equal. */
  lemma {:induction false} EqualByEntries(l: Matrix, r: Matrix, h: nat, w: nat)
    requires IsRect(l, h, w) && IsRect(r, h, w)
    requires forall i, j :: 0 <= i < h && 0 <= j < w ==> l[i][j] == r[i][j]
    ensures l == r
  {
    forall i | 0 <= i < h ensures l[i] == r[i] {
      assert |l[i]| == |r[i]|;
    }
  }

  // ---------------------------------------------------------------------
  // pad_or_crop

  /** `(t - n) // 2`: the pad on each side of an axis of extent `n` resized towards `t`; negative for a crop. */
  function PadAmount(n: nat, t: nat): int
  {
    (t - n) / 2
  }

  /** The extent of an axis after padding it by `PadAmount` on both sides. */
  function PaddedExtent(n: nat, t: nat): int
  {
    n + 2 * PadAmount(n, t)
  }

  /** The extent reaches the target when the difference is even and falls one short when it is odd. */
  lemma {:induction false} PaddedExtentValue(n: nat, t: nat)
    ensures (t - n) % 2 == 0 ==> PaddedExtent(n, t) == t
    ensures (t - n) % 2 == 1 ==> PaddedExtent(n, t) == t - 1
    ensures t >= 1 ==> PaddedExtent(n, t) >= 0
  {
  }

  /** An even difference pads by exactly half of it one way and crops by the same amount back. */
  lemma {:induction false} PadAmountEven(n: nat, t: nat)
    requires n <= t && (t - n) % 2 == 0
    ensures 2 * PadAmount(n, t) == t - n && PadAmount(t, n) == -PadAmount(n, t)
    ensures PaddedExtent(n, t) == t && PaddedExtent(t, n) == n
  {
  }

  /**
   * Constant padding by `p` on both ends, as `F.pad(..., value=0)` does on
   * one axis; a negative `p` removes `-p` entries from each end instead.
   */
  function PadAxis<T>(s: seq<T>, p: int, zero: T): (r: seq<T>)
    requires |s| + 2 * p >= 0
    ensures |r| == |s| + 2 * p
  {
    seq(|s| + 2 * p, i requires 0 <= i < |s| + 2 * p => if 0 <= i - p < |s| then s[i - p] else zero)
  }

  /**
   * `pad_or_crop(x, target)`: `None` returns the matrix itself; a target
   * `(th, tw)` pads (or, with a negative amount, crops) both axes
   * symmetrically by the floor of half the difference.
   */
  function PadOrCrop(m: Matrix, target: Option<(nat, nat)>): (r: Matrix)
    requires Rect(m)
    requires target.Some? ==> target.value.0 >= 1 && target.value.1 >= 1
  {
    match target
    case None => m
    case Some((th, tw)) =>
      var ph, pw := PadAmount(|m|, th), PadAmount(Width(m), tw);
      PaddedExtentValue(|m|, th);
      PaddedExtentValue(Width(m), tw);
      var rows := seq(|m|, i requires 0 <= i < |m| => PadAxis(m[i], pw, 0.0));
      PadAxis(rows, ph, seq(Width(m) + 2 * pw, j => 0.0))
  }

  /**
   * The resized matrix has extent `PaddedExtent` on both axes; its entry
   * `(i, j)` is the original entry `(i - ph, j - pw)` where that exists and
   * zero elsewhere.  For a pad this places the original at offset
   * `(ph, pw)`; for a crop it is the centred sub-matrix.
   */
  lemma {:induction false} PadOrCropEntries(m: Matrix, h: nat, w: nat, th: nat, tw: nat)
    requires IsRect(m, h, w) && h >= 1 && th >= 1 && tw >= 1
    ensures IsRect(PadOrCrop(m, Some((th, tw))), PaddedExtent(h, th), PaddedExtent(w, tw))
    ensures forall i, j :: 0 <= i < PaddedExtent(h, th) && 0 <= j < PaddedExtent(w, tw) ==>
      PadOrCrop(m, Some((th, tw)))[i][j] ==
        if 0 <= i - PadAmount(h, th) < h && 0 <= j - PadAmount(w, tw) < w
        then m[i - PadAmount(h, th)][j - PadAmount(w, tw)] else 0.0
  {
    PadOrCropDims(m, h, w, th, tw);
    forall i, j | 0 <= i < PaddedExtent(h, th) && 0 <= j < PaddedExtent(w, tw)
      ensures PadOrCrop(m, Some((th, tw)))[i][j] ==
        if 0 <= i - PadAmount(h, th) < h && 0 <= j - PadAmount(w, tw) < w
        then m[i - PadAmount(h, th)][j - PadAmount(w, tw)] else 0.0
    {
      PadOrCropAt(m, h, w, th, tw, i, j);
    }
  }

  lemma {:induction false} PadOrCropDims(m: Matrix, h: nat, w: nat, th: nat, tw: nat)
    requires IsRect(m, h, w) && h >= 1 && th >= 1 && tw >= 1
    ensures IsRect(PadOrCrop(m, Some((th, tw))), PaddedExtent(h, th), PaddedExtent(w, tw))
  {
    assert Width(m) == w by { assert |m[0]| == w; }
    PaddedExtentValue(h, th);
    PaddedExtentValue(w, tw);
  }

  lemma {:induction false} PadOrCropAt(m: Matrix, h: nat, w: nat, th: nat, tw: nat, i: int, j: int)
    requires IsRect(m, h, w) && h >= 1 && th >= 1 && tw >= 1
    requires 0 <= i < PaddedExtent(h, th) && 0 <= j < PaddedExtent(w, tw)
    ensures IsRect(PadOrCrop(m, Some((th, tw))), PaddedExtent(h, th), PaddedExtent(w, tw))
    ensures PadOrCrop(m, Some((th, tw)))[i][j] ==
      if 0 <= i - PadAmount(h, th) < h && 0 <= j - PadAmount(w, tw) < w
      then m[i - PadAmount(h, th)][j - PadAmount(w, tw)] else 0.0
  {
    PadOrCropDims(m, h, w, th, tw);
    assert Width(m) == w by { assert |m[0]| == w; }
    PaddedExtentValue(h, th);
    PaddedExtentValue(w, tw);
    var ph, pw := PadAmount(h, th), PadAmount(w, tw);
    var rows := seq(h, i requires 0 <= i < h => PadAxis(m[i], pw, 0.0));
    var r := PadOrCrop(m, Some((th, tw)));
    assert r == PadAxis(rows, ph, seq(w + 2 * pw, j => 0.0));
    if 0 <= i - ph < h {
      assert r[i] == PadAxis(m[i - ph], pw, 0.0);
    }
  }

  /** Any rectangular matrix, empty or not, is resized to `PaddedExtent` on both axes. */
  lemma {:induction false} PadOrCropShape(m: Matrix, th: nat, tw: nat)
    requires Rect(m) && th >= 1 && tw >= 1
    ensures IsRect(PadOrCrop(m, Some((th, tw))), PaddedExtent(|m|, th), PaddedExtent(Width(m), tw))
    ensures Rect(PadOrCrop(m, Some((th, tw))))
  {
    var r := PadOrCrop(m, Some((th, tw)));
    if |m| >= 1 {
      PadOrCropEntries(m, |m|, Width(m), th, tw);
    } else {
      PaddedExtentValue(0, th);
      PaddedExtentValue(0, tw);
      assert forall i :: 0 <= i < |r| ==> r[i] == seq(2 * PadAmount(0, tw), j => 0.0);
    }
    if |r| >= 1 {
      assert Width(r) == |r[0]|;
    }
  }

  /** Resizing keeps a matrix rectangular. */
  lemma {:induction false} PadOrCropRect(m: Matrix, target: Option<(nat, nat)>)
    requires Rect(m)
    requires target.Some? ==> target.value.0 >= 1 && target.value.1 >= 1
    ensures Rect(PadOrCrop(m, target))
  {
    if target.Some? {
      PadOrCropShape(m, target.value.0, target.value.1);
    }
  }

  /**
   * Resizing twice to the same target is resizing once: the first resize
   * leaves each axis at the target or one short of it, and the second then
   * pads by `0 // 2` or `1 // 2`, both zero.
   */
  lemma {:induction false} PadOrCropTwice(m: Matrix, target: Option<(nat, nat)>)
    requires Rect(m)
    requires target.Some? ==> target.value.0 >= 1 && target.value.1 >= 1
    ensures Rect(PadOrCrop(m, target))
    ensures PadOrCrop(PadOrCrop(m, target), target) == PadOrCrop(m, target)
  {
    if target.Some? {
      var th, tw := target.value.0, target.value.1;
      PadOrCropShape(m, th, tw);
      var r := PadOrCrop(m, target);
      var h', w' := PaddedExtent(|m|, th), PaddedExtent(Width(m), tw);
      PaddedExtentValue(|m|, th);
      PaddedExtentValue(Width(m), tw);
      assert PadAmount(h', th) == 0 && PadAmount(w', tw) == 0;
      if h' >= 1 {
        PadOrCropEntries(r, h', w', th, tw);
        var rr := PadOrCrop(r, target);
        forall i | 0 <= i < h' ensures rr[i] == r[i] {
          assert |rr[i]| == |r[i]|;
        }
      }
    }
  }

  /** Resizing to no target, or to the matrix's own size, changes nothing. */
  lemma {:induction false} PadOrCropIdentity(m: Matrix, h: nat, w: nat)
    requires IsRect(m, h, w) && h >= 1 && w >= 1
    ensures PadOrCrop(m, None) == m
    ensures PadOrCrop(m, Some((h, w))) == m
  {
    PadOrCropEntries(m, h, w, h, w);
    var r := PadOrCrop(m, Some((h, w)));
    forall i | 0 <= i < h ensures r[i] == m[i] {
      assert |r[i]| == |m[i]|;
    }
  }

  /**
   * Padding to a target that exceeds each extent by an even amount, then
   * resizing back to the original size, returns the original: the crop
   * removes exactly the cells the pad added.
   */
  lemma {:induction false} PadThenCrop(m: Matrix, h: nat, w: nat, th: nat, tw: nat)
    requires IsRect(m, h, w) && h >= 1 && w >= 1
    requires th >= h && tw >= w && (th - h) % 2 == 0 && (tw - w) % 2 == 0
    ensures PadOrCrop(PadOrCrop(m, Some((th, tw))), Some((h, w))) == m
  {
    PadThenCropShape(m, h, w, th, tw);
    var r := PadOrCrop(PadOrCrop(m, Some((th, tw))), Some((h, w)));
    forall i, j | 0 <= i < h && 0 <= j < w ensures r[i][j] == m[i][j] {
      PadThenCropAt(m, h, w, th, tw, i, j);
    }
    EqualByEntries(r, m, h, w);
  }

  lemma {:induction false} PadThenCropShape(m: Matrix, h: nat, w: nat, th: nat, tw: nat)
    requires IsRect(m, h, w) && h >= 1 && w >= 1
    requires th >= h && tw >= w && (th - h) % 2 == 0 && (tw - w) % 2 == 0
    ensures IsRect(PadOrCrop(m, Some((th, tw))), th, tw) && Rect(PadOrCrop(m, Some((th, tw))))
    ensures IsRect(PadOrCrop(PadOrCrop(m, Some((th, tw))), Some((h, w))), h, w)
  {
    PadAmountEven(h, th);
    PadAmountEven(w, tw);
    PadOrCropDims(m, h, w, th, tw);
    var p := PadOrCrop(m, Some((th, tw)));
    assert Width(p) == tw by { assert |p[0]| == tw; }
    PadOrCropDims(p, th, tw, h, w);
  }

  lemma {:induction false} PadThenCropAt(m: Matrix, h: nat, w: nat, th: nat, tw: nat, i: nat, j: nat)
    requires IsRect(m, h, w) && h >= 1 && w >= 1 && i < h && j < w
    requires th >= h && tw >= w && (th - h) % 2 == 0 && (tw - w) % 2 == 0
    requires IsRect(PadOrCrop(m, Some((th, tw))), th, tw) && Rect(PadOrCrop(m, Some((th, tw))))
    requires IsRect(PadOrCrop(PadOrCrop(m, Some((th, tw))), Some((h, w))), h, w)
    ensures PadOrCrop(PadOrCrop(m, Some((th, tw))), Some((h, w)))[i][j] == m[i][j]
  {
    PadAmountEven(h, th);
    PadAmountEven(w, tw);
    var ph, pw := PadAmount(h, th), PadAmount(w, tw);
    PadOrCropAt(m, h, w, th, tw, i + ph, j + pw);
    PadOrCropAt(PadOrCrop(m, Some((th, tw))), th, tw, h, w, i, j);
  }

  /** Row `i` of a centre crop by `w` on each side is the middle of row `i + w`. */
  lemma {:induction false} PadOrCropCropRow(m: Matrix, h: nat, wd: nat, w: nat, i: nat)
    requires IsRect(m, h, wd) && 2 * w < h && 2 * w < wd && i < h - 2 * w
    ensures |PadOrCrop(m, Some((h - 2 * w, wd - 2 * w)))| == h - 2 * w
    ensures PadOrCrop(m, Some((h - 2 * w, wd - 2 * w)))[i] == m[i + w][w..wd - w]
  {
    var th, tw := h - 2 * w, wd - 2 * w;
    CropAmount(h, w);
    CropAmount(wd, w);
    PadOrCropAt(m, h, wd, th, tw, i, 0);
    var row := PadOrCrop(m, Some((th, tw)))[i];
    forall j | 0 <= j < tw ensures row[j] == m[i + w][w..wd - w][j] {
      PadOrCropAt(m, h, wd, th, tw, i, j);
    }
  }

  /** Resizing an axis to `n - 2 * w` is a crop by `w` on each side. */
  lemma {:induction false} CropAmount(n: nat, w: nat)
    requires 2 * w < n
    ensures PadAmount(n, n - 2 * w) == -(w as int)
    ensures PaddedExtent(n, n - 2 * w) == n - 2 * w
  {
  }

  /**
   * Cropping to the size `crop_boundary` leaves is `crop_boundary`: both
   * take the centred sub-matrix.
   */
  lemma {:induction false} PadOrCropIsCropBoundary(m: Matrix, h: nat, wd: nat, w: nat)
    requires IsRect(m, h, wd) && 2 * w < h && 2 * w < wd
    ensures PadOrCrop(m, Some((h - 2 * w, wd - 2 * w))) == CropBoundary(m, w)
  {
    var l, r := PadOrCrop(m, Some((h - 2 * w, wd - 2 * w))), CropBoundary(m, w);
    PadOrCropCropRow(m, h, wd, w, 0);
    CropBoundaryRow(m, h, wd, w, 0);
    forall i: nat | i < h - 2 * w ensures l[i] == r[i] {
      PadOrCropCropRow(m, h, wd, w, i);
      CropBoundaryRow(m, h, wd, w, i);
    }
  }

  /** A non-negative pad is `p` fill values, the sequence, and `p` fill values again. */
  lemma {:induction false} PadAxisSplit<T>(s: seq<T>, p: nat, zero: T)
    ensures PadAxis(s, p, zero) == seq(p, _ => zero) + s + seq(p, _ => zero)
  {
    var l, r := PadAxis(s, p, zero), seq(p, _ => zero) + s + seq(p, _ => zero);
    forall i | 0 <= i < |l| ensures l[i] == r[i] {
      if i < p {
      } else if i < p + |s| {
      } else {
      }
    }
  }

  lemma {:induction false} SumSeqZeros(n: nat)
    ensures SumSeq(seq(n, _ => 0.0)) == 0.0
  {
    if n > 0 {
      assert seq(n, _ => 0.0)[..n - 1] == seq(n - 1, _ => 0.0);
      SumSeqZeros(n - 1);
    }
  }

  lemma {:induction false} SumZeroRows(n: nat, row: seq<real>)
    requires SumSeq(row) == 0.0
    ensures Sum(seq(n, _ => row)) == 0.0
  {
    if n > 0 {
      assert seq(n, _ => row)[..n - 1] == seq(n - 1, _ => row);
      SumZeroRows(n - 1, row);
    }
  }

  lemma {:induction false} SumSeqPad(s: seq<real>, p: nat)
    ensures SumSeq(PadAxis(s, p, 0.0)) == SumSeq(s)
  {
    PadAxisSplit(s, p, 0.0);
    SumSeqAppend(seq(p, _ => 0.0) + s, seq(p, _ => 0.0));
    SumSeqAppend(seq(p, _ => 0.0), s);
    SumSeqZeros(p);
  }

  /** Padding adds only zeros, so the sum of the matrix is unchanged. */
  lemma {:induction false} PadOrCropSumPad(m: Matrix, h: nat, w: nat, th: nat, tw: nat)
    requires IsRect(m, h, w) && h >= 1 && w >= 1 && th >= h && tw >= w
    ensures Sum(PadOrCrop(m, Some((th, tw)))) == Sum(m)
  {
    assert Width(m) == w by { assert |m[0]| == w; }
    var ph, pw := PadAmount(h, th), PadAmount(w, tw);
    var rows := seq(h, i requires 0 <= i < h => PadAxis(m[i], pw, 0.0));
    var zr := seq(w + 2 * pw, j => 0.0);
    assert PadOrCrop(m, Some((th, tw))) == PadAxis(rows, ph, zr);
    PadAxisSplit(rows, ph, zr);
    SumAppend(seq(ph, _ => zr) + rows, seq(ph, _ => zr));
    SumAppend(seq(ph, _ => zr), rows);
    SumSeqZeros(w + 2 * pw);
    assert zr == seq(w + 2 * pw, _ => 0.0);
    SumZeroRows(ph, zr);
    forall i | 0 <= i < h ensures SumSeq(rows[i]) == SumSeq(m[i]) {
      SumSeqPad(m[i], pw);
    }
    SumByRows(rows, m);
  }

  // ---------------------------------------------------------------------
  // to_bayer

  /**
   * The colour channel the RGGB mosaic keeps at pixel `(i, j)`: red (0) where
   * both indices are even, blue (2) where both are odd, green (1) elsewhere.
   */
  function BayerChannel(i: nat, j: nat): (c: nat)
    ensures c < 3
  {
    if i % 2 == 0 && j % 2 == 0 then 0 else if i % 2 == 1 && j % 2 == 1 then 2 else 1
  }

  /** Every 2 x 2 block starting at even indices reads R G / G B. */
  lemma {:induction false} BayerBlock(i: nat, j: nat)
    requires i % 2 == 0 && j % 2 == 0
    ensures BayerChannel(i, j) == 0 && BayerChannel(i, j + 1) == 1
    ensures BayerChannel(i + 1, j) == 1 && BayerChannel(i + 1, j + 1) == 2
  {
  }

  /**
   * `mask[c, i0::2, j0::2] = 1`: sets channel `c` of `mask` to one on the
   * pixels whose row has parity `i0` and whose column has parity `j0`.
   */
  method FillStrided(mask: array3<real>, c: nat, i0: nat, j0: nat)
    requires c < mask.Length0 && i0 < 2 && j0 < 2
    modifies mask
    ensures forall k, i, j :: 0 <= k < mask.Length0 && 0 <= i < mask.Length1 && 0 <= j < mask.Length2 ==>
      mask[k, i, j] == if k == c && i % 2 == i0 && j % 2 == j0 then 1.0 else old(mask[k, i, j])
  {
    var i := i0;
    while i < mask.Length1
      invariant i % 2 == i0 && i0 <= i
      invariant forall k, i', j :: 0 <= k < mask.Length0 && 0 <= i' < mask.Length1 && 0 <= j < mask.Length2 ==>
        mask[k, i', j] == if k == c && i' < i && i' % 2 == i0 && j % 2 == j0 then 1.0 else old(mask[k, i', j])
    {
      var j := j0;
      while j < mask.Length2
        invariant j % 2 == j0 && j0 <= j
        invariant forall k, i', j' :: 0 <= k < mask.Length0 && 0 <= i' < mask.Length1 && 0 <= j' < mask.Length2 ==>
          mask[k, i', j'] ==
            if k == c && (i' < i || (i' == i && j' < j)) && i' % 2 == i0 && j' % 2 == j0 then 1.0 else old(mask[k, i', j'])
      {
        mask[c, i, j] := 1.0;
        j := j + 2;
      }
      i := i + 2;
    }
  }

  /** `(x * mask).sum(dim=1)` at pixel `(i, j)`, over the first `k` channels. */
  function MaskedSum(x: seq<Matrix>, mask: array3<real>, i: nat, j: nat, k: nat): real
    requires k <= |x| && k <= mask.Length0 && i < mask.Length1 && j < mask.Length2
    requires forall c :: 0 <= c < k ==> i < |x[c]| && j < |x[c][i]|
    reads mask
  {
    if k == 0 then 0.0 else MaskedSum(x, mask, i, j, k - 1) + x[k - 1][i][j] * mask[k - 1, i, j]
  }

  /** A mask that is one on channel `ch` alone selects that channel's value. */
  lemma {:induction false} MaskedSumSelects(x: seq<Matrix>, mask: array3<real>, i: nat, j: nat, k: nat, ch: nat)
    requires k <= |x| && k <= mask.Length0 && i < mask.Length1 && j < mask.Length2
    requires forall c :: 0 <= c < k ==> i < |x[c]| && j < |x[c][i]|
    requires forall c :: 0 <= c < k ==> mask[c, i, j] == if c == ch then 1.0 else 0.0
    ensures MaskedSum(x, mask, i, j, k) == if ch < k then x[ch][i][j] else 0.0
  {
    if k > 0 {
      MaskedSumSelects(x, mask, i, j, k - 1, ch);
    }
  }

  /**
   * `to_bayer(x)` for one image of `|x| >= 3` channels: a zero mask gets
   * ones on the R, B and the two G sub-lattices, and the masked channels are
   * summed into one.  Each output pixel is the input's value in the channel
   * the RGGB pattern assigns to that pixel.
   */
  method ToBayer(x: seq<Matrix>, h: nat, w: nat) returns (bayer: Matrix)
    requires |x| >= 3
    requires forall c :: 0 <= c < |x| ==> |x[c]| == h
    requires forall c, i :: 0 <= c < |x| && 0 <= i < h ==> |x[c][i]| == w
    ensures IsRect(bayer, h, w)
    ensures forall i, j :: 0 <= i < h && 0 <= j < w ==> bayer[i][j] == x[BayerChannel(i, j)][i][j]
  {
    var mask := new real[|x|, h, w]((c, i, j) => 0.0);
    FillStrided(mask, 0, 0, 0);
    FillStrided(mask, 2, 1, 1);
    FillStrided(mask, 1, 1, 0);
    FillStrided(mask, 1, 0, 1);
    assert forall c, i, j :: 0 <= c < |x| && 0 <= i < h && 0 <= j < w ==>
      mask[c, i, j] == if c == BayerChannel(i, j) then 1.0 else 0.0;
    bayer := seq(h, i requires 0 <= i < h reads mask =>
      seq(w, j requires 0 <= j < w reads mask => MaskedSum(x, mask, i, j, |x|)));
    forall i, j | 0 <= i < h && 0 <= j < w ensures bayer[i][j] == x[BayerChannel(i, j)][i][j] {
      MaskedSumSelects(x, mask, i, j, |x|, BayerChannel(i, j));
    }
  }

  // ---------------------------------------------------------------------
  // ips_to_metric / metric_to_ips

  /** The denominator `max - (max - min) * d` of the inverse-perspective mapping. */
  function IpsDenominator(d: real, minDepth: real, maxDepth: real): real
  {
    maxDepth - (maxDepth - minDepth) * d
  }

  /** `ips_to_metric`: the depth at inverse-perspective coordinate `d`, `max * min / (max - (max - min) * d)`. */
  function IpsToMetric(d: real, minDepth: real, maxDepth: real): real
    requires IpsDenominator(d, minDepth, maxDepth) != 0.0
  {
    (maxDepth * minDepth) / IpsDenominator(d, minDepth, maxDepth)
  }

  /** `metric_to_ips`: the inverse-perspective coordinate of depth `x`, `(max * x - max * min) / ((max - min) * x)`. */
  function MetricToIps(x: real, minDepth: real, maxDepth: real): real
    requires (maxDepth - minDepth) * x != 0.0
  {
    (maxDepth * x - maxDepth * minDepth) / ((maxDepth - minDepth) * x)
  }

  /** The coordinate 0 is the near depth and 1 the far depth. */
  lemma {:induction false} IpsToMetricEnds(minDepth: real, maxDepth: real)
    requires minDepth != 0.0 && maxDepth != 0.0
    ensures IpsDenominator(0.0, minDepth, maxDepth) != 0.0 && IpsToMetric(0.0, minDepth, maxDepth) == minDepth
    ensures IpsDenominator(1.0, minDepth, maxDepth) != 0.0 && IpsToMetric(1.0, minDepth, maxDepth) == maxDepth
  {
    assert IpsDenominator(1.0, minDepth, maxDepth) == minDepth;
  }

  /**
   * For `0 < min < max` the denominator is positive exactly below the pole
   * `max / (max - min)`, which lies beyond 1.
   */
  lemma {:induction false} IpsDenominatorSign(d: real, minDepth: real, maxDepth: real)
    requires 0.0 < minDepth < maxDepth
    ensures maxDepth / (maxDepth - minDepth) > 1.0
    ensures IpsDenominator(d, minDepth, maxDepth) > 0.0 <==> d < maxDepth / (maxDepth - minDepth)
  {
    var g := maxDepth - minDepth;
    var pole := maxDepth / g;
    assert pole * g == maxDepth;
    QuotientAboveOne(maxDepth, g);
    if d < pole {
      assert g * d < g * pole;
    } else {
      assert g * d >= g * pole;
    }
  }

  lemma {:induction false} QuotientAboveOne(n: real, g: real)
    requires 0.0 < g < n
    ensures n / g > 1.0
  {
    var q := n / g;
    assert q * g == n;
    if q <= 1.0 {
      MulMonotone(g, q, 1.0);
      assert false;
    }
  }

  /** Between the near plane and the pole the mapping is strictly increasing. */
  lemma {:induction false} IpsToMetricIncreasing(d1: real, d2: real, minDepth: real, maxDepth: real)
    requires 0.0 < minDepth < maxDepth
    requires d1 < d2 < maxDepth / (maxDepth - minDepth)
    ensures IpsDenominator(d1, minDepth, maxDepth) > 0.0 && IpsDenominator(d2, minDepth, maxDepth) > 0.0
    ensures IpsToMetric(d1, minDepth, maxDepth) < IpsToMetric(d2, minDepth, maxDepth)
  {
    IpsDenominatorSign(d1, minDepth, maxDepth);
    IpsDenominatorSign(d2, minDepth, maxDepth);
    var a, b := IpsDenominator(d1, minDepth, maxDepth), IpsDenominator(d2, minDepth, maxDepth);
    assert (maxDepth - minDepth) * d1 < (maxDepth - minDepth) * d2;
    assert 0.0 < b < a;
    DivideDecreasing(maxDepth * minDepth, b, a);
  }

  lemma {:induction false} DivideDecreasing(n: real, b: real, a: real)
    requires n > 0.0 && 0.0 < b < a
    ensures n / a < n / b
  {
    assert n / a * a == n == n / b * b;
    assert n / b * a > n / b * b;
  }

  /** On `[0, 1]` every depth lies between the near and the far depth. */
  lemma {:induction false} IpsToMetricBounds(d: real, minDepth: real, maxDepth: real)
    requires 0.0 < minDepth < maxDepth && 0.0 <= d <= 1.0
    ensures IpsDenominator(d, minDepth, maxDepth) > 0.0
    ensures minDepth <= IpsToMetric(d, minDepth, maxDepth) <= maxDepth
  {
    IpsDenominatorSign(d, minDepth, maxDepth);
    IpsToMetricEnds(minDepth, maxDepth);
    IpsDenominatorSign(1.0, minDepth, maxDepth);
    if 0.0 < d {
      IpsToMetricIncreasing(0.0, d, minDepth, maxDepth);
    }
    if d < 1.0 {
      IpsToMetricIncreasing(d, 1.0, minDepth, maxDepth);
    }
  }

  /** `metric_to_ips` undoes `ips_to_metric` wherever the latter is defined. */
  lemma {:induction false} MetricToIpsOfIpsToMetric(d: real, minDepth: real, maxDepth: real)
    requires minDepth != 0.0 && maxDepth != 0.0 && minDepth != maxDepth
    requires IpsDenominator(d, minDepth, maxDepth) != 0.0
    ensures (maxDepth - minDepth) * IpsToMetric(d, minDepth, maxDepth) != 0.0
    ensures MetricToIps(IpsToMetric(d, minDepth, maxDepth), minDepth, maxDepth) == d
  {
    var den := IpsDenominator(d, minDepth, maxDepth);
    var p := maxDepth * minDepth;
    var x := p / den;
    var g := maxDepth - minDepth;
    assert x * den == p;
    assert x != 0.0;
    assert g * x != 0.0;
    // max * x - max * min == max * x * (1 - den / max) * ... expressed through x * den == p
    assert maxDepth * x - maxDepth * minDepth == x * (maxDepth - den);
    assert maxDepth - den == g * d;
    assert maxDepth * x - maxDepth * minDepth == (g * x) * d;
  }

  lemma {:induction false} DivOfProduct(a: real, b: real, c: real)
    requires a != 0.0 && a * b == c
    ensures c / a == b
  {
  }

  /** `ips_to_metric` undoes `metric_to_ips` for every non-zero depth. */
  lemma {:induction false} IpsToMetricOfMetricToIps(x: real, minDepth: real, maxDepth: real)
    requires minDepth != 0.0 && maxDepth != 0.0 && minDepth != maxDepth && x != 0.0
    ensures (maxDepth - minDepth) * x != 0.0
    ensures IpsDenominator(MetricToIps(x, minDepth, maxDepth), minDepth, maxDepth) != 0.0
    ensures IpsToMetric(MetricToIps(x, minDepth, maxDepth), minDepth, maxDepth) == x
  {
    var g := maxDepth - minDepth;
    assert g * x != 0.0;
    var u := MetricToIps(x, minDepth, maxDepth);
    assert u * (g * x) == maxDepth * x - maxDepth * minDepth;
    var den := IpsDenominator(u, minDepth, maxDepth);
    assert den * x == maxDepth * x - (g * u) * x;
    assert den * x == maxDepth * minDepth;
    assert den != 0.0;
    DivOfProduct(den, x, maxDepth * minDepth);
  }

  // ---------------------------------------------------------------------
  // complex_matmul / complex_transpose

  datatype Complex = Complex(re: real, im: real)

  function CAdd(a: Complex, b: Complex): Complex
  {
    Complex(a.re + b.re, a.im + b.im)
  }

  /** The complex product `(a.re + i a.im)(b.re + i b.im)`. */
  function CMul(a: Complex, b: Complex): Complex
  {
    Complex(a.re * b.re - a.im * b.im, a.im * b.re + a.re * b.im)
  }

  /** The complex inner product `sum_k u[k] * v[k]`, the reference the split product is checked against. */
  function CDot(u: seq<Complex>, v: seq<Complex>): Complex
    requires |u| == |v|
  {
    if |u| == 0 then Complex(0.0, 0.0)
    else CAdd(CDot(u[..|u| - 1], v[..|v| - 1]), CMul(u[|u| - 1], v[|v| - 1]))
  }

  /** The complex vector with real parts `re` and imaginary parts `im`. */
  function Zip(re: seq<real>, im: seq<real>): (z: seq<Complex>)
    requires |re| == |im|
    ensures |z| == |re|
  {
    seq(|re|, k requires 0 <= k < |re| => Complex(re[k], im[k]))
  }

  lemma {:induction false} ZipPrefix(re: seq<real>, im: seq<real>, n: nat)
    requires |re| == |im| && n <= |re|
    ensures Zip(re, im)[..n] == Zip(re[..n], im[..n])
  {
  }

  /** The real part of a complex inner product: `ur . vr - ui . vi`. */
  lemma {:induction false} CDotRe(ur: seq<real>, ui: seq<real>, vr: seq<real>, vi: seq<real>)
    requires |ur| == |ui| == |vr| == |vi|
    ensures CDot(Zip(ur, ui), Zip(vr, vi)).re == Dot(ur, vr) - Dot(ui, vi)
  {
    if |ur| > 0 {
      var n := |ur| - 1;
      ZipPrefix(ur, ui, n);
      ZipPrefix(vr, vi, n);
      CDotRe(ur[..n], ui[..n], vr[..n], vi[..n]);
    }
  }

  /** The imaginary part of a complex inner product: `ui . vr + ur . vi`. */
  lemma {:induction false} CDotIm(ur: seq<real>, ui: seq<real>, vr: seq<real>, vi: seq<real>)
    requires |ur| == |ui| == |vr| == |vi|
    ensures CDot(Zip(ur, ui), Zip(vr, vi)).im == Dot(ui, vr) + Dot(ur, vi)
  {
    if |ur| > 0 {
      var n := |ur| - 1;
      ZipPrefix(ur, ui, n);
      ZipPrefix(vr, vi, n);
      CDotIm(ur[..n], ui[..n], vr[..n], vi[..n]);
    }
  }

  /** A complex tensor seen through its `.real` and `.imag` parts. */
  datatype ComplexMatrix = ComplexMatrix(re: Matrix, im: Matrix)

  /** Both parts are `h x w`. */
  ghost predicate IsComplexRect(a: ComplexMatrix, h: nat, w: nat)
  {
    IsRect(a.re, h, w) && IsRect(a.im, h, w)
  }

  /** Entry `(i, j)` as one complex number. */
  function At(a: ComplexMatrix, i: nat, j: nat): Complex
    requires i < |a.re| && i < |a.im| && j < |a.re[i]| && j < |a.im[i]|
  {
    Complex(a.re[i][j], a.im[i][j])
  }

  /** Row `i` as a complex vector. */
  function RowOf(a: ComplexMatrix, i: nat, k: nat): seq<Complex>
    requires IsComplexRect(a, |a.re|, k) && i < |a.re|
  {
    Zip(a.re[i], a.im[i])
  }

  /** Column `j` as a complex vector. */
  function ColumnOf(a: ComplexMatrix, j: nat, p: nat): seq<Complex>
    requires IsComplexRect(a, |a.re|, p) && j < p
  {
    Zip(Column(a.re, j), Column(a.im, j))
  }

  /**
   * `complex_matmul(a, b)` for an `n x k` and a `k x p` matrix: the real part
   * is `ar @ br - ai @ bi`, the imaginary part `ai @ br + ar @ bi`.
   */
  function ComplexMatmul(a: ComplexMatrix, b: ComplexMatrix, n: nat, k: nat, p: nat): (r: ComplexMatrix)
    requires IsComplexRect(a, n, k) && IsComplexRect(b, k, p)
    ensures IsComplexRect(r, n, p)
  {
    ComplexMatrix(
      Sub(MatMul(a.re, b.re, k, p), MatMul(a.im, b.im, k, p)),
      Add(MatMul(a.im, b.re, k, p), MatMul(a.re, b.im, k, p)))
  }

  /**
   * Each entry of the split product is the complex inner product of a row
   * of `a` with a column of `b`: the four real products implement complex
   * matrix multiplication.
   */
  lemma {:induction false} ComplexMatmulEntry(a: ComplexMatrix, b: ComplexMatrix, n: nat, k: nat, p: nat, i: nat, j: nat)
    requires IsComplexRect(a, n, k) && IsComplexRect(b, k, p) && i < n && j < p
    ensures At(ComplexMatmul(a, b, n, k, p), i, j) == CDot(RowOf(a, i, k), ColumnOf(b, j, p))
  {
    CDotRe(a.re[i], a.im[i], Column(b.re, j), Column(b.im, j));
    CDotIm(a.re[i], a.im[i], Column(b.re, j), Column(b.im, j));
  }

  /** `complex_transpose(a)`: both parts transposed. */
  function ComplexTranspose(a: ComplexMatrix): (r: ComplexMatrix)
    requires Rect(a.re) && Rect(a.im)
  {
    ComplexMatrix(Transpose(a.re), Transpose(a.im))
  }

  /** Entry `(j, i)` of the transpose is entry `(i, j)`, and transposing twice is the identity. */
  lemma {:induction false} ComplexTransposeTwice(a: ComplexMatrix, h: nat, w: nat)
    requires IsComplexRect(a, h, w) && h >= 1 && w >= 1
    ensures IsComplexRect(ComplexTranspose(a), w, h)
    ensures forall i, j :: 0 <= i < h && 0 <= j < w ==> At(ComplexTranspose(a), j, i) == At(a, i, j)
    ensures ComplexTranspose(ComplexTranspose(a)) == a
  {
    assert Width(a.re) == w && Width(a.im) == w;
    TransposeTwice(a.re);
    TransposeTwice(a.im);
  }
}
